=== FILE: README.md ===
# htmlua page rendering, modelled in Dafny

htmlua serves HTML pages that carry two kinds of custom markup.

- An `include` element with a `path` attribute is meant to be replaced by a component file
  read from the components directory. The component is expanded first, with the `include` as
  its caller. Inside a component, an `includeelement` placeholder with a `name` pulls in the
  children of the caller's `exportelement` whose class list holds that name, and the
  `exportelement` goes away with its `include`. The loop as written replaces only the first
  such `include` of each document (see "## Findings").
- A `lua` element whose first child is text is a script region. Its text is run by an
  embedded Lua interpreter, and the region is replaced by a text node holding what the
  script wrote through `htmlua.print` and `htmlua.println`.

A request path is stripped of its leading separator and joined onto the pages directory. The
file is read as a whole document when its first line is the HTML doctype, and as a fragment
otherwise. Then it is expanded, run through the script pass and serialised.

The model has one module per concern:

| file | module | what it holds |
|---|---|---|
| `results.dfy` | `Results` | the error kinds, `Result` and `Option` |
| `tree.dfy` | `Tree` | the document tree, the labels a selector sees, subtree removal, class lists |
| `output.dfy` | `Output` | the `print`/`println` capture functions and the per-region buffer |
| `scripts.dfy` | `Scripts` | the script pass (`execute_lua`) |
| `paths.dfy` | `Paths` | pushing a path onto a directory, stripping the root from a request |
| `slots.dfy` | `Slots` | filling `includeelement` placeholders from the caller's export regions |
| `templates.dfy` | `Templates` | include expansion (`expand_template`) |
| `documents.dfy` | `Documents` | whole-document or fragment classification (`read_doc_from_file`) |
| `lib.dfy` | `Lib` | the library's `parse` entry point |
| `serve.dfy` | `Serve` | the request pipeline (`serve_content`) |

Some things are parameters of the model rather than definitions:

- The file system is a map from full path to text.
- The HTML parser's two entry points are functions from text to a forest. The tree has
  elements, text and document nodes only; comments and doctype nodes are not represented
  (see "## Left out").
- The serialiser is a function from a forest to text.
- The Lua interpreter is a function from the chunks already run in this pass, and the chunk
  to run, to either a raised error or the sequence of capture calls the chunk made.

Two proofs carry most of the weight.

- The script pass is defined region by region, as the program walks it. It is proved equal to
  a reference that first runs every chunk in document order and then splices the outputs into
  the tree (`Scripts.RunNodeMatches`, `Scripts.RunForestMatches`).
- Include expansion, with every include replaced, terminates when the include graph is
  acyclic. This is stated as a ranking of component files (`Templates.WellFormed`). Expansion
  is proved to leave no expandable
  include behind, and its result is characterised exactly: each include becomes its
  component, expanded with the include as caller, and every other node is kept over its
  expanded children (`Templates.ExpandTemplateContent`, `Templates.ExpandTemplateExact`).

### Behaviour of the code that the model keeps

- Export children are inserted one by one straight after the placeholder, so they land in
  reverse order. `Slots.MovedReversedExample` shows the reversal.
- The placeholder walk is lazy, so it also visits what was just moved in: after a
  placeholder's own children it reaches the moved children, and a placeholder among them is
  filled from what is left of the export regions. `Slots.ForwardedSlotExample` shows a
  moved-in placeholder failing.
- The export region is searched among all descendants of the calling `include`, not only its
  children.
- An expanded component is inserted as one document node before the `include`, not as its
  top-level nodes.
- One Lua state serves every region of a pass, so a chunk can see what earlier chunks
  defined. The output buffer is shared but cleared before each region, so each region's text
  is only its own output.
- The pipeline runs include expansion and then the script pass, and nothing else.
- The pages and components directories are fixed constants (`/var/www/htmlua/pages` and
  `/var/www/htmlua/components`).
- The HTML parser never fails, so there is no parse error.

## Model

| member | source | states |
|---|---|---|
| Output.Written | htmlua-parser/src/render.rs:17-33 | `print` writes exactly its text and `println` its text followed by one newline |
| Output.FlushIsConcatenation | htmlua-parser/src/render.rs:17-33 | the buffer after a run of calls is the old contents followed by each call's text in order |
| Output.RenderConcat | htmlua-parser/src/render.rs:17-33 | the text of two call sequences run in turn is the two texts joined |
| Output.Flush | htmlua-parser/src/render.rs:20-31 | appending call by call never loses what the buffer held: its old contents stay in front |
| Output.Clear | htmlua-parser/src/render.rs:58 | after the buffer is cleared it holds exactly what the following calls write, whatever it held before |
| Output.RegionOutput | htmlua-parser/src/render.rs:58-63 | the text a region gets is exactly its own calls' output, whatever earlier regions left in the buffer |
| Output.PrintlnExample | htmlua-parser/src/render.rs:125-133 | `println("Test from Lua!")` gives `"Test from Lua!\n"`, even over a stale buffer |
| Output.MixedCallsExample | htmlua-parser/src/render.rs:17-33 | `print("a")`, `println("b")`, `print("c")` give `"ab\nc"` |
| Scripts.RunAll | htmlua-parser/src/render.rs:55-67 | running the chunks in order yields one output per chunk, or the first error |
| Scripts.RunAllConcat | htmlua-parser/src/render.rs:55-61 | running `a + b` is running `a`, then `b` in the interpreter state `a` left; the first error stops everything |
| Scripts.ChunksConcat | htmlua-parser/src/render.rs:50-57 | the regions of a forest are found tree by tree, in document order |
| Scripts.RunOne | htmlua-parser/src/render.rs:58-63 | one chunk that runs yields exactly the text of its capture calls |
| Scripts.SpliceNode | htmlua-parser/src/render.rs:62-64 | a region becomes a text node and every other node keeps its kind, tag, attributes and child count; with no outputs the node is unchanged |
| Scripts.SpliceForest | htmlua-parser/src/render.rs:62-64 | the forest keeps its length and each node stays in place as above; with no outputs the forest is unchanged |
| Scripts.SpliceRegion | htmlua-parser/src/render.rs:62-64 | a lone region, bare or inside a `span`, becomes one text node holding its output |
| Scripts.SpliceNodeLabels | htmlua-parser/src/render.rs:50-67 | splicing adds no element, and no `lua` element is left exactly when the node had no stray one (not a region and not inside a region) |
| Scripts.SpliceForestLabels | htmlua-parser/src/render.rs:50-67 | the same for a forest |
| Scripts.RunNode | htmlua-parser/src/render.rs:55-66 | on success a region becomes a text node and any other node keeps its kind, tag, attributes and child count; the interpreter has then run exactly the chunks below the node, in document order, after the earlier ones; a failure names one of those chunks |
| Scripts.RunForest | htmlua-parser/src/render.rs:55-67 | the forest keeps its length; its chunks run once each, in document order, after the earlier ones; a failure names one of them |
| Scripts.RunNodeMatches | htmlua-parser/src/render.rs:50-67 | the region-by-region walk equals the reference (run all chunks, then splice), and the interpreter has then run exactly the node's chunks |
| Scripts.RunForestMatches | htmlua-parser/src/render.rs:50-67 | the same for a forest, threading the interpreter state from tree to tree |
| Scripts.ExecuteLua | htmlua-parser/src/render.rs:37-70 | the pass equals the reference; on success every node stays in place, no element is added, and no `lua` element is left exactly when the document had no stray one |
| Scripts.TwoRegionsExample | htmlua-parser/src/render.rs:137-163 | two regions run in document order, the second after the first, and each is replaced by its own line |
| Scripts.UntouchedExample | htmlua-parser/src/render.rs:56-57 | a `lua` element whose first child is not text is left as it is, and nothing runs |
| Scripts.FailureExample | htmlua-parser/src/render.rs:59-61 | the first chunk that raises is the pass's error |
| Scripts.LeftoverRegionExample | htmlua-parser/src/render.rs:50-67 | an outer `lua` element whose first child is a region survives the pass and then holds text, so it is a region to a second pass |
| Paths.Join | htmlua-parser/src/render.rs:98-99 | an absolute path replaces the directory; a relative path pushed onto an empty directory stays as it is; otherwise the path follows the directory, with one separator added when the directory does not already end in one |
| Paths.DropSeparators | htmlua-parser/src/serve.rs:13 | the result is a suffix of the input with no leading separator, and only separators were dropped |
| Paths.StripRoot | htmlua-parser/src/serve.rs:13 | a request path is accepted exactly when it starts with the separator; the result is a strictly shorter suffix that is not absolute; a refusal names the path |
| Paths.StrippedJoinShape | htmlua-parser/src/serve.rs:13-14 | joining a stripped request path onto a root gives the root, one separator, then the stripped path |
| Paths.StripRootInverse | htmlua-parser/src/serve.rs:13 | putting the separator back in front of a path without one undoes stripping |
| Paths.EmptyDirectoryExample | htmlua-parser/src/render.rs:98-99 | `a.html` pushed onto an empty directory stays `a.html` |
| Paths.JoinExample | htmlua-parser/src/serve.rs:10-14 | `index.html` below the pages directory is `/var/www/htmlua/pages/index.html` |
| Paths.AbsoluteIncludeExample | htmlua-parser/src/render.rs:97-99 | an include path `/etc/passwd` escapes the components directory |
| Paths.StripRootExample | htmlua-parser/src/serve.rs:13 | `//a.html` becomes `a.html`; `a.html` is refused |
| Tree.Strip | htmlua-parser/src/render.rs:85-87 | no element with the tag is left, no element is added, and a forest without the tag is unchanged |
| Tree.StripConcat | htmlua-parser/src/render.rs:85-87 | removal works tree by tree |
| Tree.LabelsConcat | htmlua-parser/src/render.rs:85-87 | the elements of two forests side by side are those of each, in order |
| Tree.FreeCons | htmlua-parser/src/render.rs:85-87 | a forest is free of a tag exactly when its first tree and the rest are |
| Tree.DetachFirst | htmlua-parser/src/render.rs:85-86 | detaching the first element with the tag shrinks the forest and does not change what full removal gives |
| Tree.RemoveAll | htmlua-parser/src/render.rs:85-87 | the detach loop ends with no element of the tag left, and with the same forest as removing them all at once |
| Tree.Reverse | htmlua-parser/src/render.rs:82 | each moved child lands at the mirrored position |
| Tree.LabelsReverse | htmlua-parser/src/render.rs:82 | reversing the moved children keeps their elements |
| Tree.SizeReverse | htmlua-parser/src/render.rs:82 | reversing the moved children keeps their size |
| Tree.LeadingWord | htmlua-parser/src/render.rs:80 | the first class name is the longest separator-free prefix |
| Tree.Words | htmlua-parser/src/render.rs:80 | class names are non-empty and hold no separator; every word of the class attribute is listed, and everything listed is a word of it |
| Tree.HasClass | htmlua-parser/src/render.rs:80 | an element matches `exportelement.name` exactly when it has a class attribute and the name is one of its whitespace-separated words |
| Slots.FirstExport | htmlua-parser/src/render.rs:79-81 | what is found is one of the candidates and an export region for the name; when nothing is found no candidate is one |
| Slots.FirstExportIsFirst | htmlua-parser/src/render.rs:79-81 | what is found sits at a position no export region for the name comes before: the first match in document order |
| Slots.FirstExportConcat | htmlua-parser/src/render.rs:79-81 | the first match in `a + b` is the first in `a`, else the first in `b` |
| Slots.TakeNode | htmlua-parser/src/render.rs:79-82 | something is taken exactly when an export region for the name exists, and otherwise nothing changes; what is taken and what is left together hold as many nodes as before; no element is added |
| Slots.TakeForest | htmlua-parser/src/render.rs:79-82 | the same for the forest of export regions |
| Slots.TakeNodeIsFirst | htmlua-parser/src/render.rs:79-82 | what is taken is the children of the first export region in document order |
| Slots.TakeForestIsFirst | htmlua-parser/src/render.rs:79-82 | the same for a forest |
| Slots.TakeNodeCut | htmlua-parser/src/render.rs:79-82 | in the walk through the tree, what is left is the original with exactly the taken children cut out right after the opening of the first export region for the name, which is then closed at once; nothing else changes; with no such region none is opened anywhere |
| Slots.TakeForestCut | htmlua-parser/src/render.rs:79-82 | the same for the forest of export regions |
| Slots.FillNode | htmlua-parser/src/render.rs:74-84 | content is moved, never copied: the result and the remaining export regions hold as many nodes as the tree and the export regions before, and the regions never grow; the visited node stays first with its tag and attributes, and only a named placeholder is followed by moved content; text is unchanged; the only failure is a missing slot |
| Slots.FillForest | htmlua-parser/src/render.rs:74-84 | the forest and the export regions together keep their node count, the regions never grow, and the only failure is a missing slot |
| Slots.FillNodeLabels | htmlua-parser/src/render.rs:74-84 | filling adds only what it moved out of the export regions, the regions only lose content, and every named placeholder found a region |
| Slots.FillForestLabels | htmlua-parser/src/render.rs:74-84 | the same for a forest |
| Slots.FillSlotFree | htmlua-parser/src/render.rs:74-84 | a forest with no named placeholder is left as it is, and so are the export regions |
| Slots.FillSlotPlacement | htmlua-parser/src/render.rs:79-84 | a filled named placeholder found the first export region for its name in document order, and when that region's children hold no named placeholder they follow the placeholder in reverse order |
| Slots.TakeNodeFlat | htmlua-parser/src/render.rs:79-82 | with no export region inside another, taking keeps every region |
| Slots.TakeForestFlat | htmlua-parser/src/render.rs:79-82 | the same for a forest |
| Slots.FillNodeSucceeds | htmlua-parser/src/render.rs:74-84 | with flat export regions, filling succeeds when every named placeholder, of the tree or of the export regions whose content may be moved in, has an export region |
| Slots.FillForestSucceeds | htmlua-parser/src/render.rs:74-84 | the same for a forest |
| Slots.FillSlots | htmlua-parser/src/render.rs:73-88 | afterwards no placeholder is left; only moved content is added; every named placeholder had an export region; the only error is a missing slot |
| Slots.FillForestConcat | htmlua-parser/src/render.rs:74-84 | the walk fills two forests side by side in turn, the second with the export regions the first left |
| Slots.FillSlotsSlotFree | htmlua-parser/src/render.rs:73-88 | a component with no named placeholder keeps all its content, and only unnamed placeholders are removed |
| Slots.FillSlotsAround | htmlua-parser/src/render.rs:73-88 | a placeholder between placeholder-free content gets the first matching region's children, reversed, in its place, and the content before and after it is kept |
| Slots.FillSlotsFailsIff | htmlua-parser/src/render.rs:74-84 | with flat export regions, filling succeeds when every named placeholder of the page and of the export regions has a region, and fails when one of the page has none; when the export regions hold no placeholder, it fails exactly when some named placeholder of the page has no region |
| Slots.ClassExample | htmlua-parser/src/render.rs:80 | `exportelement.el1` matches class `el1` and not `el2` |
| Slots.TakeExample | htmlua-parser/src/render.rs:79-82 | taking from an export region empties it, and a second take finds it empty |
| Slots.FirstSlotExample | htmlua-parser/src/render.rs:82-84 | the first placeholder gets the export's two children, reversed, after it, and the walk then visits them unchanged |
| Slots.TextsExample | htmlua-parser/src/render.rs:74-84 | moved-in text is visited and left as it is |
| Slots.SecondSlotExample | htmlua-parser/src/render.rs:79-84 | a second placeholder for the same name finds the emptied region and gets nothing |
| Slots.StripExample | htmlua-parser/src/render.rs:85-87 | removing the placeholders leaves just the moved children |
| Slots.MovedReversedExample | htmlua-parser/src/render.rs:82 | two moved children land in reverse order, and a second placeholder with the same name gets nothing |
| Slots.TwoSlotsExample | htmlua-parser/src/render.rs:74-84 | two placeholders for one name: the first gets the reversed children, the second nothing |
| Slots.MissingExportExample | htmlua-parser/src/render.rs:79-81 | a placeholder with no export region fails with a missing slot |
| Slots.ForwardedSlotExample | htmlua-parser/src/render.rs:74-84 | a placeholder carried in by moved content is visited, and fails when its name has no export region left |
| Templates.WellNestedConcat | htmlua-parser/src/render.rs:89-106 | nesting is checked tree by tree |
| Templates.StripWellNested | htmlua-parser/src/render.rs:85-87 | removing placeholders keeps includes well nested |
| Templates.FreeWellNested | htmlua-parser/src/render.rs:89-106 | a forest with no expandable include is well nested |
| Templates.FillForestWellNested | htmlua-parser/src/render.rs:74-84 | filling slots from include-free exports keeps includes well nested |
| Templates.FillSlotsWellNested | htmlua-parser/src/render.rs:73-88 | filling from include-free export regions keeps includes well nested |
| Templates.Target | htmlua-parser/src/render.rs:98-99 | an absolute include path replaces the components directory; a relative one is looked up below it, after one separator, and an empty components directory leaves it relative |
| Templates.Expand | htmlua-parser/src/render.rs:72-108 | on success no expandable include is left; with a caller no placeholder is left and every named one found a region; without a caller every include's file existed, the forest keeps its length, and each include became a document node while every other node kept its shell; errors are a missing slot or an unreadable component; a document with nothing to expand comes back unchanged |
| Templates.ExpandNode | htmlua-parser/src/render.rs:93-105 | on success the include's file existed and no expandable include is left; an include becomes a document node and any other node keeps its shell; errors are a missing slot or an unreadable component; a node with nothing to expand is unchanged |
| Templates.ExpandForest | htmlua-parser/src/render.rs:89-106 | every include of the forest is expanded in place, and the forest keeps its length |
| Templates.ExpandedCons | htmlua-parser/src/render.rs:89-106 | expanding the first tree and the rest in place expands the whole forest in place |
| Templates.ExpandedBelow | htmlua-parser/src/render.rs:89-106 | a non-include node rebuilt over its expanded children keeps its shell and has nothing left to expand |
| Templates.ExpandPassesFree | htmlua-parser/src/render.rs:89-106 | a tree with nothing to expand passes through unchanged ahead of the rest |
| Templates.ExpandSingle | htmlua-parser/src/render.rs:89-106 | a forest of one tree expands as that tree does |
| Templates.ExpandTemplate | htmlua-parser/src/render.rs:72-108 | the whole expansion, with the contract of `Expand` |
| Templates.ExpandNodeContent | htmlua-parser/src/render.rs:89-105 | a successful expansion of a tree is that tree expanded: an include becomes a document node holding its component expanded with the include as caller, any other element keeps its tag and attributes over its children expanded, and text is unchanged |
| Templates.ExpandForestContent | htmlua-parser/src/render.rs:89-106 | the same for a forest, tree by tree |
| Templates.ExpandTemplateContent | htmlua-parser/src/render.rs:72-108 | a successful expansion is the document expanded include by include, after filling its slots when it has a caller |
| Templates.ExpandNodeExact | htmlua-parser/src/render.rs:89-105 | conversely, whatever is the tree expanded is what the expansion returns |
| Templates.ExpandForestExact | htmlua-parser/src/render.rs:89-106 | the same for a forest |
| Templates.ExpandTemplateExact | htmlua-parser/src/render.rs:89-107 | a page without caller expands to exactly the page expanded include by include |
| Templates.ExpandedAsAt | htmlua-parser/src/render.rs:89-106 | read position by position, each tree of an expansion is the matching tree expanded |
| Templates.ExpandTemplateIdempotent | htmlua-parser/src/render.rs:89-106 | expanding an expanded document again gives it back |
| Templates.LevelsWellFormed | htmlua-parser/src/render.rs:97-102 | a two-level include chain is acyclic |
| Templates.InnerExpansion | htmlua-parser/src/render.rs:97-104 | the innermost component comes back unchanged |
| Templates.MiddleExpansion | htmlua-parser/src/render.rs:97-104 | one include becomes the included document |
| Templates.OuterExpansion | htmlua-parser/src/render.rs:97-104 | the outer include becomes a document holding the inner document |
| Templates.RecursiveIncludeExample | htmlua-parser/src/render.rs:222-242 | a page including a component that includes another ends with the span `included_twice` and no include left |
| Templates.TakeForestIn | htmlua-parser/src/render.rs:79-82 | taking from the children of an include leaves regions only among them, and what is taken holds no region |
| Templates.FillForestIn | htmlua-parser/src/render.rs:74-84 | filling a component's slots from an include's children moves no export region into the component |
| Templates.FillSlotsIn | htmlua-parser/src/render.rs:73-88 | a filled component keeps its own export regions inside its includes |
| Templates.ExpandNoRegion | htmlua-parser/src/render.rs:72-108 | when every export region sits among the children of an expandable include, outside other regions, expansion leaves none |
| Templates.ExpandTemplateNoRegion | htmlua-parser/src/render.rs:72-108 | the same for a page without caller |
| Templates.WantsExample | htmlua-parser/src/render.rs:74-87 | placeholders `el1` and `el2` get the spans of export regions `el1` and `el2`, in their places |
| Templates.ExportElementExample | htmlua-parser/src/render.rs:245-270 | an include with export regions `el1` and `el2` and a component holding the two placeholders expands to the two spans, with neither an export region nor a placeholder left |
| Templates.LazyForest | htmlua-parser/src/render.rs:89-106 | the loop as written: the forest keeps its length; an include was replaced exactly when there was an expandable one, and then what follows the first tree holding one is kept; otherwise nothing changes |
| Templates.LazyNode | htmlua-parser/src/render.rs:89-106 | the loop as written on one tree: it stops after replacing an include exactly when the tree holds one; an expandable include becomes a document node; otherwise the tree is unchanged |
| Templates.LazyExpand | htmlua-parser/src/render.rs:72-108 | the loop as written keeps the length of a page without caller and leaves a page with nothing to expand unchanged; errors are a missing slot or an unreadable component |
| Templates.SecondIncludeKeptExample | htmlua-parser/src/render.rs:89-106 | of two sibling includes the loop as written replaces the first and keeps the second, where expanding every include replaces both |
| Documents.FirstLine | htmlua-parser/src/helpers.rs:19-20 | the first line is a prefix that ends at the first newline, or is the whole text |
| Documents.TrimStart | htmlua-parser/src/helpers.rs:21 | the result is a suffix, only whitespace was dropped, and it does not start with whitespace |
| Documents.TrimEnd | htmlua-parser/src/helpers.rs:21 | the result is a prefix, only whitespace was dropped, and it does not end with whitespace |
| Documents.Trim | htmlua-parser/src/helpers.rs:21 | the result is a piece of the text with only whitespace around it, and it neither starts nor ends with whitespace |
| Documents.TrimUnique | htmlua-parser/src/helpers.rs:21 | trimming recovers any text that neither starts nor ends with whitespace, whatever whitespace surrounds it |
| Documents.TrimStartPast | htmlua-parser/src/helpers.rs:21 | leading whitespace in front of a non-space character is dropped exactly |
| Documents.TrimEndPast | htmlua-parser/src/helpers.rs:21 | trailing whitespace after a non-space character is dropped exactly |
| Documents.AsciiLower | htmlua-parser/src/helpers.rs:23 | upper-case ASCII letters map to lower case, every other character is unchanged |
| Documents.EqualsIgnoringAsciiCase | htmlua-parser/src/helpers.rs:23 | equal texts compare equal, and texts that compare equal have the same length |
| Documents.EqualsIgnoringAsciiCaseLowers | htmlua-parser/src/helpers.rs:23 | two texts compare equal exactly when they agree once their ASCII letters are lowered |
| Documents.IsWholeDocument | htmlua-parser/src/helpers.rs:19-23 | a whole document is at least as long as the doctype |
| Documents.FirstLineOfJoin | htmlua-parser/src/helpers.rs:19-20 | the line reader stops at the first newline, whatever follows |
| Documents.OnlyFirstLineMatters | htmlua-parser/src/helpers.rs:19-23 | two files with the same first line are classified alike |
| Documents.DoctypeLineIsWhole | htmlua-parser/src/helpers.rs:19-23 | a first line holding the doctype in any ASCII case, with any non-newline whitespace around it, makes a whole document |
| Documents.BareDoctypeLineIsWhole | htmlua-parser/src/helpers.rs:19-23 | a first line that is exactly the doctype, in any ASCII case, makes a whole document |
| Documents.FirstLineWhole | htmlua-parser/src/helpers.rs:19-20 | a text without a newline is its own first line |
| Documents.TrimDropsNewline | htmlua-parser/src/helpers.rs:21 | the newline the line reader keeps makes no difference to the trimmed line |
| Documents.NoNewlineNeeded | htmlua-parser/src/helpers.rs:19-23 | a file that is one line without a newline is classified as that line followed by a newline and more text |
| Documents.BareDoctypeFileIsWhole | htmlua-parser/src/helpers.rs:19-23 | a file that is exactly the doctype, in any ASCII case and with no newline, is a whole document |
| Documents.DoctypeOnlyExample | htmlua-parser/src/helpers.rs:19-23 | the file `<!DOCTYPE html>` on its own is a whole document |
| Documents.LowerCaseDoctype | htmlua-parser/src/helpers.rs:23 | `<!doctype HTML>` equals the doctype ignoring ASCII case |
| Documents.ReadDocFromFile | htmlua-parser/src/helpers.rs:15-35 | a missing file is an error naming the path; otherwise the whole text goes to the document parser when the first line is the doctype and to the fragment parser when it is not |
| Documents.LowerCaseDoctypeExample | htmlua-parser/src/helpers.rs:23 | `<!doctype HTML>` on the first line makes a whole document |
| Documents.IndentedDoctypeExample | htmlua-parser/src/helpers.rs:21-23 | an indented doctype line ending in `\r\n` makes a whole document |
| Documents.FragmentExample | htmlua-parser/src/helpers.rs:29-34 | a file starting with a `div` is a fragment |
| Documents.BlankFirstLineExample | htmlua-parser/src/helpers.rs:19-23 | a doctype on the second line does not count |
| Lib.Parse | htmlua-parser/src/lib.rs:44-81 | the library entry point equals the reference script pass on the parsed document; an error names one of its chunks; on success no element is added and no `lua` element is left exactly when none was stray |
| Lib.RunAllFailsOnChunk | htmlua-parser/src/lib.rs:66-72 | a failed run names one of the chunks it was given |
| Lib.BaseExample | htmlua-parser/src/lib.rs:87-108 | the library's base page renders its span as `Test from Lua!\n` with no `lua` left |
| Serve.PagePath | htmlua-parser/src/serve.rs:13-14 | a rooted request path names a file below the pages directory whose relative part is a suffix of the request; an unrooted one is refused |
| Serve.Page | htmlua-parser/src/serve.rs:13-16 | a page is read exactly when the request is rooted and its file exists; an unrooted request and a missing file fail with those errors; the whole text goes to the document parser when its first line is the doctype and to the fragment parser otherwise |
| Serve.ComponentTarget | htmlua-parser/src/serve.rs:11-18 | a relative include path names the file below the components directory |
| Serve.RenderPage | htmlua-parser/src/serve.rs:8-19 | a failure to read the page is the error; otherwise a failed expansion is the error, and a successful one is run through the script pass, whose result is the result; on success every include target existed and no expandable include is left |
| Serve.RenderPageContent | htmlua-parser/src/serve.rs:16-19 | a served page is the page read, expanded include by include, then run through the script pass |
| Serve.ServeContent | htmlua-parser/src/serve.rs:8-22 | serving succeeds exactly when rendering does, the text is the serialised rendered page, and a failure is rendering's error |
| Serve.ScriptsRunLast | htmlua-parser/src/serve.rs:16-19 | while reading or expansion fails, the interpreter makes no difference to the result |
| Serve.ServeAgreesWithLibrary | htmlua-parser/src/serve.rs:16-19 | a whole-document page without includes is rendered exactly as the library's `parse` renders its text |
| Serve.PlainPageUnchanged | htmlua-parser/src/serve.rs:16-21 | a page with neither includes nor regions is served as parsed |
| Serve.ServeExample | htmlua-parser/src/serve.rs:8-22 | the request `/a` reads a fragment holding one region and serves the region's output |

## Left out

- The Lua language itself. A chunk's effect is a parameter: the capture calls it makes, or an
  error.
- Creating the Lua capture table and setting the `htmlua` global can fail in the code. These
  failures are not modelled, because they depend on the interpreter's allocator.
- HTML parsing and serialisation are parameters, so malformed markup has no error here. The
  parser in the code accepts any text.
- Comment and doctype nodes are not represented in the tree. In the code a `lua` element whose
  first child is a comment is not a script region, because that child is not text. A parser
  parameter must therefore put a non-text node where the code's tree has a comment or a
  doctype; one that drops the comment would make the following text a region, which the code
  does not run.
- Selector parse errors ("Unable to find Lua", "Error finding include", "Error finding
  includeelement") cannot happen with the constant selectors used, so they are not modelled.
- Slots.FillSlots: every placeholder name is read as one class word. In the code the name is
  pasted into the selector `exportelement.{name}`, so a name that is not a plain CSS
  identifier selects something else: `a b` is a descendant selector, `a.b` asks for both
  classes, `a,b` is a list of two selectors, and a name that is no selector fails to parse
  with "Error finding exportelement". None of this is modelled.
- Templates.ExpandTemplateNoRegion: it holds only when the page and every component keep
  their export regions among the children of expandable includes, outside other regions
  (`Templates.ForestIn`, `Templates.ComponentsIn`). A region elsewhere is never consumed and
  stays in the result, in the code as in the model.
- Serve.RenderPage: its acyclicity and nesting condition (`WellFormed(Store(site), rank)`)
  covers every readable file, pages included and whether or not the page reaches it. A site
  with one self-including component therefore has no contract for any page, even one without
  includes, which the code serves. Restricting the condition to the files a page reaches is
  not modelled. The same holds for the lemmas about it.
- Serve.ServeContent: likewise, its condition covers every readable file, reachable or not.
- Templates.ExpandTemplate: requires an acyclic include graph (`WellFormed`) over every file
  of the store, not only those the document reaches. A component that includes itself
  recurses without end in the code, and that case is excluded.
- Templates.ExpandTemplate: requires that no expandable include sits inside another
  (`WellNested`), and that export regions hold no expandable include. Nested includes are not
  modelled.
- Templates.Expand: it replaces every expandable include, which is what the tests check. The
  loop as written replaces only the first one of each document, because the selector
  iterator has already stepped into the detached include; `Templates.LazyExpand` models that
  loop and "## Findings" records the difference.
- Templates.Expand: its own contract gives the shape of the result only (what is left, what
  each node became, the errors). What the result holds is stated by
  `Templates.ExpandTemplateContent` and `Templates.ExpandTemplateExact`, because the content of
  an include refers back to the whole expansion and so is stated after it.
- Templates.ExpandNode: likewise; its content is stated by `Templates.ExpandNodeContent` and
  `Templates.ExpandNodeExact`.
- Templates.ExpandForest: likewise; its content is stated by `Templates.ExpandForestContent`
  and `Templates.ExpandForestExact`.
- Templates.ExpandTemplate: likewise; its content is stated by
  `Templates.ExpandTemplateContent` and `Templates.ExpandTemplateExact`.
- Slots.FillNode: its own contract states conservation and shape. Which content lands after a
  placeholder is stated by `Slots.FillSlotPlacement`, `Slots.TakeForestIsFirst` and
  `Slots.TakeForestCut`.
- Slots.FillForest: likewise.
- Slots.FillSlotPlacement: the moved children are shown to land unchanged only when they hold
  no named placeholder. Otherwise they are filled in turn, which `Slots.FillNode` covers.
- Slots.FillSlotsFailsIff: it is an if-and-only-if only when the export regions hold no
  placeholder. Otherwise whether a moved-in placeholder is reached depends on which regions
  were emptied first, and the lemma gives a sufficient and a necessary condition.
- Documents.IsWholeDocument: its own contract states a length bound only. The classification
  is stated by `Documents.DoctypeLineIsWhole`, `Documents.OnlyFirstLineMatters` and
  `Documents.BlankFirstLineExample`.
- Documents.EqualsIgnoringAsciiCase: its own contract states reflexivity and equal lengths.
  The full comparison is stated by `Documents.EqualsIgnoringAsciiCaseLowers`.
- Paths.Join: paths are strings. Path normalisation, `..` components and repeated separators
  inside a path are not modelled. Only a leading separator makes a path absolute.
- Reading a file that is not valid UTF-8, and other I/O failures after opening, are not
  modelled. A file is either in the map or unreadable.
- The rest of the standard library in `htmlua_stdlib.rs`, the configuration loader in
  `config.rs`, and the CGI entry point are not part of this model.

## Findings

| source | as written | input that shows it | evidently intended | confidence | as-written member | corrected member |
|---|---|---|---|---|---|---|
| htmlua-parser/src/render.rs:89-106 | the `select("include")` iterator works out its next step when it yields an include: the include's first child, or the include's end. After the include is detached, the walk ends at the include's end, which has neither a next sibling nor a parent, so only the first expandable include of each document is replaced | a page of two sibling `include path="2"` elements, whose component is one span: the second include is left in the result | every expandable include is replaced, as the tests' `select_first("include").is_err()` checks | not executed; depends on the tree library's traversal computing its next edge eagerly | Templates.SecondIncludeKeptExample | Templates.ExpandTemplate |

=== FILE: documents.dfy ===
/**
 * Reading a page file: a file whose first line is the HTML doctype is parsed as a whole
 * document, anything else as a fragment inside a `div`. The whole file is parsed either way.
 */
module Documents {
  import opened Tree
  import opened Results

  const Doctype: string := "<!DOCTYPE html>"

  /** The HTML parser's two entry points, each giving the children of the root it builds. */
  datatype Parsers = Parsers(document: string -> Forest, fragment: string -> Forest)

  /** The first line as a line reader returns it: up to and including the first newline, or all of `s`. */
  function FirstLine(s: string): (r: string)
    ensures r <= s
    ensures forall i | 0 <= i < |r| - 1 :: r[i] != '\n'
    ensures r == s || (|r| > 0 && r[|r| - 1] == '\n')
  {
    if |s| == 0 then ""
    else if s[0] == '\n' then "\n"
    else [s[0]] + FirstLine(s[1..])
  }

  /** The characters Rust's `char::is_whitespace` accepts: Unicode's White_Space property. */
  predicate IsWhitespace(c: char)
  {
    || c == ' '
    || ('\t' <= c <= '\r')
    || c == '\U{85}'
    || c == '\U{A0}'
    || c == '\U{1680}'
    || ('\U{2000}' <= c <= '\U{200A}')
    || c == '\U{2028}'
    || c == '\U{2029}'
    || c == '\U{202F}'
    || c == '\U{205F}'
    || c == '\U{3000}'
  }

  predicate AllWhitespace(s: string)
  {
    forall i | 0 <= i < |s| :: IsWhitespace(s[i])
  }

  /** `s` without its leading whitespace. */
  function TrimStart(s: string): (r: string)
    ensures |r| <= |s| && r == s[|s| - |r|..]
    ensures AllWhitespace(s[..|s| - |r|])
    ensures |r| > 0 ==> !IsWhitespace(r[0])
  {
    if |s| > 0 && IsWhitespace(s[0]) then TrimStart(s[1..]) else s
  }

  /** `s` without its trailing whitespace. */
  function TrimEnd(s: string): (r: string)
    ensures |r| <= |s| && r == s[..|r|]
    ensures AllWhitespace(s[|r|..])
    ensures |r| > 0 ==> !IsWhitespace(r[|r| - 1])
  {
    if |s| > 0 && IsWhitespace(s[|s| - 1]) then
      var r := TrimEnd(s[..|s| - 1]);
      assert s[|r|..] == s[..|s| - 1][|r|..] + [s[|s| - 1]];
      r
    else s
  }

  /** `r` is a piece of `s` with only whitespace before and after it. */
  predicate Surrounds(s: string, r: string)
  {
    exists k | 0 <= k <= |s| - |r| :: r == s[k..k + |r|] && AllWhitespace(s[..k]) && AllWhitespace(s[k + |r|..])
  }

  /** Whitespace cut from the front of `s` and then from the back leaves a piece with whitespace around it. */
  lemma Surrounded(s: string, t: string, r: string)
    requires |t| <= |s| && t == s[|s| - |t|..] && AllWhitespace(s[..|s| - |t|])
    requires |r| <= |t| && r == t[..|r|] && AllWhitespace(t[|r|..])
    ensures Surrounds(s, r)
  {
    var k := |s| - |t|;
    assert s[k..][..|r|] == s[k..k + |r|];
    assert s[k..][|r|..] == s[k + |r|..];
    assert r == s[k..k + |r|] && AllWhitespace(s[..k]) && AllWhitespace(s[k + |r|..]);
  }

  /**
   * `s` without leading and trailing whitespace (`str::trim`): a piece of `s` that neither
   * starts nor ends with whitespace, with only whitespace around it.
   */
  function Trim(s: string): (r: string)
    ensures |r| <= |s|
    ensures |r| > 0 ==> !IsWhitespace(r[0]) && !IsWhitespace(r[|r| - 1])
    ensures Surrounds(s, r)
  {
    var t := TrimStart(s);
    var r := TrimEnd(t);
    Surrounded(s, t, r);
    r
  }

  /**
   * Trimming has one answer: whatever whitespace surrounds a text that neither starts nor
   * ends with whitespace, trimming gives back that text.
   */
  lemma TrimUnique(front: string, t: string, back: string)
    requires AllWhitespace(front) && AllWhitespace(back)
    requires |t| > 0 ==> !IsWhitespace(t[0]) && !IsWhitespace(t[|t| - 1])
    ensures Trim(front + t + back) == t
  {
    if |t| > 0 {
      assert front + t + back == front + (t + back);
      assert (t + back)[0] == t[0];
      TrimStartPast(front, t + back);
      TrimEndPast(t, back);
    } else {
      assert front + t + back == (front + back) + "";
      assert AllWhitespace(front + back);
      TrimStartPast(front + back, "");
    }
  }

  lemma {:induction false} TrimStartPast(front: string, rest: string)
    requires AllWhitespace(front)
    requires |rest| > 0 ==> !IsWhitespace(rest[0])
    ensures TrimStart(front + rest) == rest
  {
    if |front| == 0 {
      assert front + rest == rest;
    } else {
      assert (front + rest)[1..] == front[1..] + rest;
      TrimStartPast(front[1..], rest);
    }
  }

  lemma {:induction false} TrimEndPast(rest: string, back: string)
    requires AllWhitespace(back)
    requires |rest| > 0 ==> !IsWhitespace(rest[|rest| - 1])
    ensures TrimEnd(rest + back) == rest
  {
    if |back| == 0 {
      assert rest + back == rest;
    } else {
      var s := rest + back;
      assert s[..|s| - 1] == rest + back[..|back| - 1];
      TrimEndPast(rest, back[..|back| - 1]);
    }
  }

  /** ASCII letters to lower case; every other character unchanged. */
  function AsciiLower(c: char): (r: char)
    ensures 'A' <= c <= 'Z' ==> 'a' <= r <= 'z' && r as int - c as int == 32
    ensures !('A' <= c <= 'Z') ==> r == c
  {
    if 'A' <= c <= 'Z' then (c as int + 32) as char else c
  }

  /** A text with its ASCII letters in lower case. */
  function LowerAscii(s: string): (r: string)
    ensures |r| == |s|
    ensures forall i | 0 <= i < |s| :: r[i] == AsciiLower(s[i])
  {
    if |s| == 0 then "" else [AsciiLower(s[0])] + LowerAscii(s[1..])
  }

  /** `str::eq_ignore_ascii_case`. */
  predicate EqualsIgnoringAsciiCase(a: string, b: string): (r: bool)
    ensures r ==> |a| == |b|
    ensures a == b ==> r
  {
    |a| == |b| && forall i | 0 <= i < |a| :: AsciiLower(a[i]) == AsciiLower(b[i])
  }

  /** Comparing ignoring ASCII case is comparing the texts once their ASCII letters are lowered. */
  lemma EqualsIgnoringAsciiCaseLowers(a: string, b: string)
    ensures EqualsIgnoringAsciiCase(a, b) <==> LowerAscii(a) == LowerAscii(b)
  {
    var la := LowerAscii(a);
    var lb := LowerAscii(b);
    if la == lb {
      assert forall i | 0 <= i < |a| :: la[i] == lb[i];
    }
  }

  /** The file is a whole document: its trimmed first line is the doctype, in any ASCII case. */
  predicate IsWholeDocument(content: string): (r: bool)
    ensures r ==> |content| >= |Doctype|
  {
    EqualsIgnoringAsciiCase(Trim(FirstLine(content)), Doctype)
  }

  /** A line reader stops at the first newline, whatever follows it. */
  lemma {:induction false} FirstLineOfJoin(line: string, rest: string)
    requires '\n' !in line
    ensures FirstLine(line + "\n" + rest) == line + "\n"
  {
    if |line| == 0 {
      assert line + "\n" + rest == "\n" + rest;
    } else {
      assert (line + "\n" + rest)[0] == line[0];
      assert (line + "\n" + rest)[1..] == line[1..] + "\n" + rest;
      FirstLineOfJoin(line[1..], rest);
      assert [line[0]] + (line[1..] + "\n") == line + "\n";
    }
  }

  /** Only the first line decides: two files agreeing on it are classified alike. */
  lemma OnlyFirstLineMatters(line: string, rest1: string, rest2: string)
    requires '\n' !in line
    ensures IsWholeDocument(line + "\n" + rest1) == IsWholeDocument(line + "\n" + rest2)
  {
    FirstLineOfJoin(line, rest1);
    FirstLineOfJoin(line, rest2);
  }

  /**
   * A first line holding the doctype in any ASCII case, with any whitespace around it other
   * than a newline, makes the file a whole document.
   */
  lemma DoctypeLineIsWhole(front: string, doctype: string, back: string, rest: string)
    requires AllWhitespace(front) && AllWhitespace(back)
    requires '\n' !in front && '\n' !in back
    requires EqualsIgnoringAsciiCase(doctype, Doctype)
    ensures IsWholeDocument(front + doctype + back + "\n" + rest)
  {
    var line := front + doctype + back;
    forall i | 0 <= i < |doctype|
      ensures doctype[i] != '\n'
    {
      assert AsciiLower(doctype[i]) == AsciiLower(Doctype[i]);
    }
    forall i | 0 <= i < |line|
      ensures line[i] != '\n'
    {
      if i < |front| {
        assert line[i] == front[i];
      } else if i < |front| + |doctype| {
        assert line[i] == doctype[i - |front|];
      } else {
        assert line[i] == back[i - |front| - |doctype|];
      }
    }
    FirstLineOfJoin(line, rest);
    assert line + "\n" == front + doctype + (back + "\n");
    assert AllWhitespace(back + "\n");
    assert !IsWhitespace(doctype[0]) by {
      assert AsciiLower(doctype[0]) == '<';
    }
    assert !IsWhitespace(doctype[|doctype| - 1]) by {
      assert AsciiLower(doctype[|doctype| - 1]) == '>';
    }
    TrimUnique(front, doctype, back + "\n");
  }

  /**
   * read_doc_from_file: a file that cannot be opened is an error; otherwise the whole text,
   * first line included, goes to the document parser when the first line is the doctype and
   * to the fragment parser when it is not.
   */
  function ReadDocFromFile(files: map<string, string>, path: string, parsers: Parsers): (r: Result<Forest>)
    ensures path !in files <==> r.Err?
    ensures r.Err? ==> r.error == PageUnreadable(path)
    ensures r.Ok? && IsWholeDocument(files[path]) ==> r.value == parsers.document(files[path])
    ensures r.Ok? && !IsWholeDocument(files[path]) ==> r.value == parsers.fragment(files[path])
  {
    if path !in files then Err(PageUnreadable(path))
    else
      var content := files[path];
      if IsWholeDocument(content) then Ok(parsers.document(content))
      else Ok(parsers.fragment(content))
  }

  lemma LowerCaseDoctype()
    ensures EqualsIgnoringAsciiCase("<!doctype HTML>", Doctype)
  {
    var lower: string := "<!doctype HTML>";
    forall i | 0 <= i < |lower|
      ensures AsciiLower(lower[i]) == AsciiLower(Doctype[i])
    {
      if 2 <= i < 9 {
        assert 'A' <= Doctype[i] <= 'Z' && lower[i] == (Doctype[i] as int + 32) as char;
      } else if 10 <= i < 14 {
        assert 'A' <= lower[i] <= 'Z' && Doctype[i] == (lower[i] as int + 32) as char;
      } else {
        assert lower[i] == Doctype[i];
      }
    }
  }

  /** A first line that is exactly the doctype, in any ASCII case, makes the file a whole document. */
  lemma BareDoctypeLineIsWhole(doctype: string, rest: string)
    requires EqualsIgnoringAsciiCase(doctype, Doctype)
    ensures IsWholeDocument(doctype + "\n" + rest)
  {
    DoctypeHasNoNewline(doctype);
    FirstLineOfJoin(doctype, rest);
    TrimDropsNewline(doctype);
    DoctypeTrimmed(doctype);
  }

  lemma LowerCaseDoctypeExample(rest: string)
    ensures IsWholeDocument("<!doctype HTML>" + "\n" + rest)
  {
    LowerCaseDoctype();
    BareDoctypeLineIsWhole("<!doctype HTML>", rest);
  }

  lemma IndentedDoctypeExample(rest: string)
    ensures IsWholeDocument("  " + Doctype + "\r" + "\n" + rest)
  {
    assert EqualsIgnoringAsciiCase(Doctype, Doctype);
    DoctypeLineIsWhole("  ", Doctype, "\r", rest);
  }

  lemma FragmentExample()
    ensures !IsWholeDocument("<div></div>")
  {
    var div: string := "<div></div>";
    assert FirstLine(div) <= div;
    assert |Trim(FirstLine(div))| <= |div| < |Doctype|;
  }

  lemma BlankFirstLineExample(rest: string)
    ensures !IsWholeDocument("\n" + rest)
  {
    var newline: string := "\n";
    FirstLineOfJoin("", rest);
    assert "" + newline + rest == newline + rest;
    TrimNewlineOnly();
    assert |Trim(FirstLine(newline + rest))| != |Doctype|;
  }

  lemma TrimNewlineOnly()
    ensures Trim("\n") == ""
  {
    var newline: string := "\n";
    TrimStartPast(newline, "");
    assert newline + "" == newline;
  }

  /** A file without a newline is read whole as its first line. */
  lemma {:induction false} FirstLineWhole(line: string)
    requires '\n' !in line
    ensures FirstLine(line) == line
  {
    if |line| > 0 {
      assert line[0] in line;
      assert forall c | c in line[1..] :: c in line;
      FirstLineWhole(line[1..]);
      assert [line[0]] + line[1..] == line;
    }
  }

  /** Trimming ignores a trailing newline: it is whitespace like any other. */
  lemma TrimDropsNewline(line: string)
    ensures Trim(line + "\n") == Trim(line)
  {
    TrimStartNewline(line);
    var t := TrimStart(line);
    if |t| > 0 {
      AppendParts(t, "\n");
    }
  }

  lemma {:induction false} TrimStartNewline(s: string)
    ensures TrimStart(s + "\n") == if TrimStart(s) == "" then "" else TrimStart(s) + "\n"
  {
    if |s| == 0 {
      assert s + "\n" == "\n";
      TrimStartNewlineAlone();
    } else if IsWhitespace(s[0]) {
      TrimStartSkip(s);
      TrimStartNewline(s[1..]);
    } else {
      TrimStartKeep(s);
    }
  }

  /** How a text followed by more text splits again. */
  lemma AppendParts(a: string, b: string)
    ensures (a + b)[..|a|] == a
    ensures |a| > 0 ==> (a + b)[0] == a[0] && (a + b)[1..] == a[1..] + b
  {
  }

  lemma TrimStartNewlineAlone()
    ensures TrimStart("\n") == "" && TrimStart("") == ""
  {
    assert "\n"[1..] == "";
  }

  lemma TrimStartSkip(s: string)
    requires |s| > 0 && IsWhitespace(s[0])
    ensures TrimStart(s + "\n") == TrimStart(s[1..] + "\n") && TrimStart(s) == TrimStart(s[1..])
  {
    AppendParts(s, "\n");
  }

  lemma TrimStartKeep(s: string)
    requires |s| > 0 && !IsWhitespace(s[0])
    ensures TrimStart(s + "\n") == s + "\n" && TrimStart(s) == s
  {
    AppendParts(s, "\n");
  }

  /** A doctype in any ASCII case neither starts nor ends with whitespace, so trimming keeps it. */
  lemma DoctypeTrimmed(doctype: string)
    requires EqualsIgnoringAsciiCase(doctype, Doctype)
    ensures Trim(doctype) == doctype
  {
    assert AsciiLower(doctype[0]) == '<';
    assert AsciiLower(doctype[|doctype| - 1]) == '>';
    assert TrimStart(doctype) == doctype;
  }

  /**
   * A file that ends with its first line, with no newline after it, is classified as if the
   * line were followed by a newline and anything else.
   */
  lemma NoNewlineNeeded(line: string, rest: string)
    requires '\n' !in line
    ensures IsWholeDocument(line) == IsWholeDocument(line + "\n" + rest)
  {
    FirstLineWhole(line);
    FirstLineOfJoin(line, rest);
    TrimDropsNewline(line);
  }

  /** The doctype in any ASCII case holds no newline. */
  lemma DoctypeHasNoNewline(doctype: string)
    requires EqualsIgnoringAsciiCase(doctype, Doctype)
    ensures '\n' !in doctype
  {
    forall i | 0 <= i < |doctype|
      ensures doctype[i] != '\n'
    {
      assert AsciiLower(doctype[i]) == AsciiLower(Doctype[i]);
    }
  }

  /** A file that is exactly the doctype, in any ASCII case and with no newline, is a whole document. */
  lemma BareDoctypeFileIsWhole(doctype: string)
    requires EqualsIgnoringAsciiCase(doctype, Doctype)
    ensures IsWholeDocument(doctype)
  {
    DoctypeHasNoNewline(doctype);
    FirstLineWhole(doctype);
    DoctypeTrimmed(doctype);
  }

  lemma DoctypeOnlyExample()
    ensures IsWholeDocument("<!DOCTYPE html>")
  {
    assert EqualsIgnoringAsciiCase(Doctype, Doctype);
    BareDoctypeFileIsWhole(Doctype);
  }
}

=== FILE: lib.dfy ===
/**
 * The library's own entry point: parse a text as a whole HTML document and run its script
 * regions. It repeats the script pass of the renderer, with the same capture functions.
 */
module Lib {
  import opened Tree
  import opened Results
  import opened Output
  import opened Scripts

  /**
   * parse: the text goes to the whole-document parser and the result through the script
   * pass with a fresh interpreter; the first chunk that raises is the error.
   */
  function Parse(text: string, parseDocument: string -> Forest, interp: Interpreter): (r: Result<Forest>)
    ensures ScriptPass(parseDocument(text), interp, r)
    ensures r.Err? ==> r.error.ScriptFailed? && r.error.chunk in Chunks(parseDocument(text))
    ensures r.Ok? ==> Labels(r.value) <= Labels(parseDocument(text))
    ensures r.Ok? ==> (Free(r.value, "lua") <==> !StrayLua(parseDocument(text)))
  {
    var doc := parseDocument(text);
    RunAllFailsOnChunk(interp, [], Chunks(doc));
    ExecuteLua(doc, interp)
  }

  /** A failed run names one of the chunks it was given. */
  lemma {:induction false} RunAllFailsOnChunk(interp: Interpreter, ran: seq<string>, chunks: seq<string>)
    ensures RunAll(interp, ran, chunks).Err? ==>
      RunAll(interp, ran, chunks).error.ScriptFailed? && RunAll(interp, ran, chunks).error.chunk in chunks
    decreases |chunks|
  {
    if |chunks| > 0 {
      match interp(ran, chunks[0])
      case Raised =>
      case Ran(_) =>
        RunAllFailsOnChunk(interp, ran + [chunks[0]], chunks[1..]);
    }
  }

  /** The library's base case: one region inside a `span` becomes the line it printed, and no `lua` element is left. */
  lemma BaseExample(parseDocument: string -> Forest, interp: Interpreter)
    requires parseDocument("page") == [Span([Region("c")])]
    requires interp([], "c") == Ran([Println("Test from Lua!")])
    ensures Parse("page", parseDocument, interp) == Ok([Span([Text("Test from Lua!\n")])])
    ensures Free(Parse("page", parseDocument, interp).value, "lua")
  {
    RegionChunks("c");
    assert Render([Println("Test from Lua!")]) == "Test from Lua!\n";
    RunOne(interp, [], "c", [Println("Test from Lua!")]);
    SpliceRegion("c", "Test from Lua!\n");
    var none: Forest := [];
    assert !StrayLua([Text("c")]) by {
      assert [Text("c")][1..] == none;
    }
    assert !NodeStrayLua(Span([Region("c")])) by {
      assert [Region("c")][1..] == none;
    }
    assert [Span([Region("c")])][1..] == none;
  }
}

=== FILE: output.dfy ===
/**
 * The output capture a script region sees: the `htmlua` table's `print` and `println`
 * functions, both appending to one text buffer owned by the script pass.
 */
module Output {

  /** One call a script makes to the capture functions. */
  datatype Call = Print(text: string) | Println(text: string)

  /** The text one call writes: `print` its text, `println` its text and a newline. */
  function Written(call: Call): (r: string)
    ensures call.text <= r
    ensures call.Print? ==> |r| == |call.text|
    ensures call.Println? ==> |r| == |call.text| + 1 && r[|r| - 1] == '\n'
  {
    match call
    case Print(t) => t
    case Println(t) => t + "\n"
  }

  /** The buffer after a sequence of calls, each appending its text to the buffer in turn. */
  function Flush(buffer: string, calls: seq<Call>): (r: string)
    ensures buffer <= r
    decreases |calls|
  {
    if |calls| == 0 then buffer else Flush(buffer + Written(calls[0]), calls[1..])
  }

  /** The text a sequence of calls writes: what each call writes, one after another. */
  function Render(calls: seq<Call>): string
  {
    if |calls| == 0 then "" else Written(calls[0]) + Render(calls[1..])
  }

  /** Appending call by call leaves the earlier contents and then the rendered calls. */
  lemma {:induction false} FlushIsConcatenation(buffer: string, calls: seq<Call>)
    ensures Flush(buffer, calls) == buffer + Render(calls)
    decreases |calls|
  {
    if |calls| == 0 {
      assert buffer + "" == buffer;
    } else {
      var once := Written(calls[0]);
      var rest := Render(calls[1..]);
      FlushIsConcatenation(buffer + once, calls[1..]);
      assert (buffer + once) + rest == buffer + (once + rest);
    }
  }

  /** The output of two call sequences run one after the other is the two outputs joined. */
  lemma {:induction false} RenderConcat(a: seq<Call>, b: seq<Call>)
    ensures Render(a + b) == Render(a) + Render(b)
  {
    if |a| == 0 {
      assert a + b == b;
    } else {
      assert (a + b)[0] == a[0];
      assert (a + b)[1..] == a[1..] + b;
      RenderConcat(a[1..], b);
    }
  }

  /** The buffer emptied: afterwards it holds exactly what the following calls write. */
  function Clear(buffer: string): (r: string)
    ensures forall calls: seq<Call> :: Flush(r, calls) == Render(calls)
  {
    FlushFromEmpty();
    ""
  }

  lemma FlushFromEmpty()
    ensures forall calls: seq<Call> :: Flush("", calls) == Render(calls)
  {
    forall calls: seq<Call>
      ensures Flush("", calls) == Render(calls)
    {
      FlushIsConcatenation("", calls);
    }
  }

  /**
   * What a region's buffer holds after its chunk ran: the buffer is emptied first, so it is
   * exactly the region's own output whatever earlier regions left behind.
   */
  function RegionOutput(previous: string, calls: seq<Call>): (r: string)
    ensures r == Render(calls)
  {
    var cleared := Clear(previous);
    Flush(cleared, calls)
  }

  lemma PrintlnExample()
    ensures RegionOutput("stale", [Println("Test from Lua!")]) == "Test from Lua!\n"
  {
    var calls := [Println("Test from Lua!")];
    var none: seq<Call> := [];
    assert calls[1..] == none;
    assert Render(calls) == Written(calls[0]) + "";
  }

  lemma MixedCallsExample()
    ensures RegionOutput("", [Print("a"), Println("b"), Print("c")]) == "ab\nc"
  {
    assert Render([Print("c")]) == "c";
    assert Render([Println("b"), Print("c")]) == "b\nc";
  }
}

=== FILE: paths.dfy ===
/**
 * File paths as strings: pushing a relative path onto a directory, and removing the root
 * from a request path. Only the separator handling the renderer relies on is modelled.
 */
module Paths {
  import opened Results

  const Separator: char := '/'

  /** A path that starts at the file-system root. */
  predicate IsAbsolute(p: string)
  {
    |p| > 0 && p[0] == Separator
  }

  /**
   * `dir` with `rel` pushed onto it: an absolute `rel` replaces the directory, a relative one
   * onto an empty directory stays as it is, and otherwise the two are joined by one separator
   * (none is added when `dir` already ends in one).
   */
  function Join(dir: string, rel: string): (r: string)
    ensures IsAbsolute(rel) ==> r == rel
    ensures !IsAbsolute(rel) ==> dir <= r && |r| >= |rel| && r[|r| - |rel|..] == rel
    ensures !IsAbsolute(rel) && IsAbsolute(dir) ==> IsAbsolute(r)
    ensures !IsAbsolute(rel) && |dir| > 0 && dir[|dir| - 1] != Separator ==> r == dir + [Separator] + rel
    ensures |dir| == 0 ==> r == rel
  {
    if IsAbsolute(rel) then rel
    else if |dir| == 0 then rel
    else if |dir| > 0 && dir[|dir| - 1] == Separator then dir + rel
    else dir + [Separator] + rel
  }

  /** `p` without its leading separators. */
  function DropSeparators(p: string): (r: string)
    ensures !IsAbsolute(r)
    ensures |r| <= |p| && r == p[|p| - |r|..]
    ensures forall i | 0 <= i < |p| - |r| :: p[i] == Separator
  {
    if IsAbsolute(p) then DropSeparators(p[1..]) else p
  }

  /** The request path relative to the root; a path that does not start at the root is refused. */
  function StripRoot(uri: string): (r: Result<string>)
    ensures r.Ok? <==> IsAbsolute(uri)
    ensures r.Err? ==> r.error == NotRooted(uri)
    ensures r.Ok? ==> !IsAbsolute(r.value) && |r.value| < |uri| && uri[|uri| - |r.value|..] == r.value
  {
    if IsAbsolute(uri) then Ok(DropSeparators(uri)) else Err(NotRooted(uri))
  }

  /**
   * Joining the stripped request path onto a root gives the root, one separator and the
   * stripped path. This is a statement about the string only: a `..` in the path can still
   * lead out of the root once the file system resolves it.
   */
  lemma StrippedJoinShape(root: string, uri: string)
    requires IsAbsolute(root) && root[|root| - 1] != Separator
    requires StripRoot(uri).Ok?
    ensures Join(root, StripRoot(uri).value) == root + [Separator] + StripRoot(uri).value
  {
  }

  /** Putting the root back in front of a path with no leading separator undoes stripping. */
  lemma StripRootInverse(rel: string)
    requires !IsAbsolute(rel)
    ensures StripRoot([Separator] + rel) == Ok(rel)
  {
    assert ([Separator] + rel)[1..] == rel;
  }

  /** Pushing onto an empty directory leaves a relative path relative. */
  lemma EmptyDirectoryExample()
    ensures Join("", "a.html") == "a.html"
  {
  }

  lemma JoinExample()
    ensures Join("/var/www/htmlua/pages", "index.html") == "/var/www/htmlua/pages/index.html"
  {
  }

  lemma AbsoluteIncludeExample()
    ensures Join("/var/www/htmlua/components", "/etc/passwd") == "/etc/passwd"
  {
  }

  lemma StripRootExample()
    ensures StripRoot("//a.html") == Ok("a.html")
    ensures StripRoot("a.html") == Err(NotRooted("a.html"))
  {
    var once: string := "/a.html";
    var bare: string := "a.html";
    assert "//a.html"[1..] == once;
    assert once[1..] == bare;
    assert !IsAbsolute(bare);
    assert DropSeparators(bare) == bare;
  }
}

=== FILE: results.dfy ===
/** Failure-compatible result types shared by every pass of the renderer. */
module Results {

  /** The ways rendering a page can fail. Each case stands for one error path of the program. */
  datatype Error =
    | NotRooted(uri: string)             // the request path has no leading separator
    | PageUnreadable(path: string)       // the page file cannot be opened
    | ComponentUnreadable(path: string)  // a component file cannot be read
    | SlotNotFound(name: string)         // a placeholder names no export region of its caller
    | ScriptFailed(chunk: string)        // a script region raised an error

  /** Either a value or the error that stopped the computation; usable with `:-`. */
  datatype Result<+T> = Ok(value: T) | Err(error: Error) {

    predicate IsFailure() {
      Err?
    }

    function PropagateFailure<U>(): Result<U>
      requires Err?
    {
      Err(error)
    }

    function Extract(): T
      requires Ok?
    {
      value
    }
  }

  datatype Option<+T> = None | Some(value: T)
}

=== FILE: scripts.dfy ===
/**
 * The script pass: every `lua` element whose first child is a text node is a region; its
 * text is a chunk run in one interpreter shared by the whole pass, and the region is
 * replaced in place by a text node holding what the chunk printed.
 */
module Scripts {
  import opened Tree
  import opened Results
  import opened Output

  /** What running one chunk does: raise an error, or make a sequence of output calls. */
  datatype Outcome = Raised | Ran(calls: seq<Call>)

  /**
   * The embedded interpreter. One interpreter serves every region of a pass, so what a chunk
   * does may depend on the chunks that ran before it; those are the first argument.
   */
  type Interpreter = (seq<string>, string) -> Outcome

  /** A region: a `lua` element whose first child is a text node. */
  predicate IsRegion(n: Node)
  {
    n.Element? && n.tag == "lua" && |n.children| > 0 && n.children[0].Text?
  }

  /** The chunks of the regions below `n`, in document order. */
  function NodeChunks(n: Node): seq<string>
  {
    match n
    case Element(_, _, ch) => (if IsRegion(n) then [ch[0].text] else []) + Chunks(ch)
    case Text(_) => []
    case Document(ch) => Chunks(ch)
  }

  function Chunks(f: Forest): seq<string>
  {
    if |f| == 0 then [] else NodeChunks(f[0]) + Chunks(f[1..])
  }

  /** A `lua` element the pass leaves in the tree: not a region, and not inside one. */
  predicate NodeStrayLua(n: Node)
  {
    match n
    case Element(t, _, ch) => !IsRegion(n) && (t == "lua" || StrayLua(ch))
    case Text(_) => false
    case Document(ch) => StrayLua(ch)
  }

  predicate StrayLua(f: Forest)
  {
    |f| > 0 && (NodeStrayLua(f[0]) || StrayLua(f[1..]))
  }

  // ---------------------------------------------------------------------------
  // Reference: run every chunk first, then splice the outputs into the tree.
  // ---------------------------------------------------------------------------

  /** Run `chunks` one after another in an interpreter that already ran `ran`; stop at the first error. */
  function RunAll(interp: Interpreter, ran: seq<string>, chunks: seq<string>): (r: Result<seq<string>>)
    ensures r.Ok? ==> |r.value| == |chunks|
    decreases |chunks|
  {
    if |chunks| == 0 then Ok([])
    else
      match interp(ran, chunks[0])
      case Raised => Err(ScriptFailed(chunks[0]))
      case Ran(calls) =>
        var rest :- RunAll(interp, ran + [chunks[0]], chunks[1..]);
        Ok([Render(calls)] + rest)
  }

  /** Two runs one after the other: the first error stops everything, otherwise the outputs join. */
  function Then(first: Result<seq<string>>, second: Result<seq<string>>): Result<seq<string>>
  {
    match first
    case Err(_) => first
    case Ok(u) =>
      match second
      case Err(_) => second
      case Ok(v) => Ok(u + v)
  }

  /** Running `a + b` is running `a`, then `b` in the interpreter `a` left behind. */
  lemma {:induction false} RunAllConcat(interp: Interpreter, ran: seq<string>, a: seq<string>, b: seq<string>)
    ensures RunAll(interp, ran, a + b) == Then(RunAll(interp, ran, a), RunAll(interp, ran + a, b))
    decreases |a|
  {
    if |a| == 0 {
      assert a + b == b;
      assert ran + a == ran;
      var second := RunAll(interp, ran, b);
      if second.Ok? {
        assert [] + second.value == second.value;
      }
    } else {
      var c := a[0];
      assert (a + b)[0] == c;
      assert (a + b)[1..] == a[1..] + b;
      assert ran + [c] + a[1..] == ran + a;
      match interp(ran, c)
      case Raised =>
      case Ran(calls) =>
        RunAllConcat(interp, ran + [c], a[1..], b);
        var tail := RunAll(interp, ran + [c], a[1..]);
        var second := RunAll(interp, ran + a, b);
        if tail.Ok? && second.Ok? {
          assert [Render(calls)] + (tail.value + second.value) == ([Render(calls)] + tail.value) + second.value;
        }
    }
  }

  /** Where a node's replacement stands: a region becomes a text node, anything else keeps its kind, tag, attributes and number of children. */
  predicate InPlace(a: Node, b: Node)
  {
    if IsRegion(a) then b.Text? else SameShell(a, b)
  }

  /** Replace each region by a text node holding its output; `outs` lists the outputs in document order. */
  function SpliceNode(n: Node, outs: seq<string>): (r: Node)
    requires |outs| == |NodeChunks(n)|
    ensures InPlace(n, r)
    ensures |outs| == 0 ==> r == n
  {
    match n
    case Element(t, a, ch) =>
      if IsRegion(n) then Text(outs[0])
      else Element(t, a, SpliceForest(ch, outs))
    case Text(_) => n
    case Document(ch) => Document(SpliceForest(ch, outs))
  }

  function SpliceForest(f: Forest, outs: seq<string>): (r: Forest)
    requires |outs| == |Chunks(f)|
    ensures |r| == |f|
    ensures forall i | 0 <= i < |f| :: InPlace(f[i], r[i])
    ensures |outs| == 0 ==> r == f
  {
    if |f| == 0 then []
    else
      var k := |NodeChunks(f[0])|;
      [SpliceNode(f[0], outs[..k])] + SpliceForest(f[1..], outs[k..])
  }

  /**
   * Splicing adds no element, and the `lua` elements that survive it are exactly the stray
   * ones: those that were not regions and sat inside no region.
   */
  lemma {:induction false} SpliceNodeLabels(n: Node, outs: seq<string>)
    requires |outs| == |NodeChunks(n)|
    ensures NodeLabels(SpliceNode(n, outs)) <= NodeLabels(n)
    ensures Free([SpliceNode(n, outs)], "lua") <==> !NodeStrayLua(n)
    decreases n, 1
  {
    LabelsSingle(SpliceNode(n, outs));
    match n
    case Element(t, a, ch) =>
      if !IsRegion(n) {
        SpliceForestLabels(ch, outs);
      }
    case Text(_) =>
    case Document(ch) =>
      SpliceForestLabels(ch, outs);
  }

  lemma {:induction false} SpliceForestLabels(f: Forest, outs: seq<string>)
    requires |outs| == |Chunks(f)|
    ensures Labels(SpliceForest(f, outs)) <= Labels(f)
    ensures Free(SpliceForest(f, outs), "lua") <==> !StrayLua(f)
    decreases f, 0
  {
    if |f| > 0 {
      var k := |NodeChunks(f[0])|;
      var head := SpliceNode(f[0], outs[..k]);
      var rest := SpliceForest(f[1..], outs[k..]);
      SpliceNodeLabels(f[0], outs[..k]);
      SpliceForestLabels(f[1..], outs[k..]);
      var r := SpliceForest(f, outs);
      assert r == [head] + rest;
      assert r[0] == head && r[1..] == rest;
      FreeCons(r, "lua");
      LabelsSingle(head);
    }
  }

  /** The reference outcome of the pass on `doc`. */
  ghost predicate ScriptPass(doc: Forest, interp: Interpreter, r: Result<Forest>)
  {
    match RunAll(interp, [], Chunks(doc))
    case Err(e) => r == Err(e)
    case Ok(outs) => r == Ok(SpliceForest(doc, outs))
  }

  // ---------------------------------------------------------------------------
  // The pass as the program performs it: one region at a time, in document order.
  // ---------------------------------------------------------------------------

  /** The interpreter's history and the capture buffer, carried from region to region. */
  datatype PassState = PassState(ran: seq<string>, buffer: string)

  /**
   * Visit `n` in document order: a region runs its chunk, is replaced by a text node holding
   * the buffer afterwards, and the regions below it still run. Every chunk below `n` runs
   * once, in order, and a failure names one of them.
   */
  function RunNode(n: Node, st: PassState, interp: Interpreter): (r: Result<(Node, PassState)>)
    ensures r.Ok? ==> InPlace(n, r.value.0)
    ensures r.Ok? ==> r.value.1.ran == st.ran + NodeChunks(n)
    ensures r.Err? ==> r.error.ScriptFailed? && r.error.chunk in NodeChunks(n)
  {
    match n
    case Element(t, a, ch) =>
      if IsRegion(n) then
        var chunk := ch[0].text;
        match interp(st.ran, chunk)
        case Raised => Err(ScriptFailed(chunk))
        case Ran(calls) =>
          var out := RegionOutput(st.buffer, calls);
          // The region is detached with its subtree, but the regions below it were
          // collected before anything changed, so their chunks still run.
          assert NodeChunks(n) == [chunk] + Chunks(ch);
          var below :- RunForest(ch, PassState(st.ran + [chunk], out), interp);
          assert st.ran + [chunk] + Chunks(ch) == st.ran + NodeChunks(n);
          Ok((Text(out), below.1))
      else
        assert NodeChunks(n) == Chunks(ch);
        var below :- RunForest(ch, st, interp);
        Ok((Element(t, a, below.0), below.1))
    case Text(_) => Ok((n, st))
    case Document(ch) =>
      var below :- RunForest(ch, st, interp);
      Ok((Document(below.0), below.1))
  }

  function RunForest(f: Forest, st: PassState, interp: Interpreter): (r: Result<(Forest, PassState)>)
    ensures r.Ok? ==> |r.value.0| == |f|
    ensures r.Ok? ==> r.value.1.ran == st.ran + Chunks(f)
    ensures r.Err? ==> r.error.ScriptFailed? && r.error.chunk in Chunks(f)
  {
    if |f| == 0 then Ok(([], st))
    else
      var head :- RunNode(f[0], st, interp);
      var rest :- RunForest(f[1..], head.1, interp);
      assert st.ran + NodeChunks(f[0]) + Chunks(f[1..]) == st.ran + Chunks(f);
      Ok(([head.0] + rest.0, rest.1))
  }

  ghost predicate NodeMatches(n: Node, st: PassState, interp: Interpreter, r: Result<(Node, PassState)>)
  {
    match RunAll(interp, st.ran, NodeChunks(n))
    case Err(e) => r == Err(e)
    case Ok(outs) => r.Ok? && r.value.0 == SpliceNode(n, outs) && r.value.1.ran == st.ran + NodeChunks(n)
  }

  ghost predicate ForestMatches(f: Forest, st: PassState, interp: Interpreter, r: Result<(Forest, PassState)>)
  {
    match RunAll(interp, st.ran, Chunks(f))
    case Err(e) => r == Err(e)
    case Ok(outs) => r.Ok? && r.value.0 == SpliceForest(f, outs) && r.value.1.ran == st.ran + Chunks(f)
  }

  /** Running regions one at a time agrees with running all chunks first and splicing afterwards. */
  lemma {:induction false} RunNodeMatches(n: Node, st: PassState, interp: Interpreter)
    ensures NodeMatches(n, st, interp, RunNode(n, st, interp))
    decreases n, 1
  {
    match n
    case Element(t, a, ch) =>
      RunForestMatches(ch, st, interp);
      if IsRegion(n) {
        var chunk := ch[0].text;
        assert NodeChunks(n) == [chunk] + Chunks(ch);
        assert NodeChunks(n)[0] == chunk && NodeChunks(n)[1..] == Chunks(ch);
        match interp(st.ran, chunk)
        case Raised =>
        case Ran(calls) =>
          var out := RegionOutput(st.buffer, calls);
          RunForestMatches(ch, PassState(st.ran + [chunk], out), interp);
          assert st.ran + [chunk] + Chunks(ch) == st.ran + NodeChunks(n);
      } else {
        assert NodeChunks(n) == Chunks(ch);
      }
    case Text(_) =>
    case Document(ch) =>
      RunForestMatches(ch, st, interp);
  }

  lemma {:induction false} RunForestMatches(f: Forest, st: PassState, interp: Interpreter)
    ensures ForestMatches(f, st, interp, RunForest(f, st, interp))
    decreases f, 0
  {
    if |f| > 0 {
      var a := NodeChunks(f[0]);
      var b := Chunks(f[1..]);
      assert Chunks(f) == a + b;
      RunNodeMatches(f[0], st, interp);
      RunAllConcat(interp, st.ran, a, b);
      var r := RunNode(f[0], st, interp);
      if r.Err? {
        assert RunForest(f, st, interp) == Err(r.error);
      } else {
        var st1 := r.value.1;
        RunForestMatches(f[1..], st1, interp);
        var outsA := RunAll(interp, st.ran, a).value;
        assert st1.ran == st.ran + a;
        var rest := RunForest(f[1..], st1, interp);
        if rest.Err? {
          assert RunForest(f, st, interp) == Err(rest.error);
        } else {
          var outsB := RunAll(interp, st.ran + a, b).value;
          SpliceForestStep(f, outsA, outsB);
          assert RunForest(f, st, interp) == Ok(([r.value.0] + rest.value.0, rest.value.1));
          assert st.ran + a + b == st.ran + (a + b);
        }
      }
    }
  }

  /** Splicing a forest splices its first tree with the first outputs and the rest with the others. */
  lemma SpliceForestStep(f: Forest, outsA: seq<string>, outsB: seq<string>)
    requires |f| > 0 && |outsA| == |NodeChunks(f[0])| && |outsB| == |Chunks(f[1..])|
    ensures |outsA + outsB| == |Chunks(f)|
    ensures SpliceForest(f, outsA + outsB) == [SpliceNode(f[0], outsA)] + SpliceForest(f[1..], outsB)
  {
    var outs := outsA + outsB;
    assert outs[..|outsA|] == outsA && outs[|outsA|..] == outsB;
  }

  /**
   * The script pass over a whole document with a fresh interpreter and an empty buffer
   * (execute_lua). It fails exactly when some chunk, run in document order, raises.
   */
  function ExecuteLua(doc: Forest, interp: Interpreter): (r: Result<Forest>)
    ensures ScriptPass(doc, interp, r)
    ensures r.Ok? ==> |r.value| == |doc| && forall i | 0 <= i < |doc| :: InPlace(doc[i], r.value[i])
    ensures r.Ok? ==> Labels(r.value) <= Labels(doc)
    ensures r.Ok? ==> (Free(r.value, "lua") <==> !StrayLua(doc))
  {
    RunForestMatches(doc, PassState([], ""), interp);
    var done :- RunForest(doc, PassState([], ""), interp);
    SpliceForestLabels(doc, RunAll(interp, [], Chunks(doc)).value);
    Ok(done.0)
  }

  // ---------------------------------------------------------------------------
  // Examples
  // ---------------------------------------------------------------------------

  function Region(chunk: string): Node
  {
    Element("lua", map[], [Text(chunk)])
  }

  function Span(ch: Forest): Node
  {
    Element("span", map[], ch)
  }

  /** The chunks of a forest are those of its first tree, then those of the rest. */
  lemma {:induction false} ChunksConcat(a: Forest, b: Forest)
    ensures Chunks(a + b) == Chunks(a) + Chunks(b)
  {
    if |a| == 0 {
      assert a + b == b;
    } else {
      assert (a + b)[0] == a[0];
      assert (a + b)[1..] == a[1..] + b;
      ChunksConcat(a[1..], b);
    }
  }

  /** A region alone, or alone in a `span`, holds just its own chunk. */
  lemma RegionChunks(chunk: string)
    ensures NodeChunks(Region(chunk)) == [chunk] && Chunks([Region(chunk)]) == [chunk]
    ensures Chunks([Span([Region(chunk)])]) == [chunk]
  {
    var none: Forest := [];
    assert [Text(chunk)][1..] == none;
    assert Chunks([Text(chunk)]) == [];
    assert [Region(chunk)][1..] == none;
    assert [Span([Region(chunk)])][1..] == none;
  }

  /** One chunk that runs gives the text of its calls. */
  lemma RunOne(interp: Interpreter, ran: seq<string>, chunk: string, calls: seq<Call>)
    requires interp(ran, chunk) == Ran(calls)
    ensures RunAll(interp, ran, [chunk]) == Ok([Render(calls)])
  {
    var empty: seq<string> := [];
    assert [chunk][0] == chunk && [chunk][1..] == empty;
    assert RunAll(interp, ran + [chunk], empty) == Ok(empty);
    assert [Render(calls)] + empty == [Render(calls)];
  }

  /** Splicing one output into a lone region, or a region alone in a `span`, leaves the output text there. */
  lemma SpliceRegion(chunk: string, out: string)
    ensures Chunks([Region(chunk)]) == [chunk] && Chunks([Span([Region(chunk)])]) == [chunk]
    ensures SpliceForest([Region(chunk)], [out]) == [Text(out)]
    ensures SpliceForest([Span([Region(chunk)])], [out]) == [Span([Text(out)])]
  {
    RegionChunks(chunk);
    var empty: seq<string> := [];
    var none: Forest := [];
    assert [out][..1] == [out] && [out][1..] == empty;
    assert [Region(chunk)][1..] == none;
    assert [Span([Region(chunk)])][1..] == none;
    assert SpliceForest([Region(chunk)], [out]) == [Text(out)];
  }

  /** Two regions in document order: the second runs after the first, each output replaces its region. */
  lemma TwoRegionsExample(interp: Interpreter)
    requires interp([], "a") == Ran([Println("x")])
    requires interp(["a"], "b") == Ran([Println("y")])
    ensures ExecuteLua([Span([Region("a")]), Span([Region("b")])], interp)
         == Ok([Span([Text("x\n")]), Span([Text("y\n")])])
  {
    var first := [Span([Region("a")])];
    var second := [Span([Region("b")])];
    var doc := first + second;
    RegionChunks("a");
    RegionChunks("b");
    ChunksConcat(first, second);
    assert Chunks(doc) == ["a"] + ["b"];
    assert Render([Println("x")]) == "x\n";
    assert Render([Println("y")]) == "y\n";
    RunOne(interp, [], "a", [Println("x")]);
    assert [] + ["a"] == ["a"];
    RunOne(interp, ["a"], "b", [Println("y")]);
    RunAllConcat(interp, [], ["a"], ["b"]);
    var outs: seq<string> := ["x\n"] + ["y\n"];
    assert RunAll(interp, [], Chunks(doc)) == Ok(outs);
    SpliceRegion("a", "x\n");
    SpliceRegion("b", "y\n");
    assert doc[0] == Span([Region("a")]) && doc[1..] == second;
    assert NodeChunks(doc[0]) == ["a"];
    assert outs[..1] == ["x\n"] && outs[1..] == ["y\n"];
    assert SpliceNode(doc[0], ["x\n"]) == Span([Text("x\n")]);
    assert SpliceForest(doc, outs) == [Span([Text("x\n")])] + [Span([Text("y\n")])];
    assert [Span([Text("x\n")])] + [Span([Text("y\n")])] == [Span([Text("x\n")]), Span([Text("y\n")])];
    assert ExecuteLua(doc, interp) == Ok(SpliceForest(doc, outs));
    assert doc == [Span([Region("a")]), Span([Region("b")])];
  }

  /** A `lua` element whose first child is not text is no region: nothing runs and it stays. */
  lemma UntouchedExample(interp: Interpreter)
    ensures ExecuteLua([Element("lua", map[], [Span([])])], interp) == Ok([Element("lua", map[], [Span([])])])
    ensures StrayLua([Element("lua", map[], [Span([])])])
  {
    var none: Forest := [];
    var lua := Element("lua", map[], [Span([])]);
    assert !IsRegion(lua);
    assert Chunks(none) == [];
    assert NodeChunks(Span([])) == [];
    assert [Span([])][1..] == none;
    assert Chunks([Span([])]) == [];
    assert NodeChunks(lua) == [];
    assert [lua][1..] == none;
    assert Chunks([lua]) == [];
    assert NodeStrayLua(lua);
  }

  /** The first chunk that raises ends the pass with its error; later regions never run. */
  lemma FailureExample(interp: Interpreter)
    requires interp([], "a") == Raised
    ensures ExecuteLua([Region("a"), Region("b")], interp) == Err(ScriptFailed("a"))
  {
    RegionChunks("a");
    ChunksConcat([Region("a")], [Region("b")]);
    assert [Region("a")] + [Region("b")] == [Region("a"), Region("b")];
    assert Chunks([Region("a"), Region("b")])[0] == "a";
  }

  /**
   * A `lua` element whose first child is a region is no region itself when the pass looks at
   * it, so it stays; once its child is replaced, it holds text and would be a region to a
   * second pass.
   */
  lemma LeftoverRegionExample(interp: Interpreter)
    requires interp([], "a") == Ran([Print("b")])
    ensures ExecuteLua([Element("lua", map[], [Region("a")])], interp) == Ok([Region("b")])
    ensures !Free([Region("b")], "lua") && Chunks([Region("b")]) == ["b"]
  {
    var none: Forest := [];
    var outer := Element("lua", map[], [Region("a")]);
    assert !IsRegion(outer);
    RegionChunks("a");
    RegionChunks("b");
    assert [outer][1..] == none;
    assert NodeChunks(outer) == ["a"];
    assert Chunks([outer]) == ["a"];
    assert Render([Print("b")]) == "b";
    RunOne(interp, [], "a", [Print("b")]);
    SpliceRegion("a", "b");
    assert SpliceNode(outer, ["b"]) == Region("b");
    var empty: seq<string> := [];
    assert ["b"][..1] == ["b"] && ["b"][1..] == empty;
    assert SpliceForest([outer], ["b"]) == [Region("b")];
    assert ("lua", map[]) in Labels([Region("b")]);
  }
}

=== FILE: serve.dfy ===
/**
 * Serving a request: the request path is made relative, looked up below the pages
 * directory, read, expanded against the components directory, run through the script pass
 * and serialised.
 */
module Serve {
  import opened Tree
  import opened Results
  import opened Output
  import opened Paths
  import opened Documents
  import opened Templates
  import opened Scripts
  import Lib

  const PagesRoot: string := "/var/www/htmlua/pages"
  const ComponentsRoot: string := "/var/www/htmlua/components"

  /**
   * What serving depends on besides the request: the readable files by full path, the HTML
   * parser's two entry points, the embedded interpreter and the serialiser.
   */
  datatype Site = Site(files: map<string, string>, parsers: Parsers, interp: Interpreter, serialize: Forest -> string)

  /** Components are read from the components directory and parsed as whole documents. */
  function Store(site: Site): Components
  {
    Components(ComponentsRoot, site.files, site.parsers.document)
  }

  /** The file a request path names: below the pages directory, or an error when the path does not start at the root. */
  function PagePath(uri: string): (r: Result<string>)
    ensures r.Ok? <==> IsAbsolute(uri)
    ensures r.Err? ==> r.error == NotRooted(uri)
    ensures r.Ok? ==> |r.value| > |PagesRoot| && r.value[..|PagesRoot| + 1] == PagesRoot + [Separator]
    ensures r.Ok? ==>
      var rel := r.value[|PagesRoot| + 1..];
      !IsAbsolute(rel) && |rel| < |uri| && uri[|uri| - |rel|..] == rel
  {
    var rel :- StripRoot(uri);
    StrippedJoinShape(PagesRoot, uri);
    assert (PagesRoot + [Separator] + rel)[|PagesRoot| + 1..] == rel;
    Ok(Join(PagesRoot, rel))
  }

  /** The page document the request reads, when its path is rooted and the file is readable. */
  function Page(site: Site, uri: string): (r: Result<Forest>)
    ensures r.Ok? <==> PagePath(uri).Ok? && PagePath(uri).value in site.files
    ensures !IsAbsolute(uri) ==> r == Err(NotRooted(uri))
    ensures PagePath(uri).Ok? && PagePath(uri).value !in site.files ==> r == Err(PageUnreadable(PagePath(uri).value))
    ensures r.Ok? ==>
              var content := site.files[PagePath(uri).value];
              r.value == if IsWholeDocument(content) then site.parsers.document(content) else site.parsers.fragment(content)
  {
    var path :- PagePath(uri);
    ReadDocFromFile(site.files, path, site.parsers)
  }

  /** The page read for `uri`, if any, nests no expandable include inside another. */
  predicate PageWellNested(site: Site, uri: string)
  {
    Page(site, uri).Ok? ==> WellNested(Page(site, uri).value)
  }

  /**
   * serve_content up to serialisation: each stage runs on the previous one's result, and
   * the first failing stage is the error.
   */
  function RenderPage(site: Site, uri: string, ghost rank: map<string, nat>): (r: Result<Forest>)
    requires WellFormed(Store(site), rank)
    requires PageWellNested(site, uri)
    ensures !IsAbsolute(uri) ==> r == Err(NotRooted(uri))
    ensures IsAbsolute(uri) && PagePath(uri).value !in site.files ==> r == Err(PageUnreadable(PagePath(uri).value))
    ensures r.Ok? ==> PagePath(uri).Ok? && PagePath(uri).value in site.files
    ensures r.Ok? ==> ExpandableFree(Labels(r.value))
    ensures r.Ok? ==> TargetsPresent(Store(site), Labels(Page(site, uri).value))
    ensures Page(site, uri).Err? ==> r == Err(Page(site, uri).error)
    ensures Page(site, uri).Ok? ==>
              var full := ExpandTemplate(Store(site), Page(site, uri).value, None, rank);
              (full.Err? ==> r == Err(full.error)) && (full.Ok? ==> ScriptPass(full.value, site.interp, r))
  {
    var doc :- Page(site, uri);
    var full :- ExpandTemplate(Store(site), doc, None, rank);
    ExecuteLua(full, site.interp)
  }

  /** serve_content: the rendered page as text. */
  function ServeContent(site: Site, uri: string, ghost rank: map<string, nat>): (r: Result<string>)
    requires WellFormed(Store(site), rank)
    requires PageWellNested(site, uri)
    ensures !IsAbsolute(uri) ==> r == Err(NotRooted(uri))
    ensures IsAbsolute(uri) && PagePath(uri).value !in site.files ==> r == Err(PageUnreadable(PagePath(uri).value))
    ensures r.Ok? <==> RenderPage(site, uri, rank).Ok?
    ensures r.Ok? ==> r.value == site.serialize(RenderPage(site, uri, rank).value)
    ensures r.Err? ==> r.error == RenderPage(site, uri, rank).error
    ensures r.Ok? ==> exists page :: r.value == site.serialize(page) && ExpandableFree(Labels(page))
  {
    var page :- RenderPage(site, uri, rank);
    Ok(site.serialize(page))
  }

  /**
   * A served page, stage by stage: the page read for the request, expanded include by include
   * against the components directory, then run through the script pass.
   */
  lemma RenderPageContent(site: Site, uri: string, rank: map<string, nat>)
    requires WellFormed(Store(site), rank)
    requires PageWellNested(site, uri)
    requires RenderPage(site, uri, rank).Ok?
    ensures Page(site, uri).Ok? && ExpandTemplate(Store(site), Page(site, uri).value, None, rank).Ok?
    ensures var full := ExpandTemplate(Store(site), Page(site, uri).value, None, rank).value;
            && ExpandedAs(Store(site), rank, Page(site, uri).value, full)
            && ScriptPass(full, site.interp, RenderPage(site, uri, rank))
  {
    ExpandTemplateContent(Store(site), Page(site, uri).value, None, rank);
  }

  /** An include names a file of the components directory; a relative path is looked up below it. */
  lemma ComponentTarget(site: Site, l: Label)
    requires IsExpandable(l) && !IsAbsolute(l.1["path"])
    ensures Target(Store(site), l) == ComponentsRoot + [Separator] + l.1["path"]
  {
  }

  /**
   * Scripts run only on a page that was read and fully expanded: while an earlier stage
   * fails, the interpreter makes no difference.
   */
  lemma ScriptsRunLast(site: Site, interp: Interpreter, uri: string, rank: map<string, nat>)
    requires WellFormed(Store(site), rank)
    requires PageWellNested(site, uri)
    requires Page(site, uri).Err? || ExpandTemplate(Store(site), Page(site, uri).value, None, rank).Err?
    ensures RenderPage(site, uri, rank) == RenderPage(site.(interp := interp), uri, rank)
    ensures RenderPage(site, uri, rank).Err?
  {
  }

  /**
   * A whole-document page without includes is served exactly as the library's own entry
   * point renders its text: the two script passes agree.
   */
  lemma ServeAgreesWithLibrary(site: Site, uri: string, rank: map<string, nat>)
    requires WellFormed(Store(site), rank)
    requires PagePath(uri).Ok? && PagePath(uri).value in site.files
    requires IsWholeDocument(site.files[PagePath(uri).value])
    requires ExpandableFree(Labels(site.parsers.document(site.files[PagePath(uri).value])))
    ensures PageWellNested(site, uri)
    ensures RenderPage(site, uri, rank) == Lib.Parse(site.files[PagePath(uri).value], site.parsers.document, site.interp)
  {
    var doc := site.parsers.document(site.files[PagePath(uri).value]);
    FreeWellNested(doc);
    assert Page(site, uri) == Ok(doc);
    assert ExpandTemplate(Store(site), doc, None, rank) == Ok(doc);
    assert RenderPage(site, uri, rank) == ExecuteLua(doc, site.interp);
  }

  /** A page with neither includes nor script regions is served as it was parsed. */
  lemma PlainPageUnchanged(site: Site, uri: string, rank: map<string, nat>)
    requires WellFormed(Store(site), rank)
    requires Page(site, uri).Ok?
    requires ExpandableFree(Labels(Page(site, uri).value)) && Chunks(Page(site, uri).value) == []
    ensures PageWellNested(site, uri)
    ensures RenderPage(site, uri, rank) == Page(site, uri)
  {
    FreeWellNested(Page(site, uri).value);
  }

  const PageFile: string := "/var/www/htmlua/pages/a"

  /** A one-file site whose page "a" is a fragment holding one region. */
  predicate ExampleSite(site: Site)
  {
    && site.files == map[PageFile := "x"]
    && site.parsers.document("x") == []
    && site.parsers.fragment("x") == [Region("c")]
    && site.interp([], "c") == Ran([Println("hi")])
  }

  lemma ExampleWellFormed(site: Site)
    requires ExampleSite(site)
    ensures WellFormed(Store(site), map[PageFile := 0])
  {
    assert Labels([]) == {};
  }

  lemma ExamplePage(site: Site)
    requires ExampleSite(site)
    ensures Page(site, "/a") == Ok([Region("c")])
  {
    var rel: string := "a";
    assert !IsAbsolute(rel);
    assert "/a"[1..] == rel;
    assert DropSeparators("/a") == rel;
    assert Join(PagesRoot, rel) == PageFile;
    assert PagePath("/a") == Ok(PageFile);
    assert !IsWholeDocument("x");
  }

  lemma ExampleExpansion(site: Site)
    requires ExampleSite(site)
    ensures WellFormed(Store(site), map[PageFile := 0])
    ensures WellNested([Region("c")])
    ensures ExpandTemplate(Store(site), [Region("c")], None, map[PageFile := 0]) == Ok([Region("c")])
  {
    ExampleWellFormed(site);
    var none: Forest := [];
    assert [Text("c")][1..] == none;
    assert Labels([Text("c")]) == {};
    assert [Region("c")][1..] == none;
    assert Labels([Region("c")]) == {("lua", map[])};
    FreeWellNested([Region("c")]);
  }

  lemma ExampleScript(interp: Interpreter)
    requires interp([], "c") == Ran([Println("hi")])
    ensures ExecuteLua([Region("c")], interp) == Ok([Text("hi\n")])
  {
    RegionChunks("c");
    assert Render([Println("hi")]) == "hi\n";
    RunOne(interp, [], "c", [Println("hi")]);
    SpliceRegion("c", "hi\n");
  }

  /** The request "/a" reads the fragment, finds nothing to include, and serves the region's output. */
  lemma ServeExample(site: Site)
    requires ExampleSite(site)
    ensures WellFormed(Store(site), map[PageFile := 0])
    ensures PageWellNested(site, "/a")
    ensures RenderPage(site, "/a", map[PageFile := 0]) == Ok([Text("hi\n")])
  {
    ExamplePage(site);
    ExampleExpansion(site);
    ExampleScript(site.interp);
  }
}

=== FILE: slots.dfy ===
/**
 * Slot filling, the first half of expanding a component: each named `includeelement`
 * placeholder of the component receives the children of the first `exportelement` of the
 * calling `include` whose class list holds that name, and afterwards every placeholder is
 * removed.
 */
module Slots {
  import opened Tree
  import opened Results

  const Placeholder: string := "includeelement"
  const Export: string := "exportelement"

  /** The selector `exportelement.name` matches an element with this label. */
  predicate IsExport(l: Label, name: string)
  {
    l.0 == Export && HasClass(l.1, name)
  }

  /** Some element among `ls` is an export region for `name`. */
  predicate Exports(ls: set<Label>, name: string)
  {
    exists l | l in ls :: IsExport(l, name)
  }

  /** A placeholder that names the export region it wants. */
  predicate IsSlot(l: Label)
  {
    l.0 == Placeholder && "name" in l.1
  }

  // ---------------------------------------------------------------------------
  // Taking the children of the first matching export region.
  // ---------------------------------------------------------------------------

  /** `n` is an export region for `name`. */
  predicate IsExportFor(n: Node, name: string)
  {
    n.Element? && IsExport((n.tag, n.attrs), name)
  }

  /** The first element of `s` that is an export region for `name`, if any. */
  function FirstExport(s: seq<Node>, name: string): (r: Option<Node>)
    ensures r.Some? ==> r.value in s && IsExportFor(r.value, name)
    ensures r.None? ==> forall i | 0 <= i < |s| :: !IsExportFor(s[i], name)
  {
    if |s| == 0 then None
    else if IsExportFor(s[0], name) then Some(s[0])
    else FirstExport(s[1..], name)
  }

  /** What `FirstExport` finds sits at a position no export region for `name` comes before. */
  lemma {:induction false} FirstExportIsFirst(s: seq<Node>, name: string) returns (i: nat)
    requires FirstExport(s, name).Some?
    ensures i < |s| && s[i] == FirstExport(s, name).value
    ensures forall j | 0 <= j < i :: !IsExportFor(s[j], name)
  {
    if IsExportFor(s[0], name) {
      i := 0;
    } else {
      var k := FirstExportIsFirst(s[1..], name);
      i := k + 1;
      assert forall j | 1 <= j < i :: s[j] == s[1..][j - 1];
    }
  }

  // The walk through a tree meets the opening token of an export region for `name`.
  predicate OpensExport(t: Token, name: string)
  {
    t.Open? && IsExport((t.tag, t.attrs), name)
  }

  /**
   * `whole` is `left` with `taken` put back right after the first opening token of an export
   * region for `name`, a token that `left` follows straight away with a closing token.
   */
  predicate CutOut(whole: seq<Token>, left: seq<Token>, taken: seq<Token>, name: string)
  {
    CutAt(whole, left, taken, FirstOpen(whole, name))
  }

  /** `whole` is `left` with `taken` put back after position `k`, which `left` follows with a closing token. */
  predicate CutAt(whole: seq<Token>, left: seq<Token>, taken: seq<Token>, k: nat)
  {
    k + 1 < |left| && left[k + 1] == Close && whole == left[..k + 1] + taken + left[k + 1..]
  }

  /** The position of the first opening token of an export region for `name`, or `|ts|` when there is none. */
  function FirstOpen(ts: seq<Token>, name: string): (k: nat)
    ensures k <= |ts|
    ensures forall j | 0 <= j < k :: !OpensExport(ts[j], name)
    ensures k < |ts| ==> OpensExport(ts[k], name)
  {
    if |ts| == 0 then 0
    else if OpensExport(ts[0], name) then 0
    else
      var rest := ts[1..];
      assert forall j | 0 <= j < |rest| :: rest[j] == ts[j + 1];
      1 + FirstOpen(rest, name)
  }

  /** The first opening token is determined by where it is and what comes before it. */
  lemma FirstOpenUnique(ts: seq<Token>, name: string, k: nat)
    requires k <= |ts|
    requires forall j | 0 <= j < k :: !OpensExport(ts[j], name)
    requires k < |ts| ==> OpensExport(ts[k], name)
    ensures FirstOpen(ts, name) == k
  {
    var f := FirstOpen(ts, name);
  }

  /** A cut stays where it is when more tokens follow. */
  lemma SpliceBefore(x: seq<Token>, xLeft: seq<Token>, y: seq<Token>, taken: seq<Token>, k: nat)
    requires CutAt(x, xLeft, taken, k)
    ensures CutAt(x + y, xLeft + y, taken, k)
  {
    assert (xLeft + y)[..k + 1] == xLeft[..k + 1];
    assert (xLeft + y)[k + 1..] == xLeft[k + 1..] + y;
  }

  /** A region opened in `x` is still the first one in `x + y`. */
  lemma CutBefore(x: seq<Token>, xLeft: seq<Token>, y: seq<Token>, taken: seq<Token>, name: string)
    requires CutOut(x, xLeft, taken, name)
    ensures CutOut(x + y, xLeft + y, taken, name)
  {
    var k := FirstOpen(x, name);
    assert k < |x| by {
      assert |x| == |xLeft| + |taken|;
    }
    assert forall j | 0 <= j <= k :: (x + y)[j] == x[j];
    FirstOpenUnique(x + y, name, k);
    SpliceBefore(x, xLeft, y, taken, k);
  }


  /** After an `x` that opens no region, the first opening token is found `|x|` steps later. */
  lemma FirstOpenShift(x: seq<Token>, y: seq<Token>, name: string)
    requires FirstOpen(x, name) == |x|
    ensures FirstOpen(x + y, name) == |x| + FirstOpen(y, name)
  {
    var k := FirstOpen(y, name);
    var xy := x + y;
    forall j | 0 <= j < |x| + k
      ensures !OpensExport(xy[j], name)
    {
      if j < |x| {
        assert xy[j] == x[j];
      } else {
        assert xy[j] == y[j - |x|];
      }
    }
    if k < |y| {
      assert xy[|x| + k] == y[k];
    }
    FirstOpenUnique(xy, name, |x| + k);
  }

  /** A cut moves `|x|` steps later when `x` comes first. */
  lemma SpliceAfter(x: seq<Token>, y: seq<Token>, yLeft: seq<Token>, taken: seq<Token>, k: nat, m: nat)
    requires CutAt(y, yLeft, taken, k) && m == |x| + k
    ensures CutAt(x + y, x + yLeft, taken, m)
  {
    assert (x + yLeft)[..m + 1] == x + yLeft[..k + 1];
    assert (x + yLeft)[m + 1..] == yLeft[k + 1..];
  }

  /** A region opened in `y` after an `x` that opens none is found `|x|` steps later. */
  lemma CutAfter(x: seq<Token>, y: seq<Token>, yLeft: seq<Token>, taken: seq<Token>, name: string)
    requires FirstOpen(x, name) == |x|
    requires CutOut(y, yLeft, taken, name)
    ensures CutOut(x + y, x + yLeft, taken, name)
  {
    FirstOpenShift(x, y, name);
    ShiftedCut(x, y, yLeft, taken, name);
  }

  lemma ShiftedCut(x: seq<Token>, y: seq<Token>, yLeft: seq<Token>, taken: seq<Token>, name: string)
    requires CutOut(y, yLeft, taken, name)
    requires FirstOpen(x + y, name) == |x| + FirstOpen(y, name)
    ensures CutOut(x + y, x + yLeft, taken, name)
  {
    SpliceAfter(x, y, yLeft, taken, FirstOpen(y, name), FirstOpen(x + y, name));
  }

  /** A region opened inside `inner` is found one step later in `inner` wrapped between two other tokens. */
  lemma CutWrapped(open: Token, close: Token, inner: seq<Token>, innerLeft: seq<Token>, taken: seq<Token>, name: string)
    requires !OpensExport(open, name)
    requires CutOut(inner, innerLeft, taken, name)
    ensures CutOut([open] + inner + [close], [open] + innerLeft + [close], taken, name)
  {
    FirstOpenUnique([open], name, 1);
    CutAfter([open], inner, innerLeft, taken, name);
    CutBefore([open] + inner, [open] + innerLeft, [close], taken, name);
  }

  /** Neither part opens a region, so neither does the whole. */
  lemma NoOpenConcat(x: seq<Token>, y: seq<Token>, name: string)
    requires FirstOpen(x, name) == |x| && FirstOpen(y, name) == |y|
    ensures FirstOpen(x + y, name) == |x + y|
  {
    FirstOpenUnique(x + y, name, |x + y|);
  }

  /** Wrapping tokens that open no region around ones that open none opens none. */
  lemma NoOpenWrapped(open: Token, close: Token, inner: seq<Token>, name: string)
    requires !OpensExport(open, name) && !OpensExport(close, name)
    requires FirstOpen(inner, name) == |inner|
    ensures FirstOpen([open] + inner + [close], name) == |[open] + inner + [close]|
  {
    FirstOpenUnique([open], name, 1);
    FirstOpenUnique([close], name, 1);
    NoOpenConcat([open], inner, name);
    NoOpenConcat([open] + inner, [close], name);
  }

  /**
   * Move the children out of the first export region for `name` in document order; the
   * region itself stays, now empty. The first component is what was moved, if anything.
   */
  function TakeNode(n: Node, name: string): (r: (Option<Forest>, Node))
    ensures r.0.None? <==> !Exports(NodeLabels(n), name)
    ensures r.0.None? ==> r.1 == n
    ensures r.0.Some? ==> Size(r.0.value) + NodeSize(r.1) == NodeSize(n)
    ensures NodeLabels(r.1) <= NodeLabels(n)
    ensures r.0.Some? ==> Labels(r.0.value) <= NodeLabels(n)
  {
    match n
    case Element(t, a, ch) =>
      if t == Export && HasClass(a, name) then
        var none: Forest := [];
        (Some(ch), Element(t, a, none))
      else
        var below := TakeForest(ch, name);
        (below.0, Element(t, a, below.1))
    case Text(_) => (None, n)
    case Document(ch) =>
      var below := TakeForest(ch, name);
      (below.0, Document(below.1))
  }

  function TakeForest(f: Forest, name: string): (r: (Option<Forest>, Forest))
    ensures r.0.None? <==> !Exports(Labels(f), name)
    ensures r.0.None? ==> r.1 == f
    ensures r.0.Some? ==> Size(r.0.value) + Size(r.1) == Size(f)
    ensures Labels(r.1) <= Labels(f)
    ensures r.0.Some? ==> Labels(r.0.value) <= Labels(f)
  {
    if |f| == 0 then (None, [])
    else
      var head := TakeNode(f[0], name);
      if head.0.Some? then
        var left := [head.1] + f[1..];
        assert left[0] == head.1 && left[1..] == f[1..];
        LabelsConcat([head.1], f[1..]);
        LabelsSingle(head.1);
        (head.0, left)
      else
        var rest := TakeForest(f[1..], name);
        var left := [f[0]] + rest.1;
        assert left[0] == f[0] && left[1..] == rest.1;
        LabelsConcat([f[0]], rest.1);
        LabelsSingle(f[0]);
        (rest.0, left)
  }

  /**
   * Taking changes nothing but the first export region for `name` met in the walk through
   * the tree: in that walk, the taken children are cut out right after the region's opening
   * token, which is then followed by its closing token. With no such region, nothing is
   * opened for `name` anywhere.
   */
  lemma {:induction false} TakeNodeCut(n: Node, name: string)
    ensures var r := TakeNode(n, name);
            (r.0.None? ==> FirstOpen(NodeTokens(n), name) == |NodeTokens(n)|) &&
            (r.0.Some? ==> CutOut(NodeTokens(n), NodeTokens(r.1), Tokens(r.0.value), name))
    decreases n, 1
  {
    match n
    case Element(t, a, ch) =>
      if t == Export && HasClass(a, name) {
        var none: Forest := [];
        assert Tokens(none) == [];
        FirstOpenUnique(NodeTokens(n), name, 0);
      } else {
        TakeForestCut(ch, name);
        WrapCut(Open(t, a), Close, ch, TakeForest(ch, name), name);
      }
    case Text(_) =>
      FirstOpenUnique(NodeTokens(n), name, 1);
    case Document(ch) =>
      TakeForestCut(ch, name);
      WrapCut(DocOpen, DocClose, ch, TakeForest(ch, name), name);
  }

  /** What is said of the children's walk carries over to the walk wrapped in their parent's tokens. */
  lemma WrapCut(open: Token, close: Token, ch: Forest, below: (Option<Forest>, Forest), name: string)
    requires !OpensExport(open, name) && !OpensExport(close, name)
    requires below.0.None? ==> FirstOpen(Tokens(ch), name) == |Tokens(ch)|
    requires below.0.Some? ==> CutOut(Tokens(ch), Tokens(below.1), Tokens(below.0.value), name)
    ensures below.0.None? ==> FirstOpen([open] + Tokens(ch) + [close], name) == |[open] + Tokens(ch) + [close]|
    ensures below.0.Some? ==>
              CutOut([open] + Tokens(ch) + [close], [open] + Tokens(below.1) + [close], Tokens(below.0.value), name)
  {
    if below.0.Some? {
      CutWrapped(open, close, Tokens(ch), Tokens(below.1), Tokens(below.0.value), name);
    } else {
      NoOpenWrapped(open, close, Tokens(ch), name);
    }
  }

  lemma {:induction false} TakeForestCut(f: Forest, name: string)
    ensures var r := TakeForest(f, name);
            (r.0.None? ==> FirstOpen(Tokens(f), name) == |Tokens(f)|) &&
            (r.0.Some? ==> CutOut(Tokens(f), Tokens(r.1), Tokens(r.0.value), name))
    decreases f, 0
  {
    if |f| == 0 {
      FirstOpenUnique(Tokens(f), name, 0);
    } else {
      var head := TakeNode(f[0], name);
      TakeNodeCut(f[0], name);
      TokensConcat([f[0]], f[1..]);
      TokensSingle(f[0]);
      assert f == [f[0]] + f[1..];
      if head.0.Some? {
        TokensConcat([head.1], f[1..]);
        TokensSingle(head.1);
        CutBefore(NodeTokens(f[0]), NodeTokens(head.1), Tokens(f[1..]), Tokens(head.0.value), name);
      } else {
        TakeForestCut(f[1..], name);
        var rest := TakeForest(f[1..], name);
        TokensConcat([f[0]], rest.1);
        if rest.0.Some? {
          CutAfter(NodeTokens(f[0]), Tokens(f[1..]), Tokens(rest.1), Tokens(rest.0.value), name);
        } else {
          NoOpenConcat(NodeTokens(f[0]), Tokens(f[1..]), name);
        }
      }
    }
  }

  lemma {:induction false} FirstExportConcat(a: seq<Node>, b: seq<Node>, name: string)
    ensures FirstExport(a + b, name) == if FirstExport(a, name).Some? then FirstExport(a, name) else FirstExport(b, name)
  {
    if |a| == 0 {
      assert a + b == b;
    } else {
      assert (a + b)[0] == a[0];
      assert (a + b)[1..] == a[1..] + b;
      FirstExportConcat(a[1..], b, name);
    }
  }

  /** What is taken is the children of the first export region for `name` in document order. */
  lemma {:induction false} TakeNodeIsFirst(n: Node, name: string)
    ensures TakeNode(n, name).0 == (match FirstExport(NodeSubtrees(n), name)
                                    case None => None
                                    case Some(e) => Some(e.children))
    decreases n, 1
  {
    match n
    case Element(t, a, ch) =>
      FirstExportConcat([n], Subtrees(ch), name);
      assert ([n] + Subtrees(ch))[0] == n;
      if !(t == Export && HasClass(a, name)) {
        assert FirstExport([n], name) == None by {
          assert [n][1..] == [];
        }
        TakeForestIsFirst(ch, name);
      }
    case Text(_) =>
    case Document(ch) =>
      FirstExportConcat([n], Subtrees(ch), name);
      assert FirstExport([n], name) == None by {
        assert [n][1..] == [];
      }
      TakeForestIsFirst(ch, name);
  }

  lemma {:induction false} TakeForestIsFirst(f: Forest, name: string)
    ensures TakeForest(f, name).0 == (match FirstExport(Subtrees(f), name)
                                      case None => None
                                      case Some(e) => Some(e.children))
    decreases f, 0
  {
    if |f| > 0 {
      TakeNodeIsFirst(f[0], name);
      FirstExportConcat(NodeSubtrees(f[0]), Subtrees(f[1..]), name);
      if TakeNode(f[0], name).0.None? {
        TakeForestIsFirst(f[1..], name);
      }
    }
  }

  // ---------------------------------------------------------------------------
  // Filling the placeholders.
  // ---------------------------------------------------------------------------

  /**
   * Visit `n` in document order. A named placeholder takes the children of the first export
   * region for its name; they are inserted one by one straight after it, so they end up in
   * reverse order, and the walk reaches them after the placeholder's own children. The export
   * regions, with whatever is left in them, are threaded along. Content is moved, never
   * copied: the nodes of the result and of the remaining export regions are exactly those of
   * `n` and of the export regions before.
   */
  function FillNode(n: Node, exports: Forest): (r: Result<(Forest, Forest)>)
    ensures r.Ok? ==> Size(r.value.0) + Size(r.value.1) == NodeSize(n) + Size(exports)
    ensures r.Ok? ==> Size(r.value.1) <= Size(exports)
    ensures r.Ok? && !n.Text? ==>
              |r.value.0| > 0 && SameKind(n, r.value.0[0]) && (!IsSlotNode(n) ==> |r.value.0| == 1)
    ensures r.Ok? && n.Text? ==> r.value == ([n], exports)
    ensures r.Err? ==> r.error.SlotNotFound?
    decreases Size(exports) + NodeSize(n), 0
  {
    match n
    case Element(t, a, ch) =>
      if t == Placeholder && "name" in a then
        var taken := TakeForest(exports, a["name"]);
        if taken.0.None? then Err(SlotNotFound(a["name"]))
        else
          var moved := Reverse(taken.0.value);
          SizeReverse(taken.0.value);
          var below :- FillForest(ch, taken.1);
          var after :- FillForest(moved, below.1);
          var node := Element(t, a, below.0);
          SizeConcat([node], after.0);
          SizeSingle(node);
          Ok(([node] + after.0, after.1))
      else
        var below :- FillForest(ch, exports);
        SizeSingle(Element(t, a, below.0));
        Ok(([Element(t, a, below.0)], below.1))
    case Text(_) =>
      SizeSingle(n);
      Ok(([n], exports))
    case Document(ch) =>
      var below :- FillForest(ch, exports);
      SizeSingle(Document(below.0));
      Ok(([Document(below.0)], below.1))
  }

  function FillForest(f: Forest, exports: Forest): (r: Result<(Forest, Forest)>)
    ensures r.Ok? ==> Size(r.value.0) + Size(r.value.1) == Size(f) + Size(exports)
    ensures r.Ok? ==> Size(r.value.1) <= Size(exports)
    ensures r.Err? ==> r.error.SlotNotFound?
    decreases Size(exports) + Size(f), 1
  {
    if |f| == 0 then Ok(([], exports))
    else
      var head :- FillNode(f[0], exports);
      var rest :- FillForest(f[1..], head.1);
      SizeConcat(head.0, rest.0);
      Ok((head.0 + rest.0, rest.1))
  }

  /** The walk fills the first tree, then the rest with the export regions it left. */
  lemma FillForestStep(n: Node, rest: Forest, exports: Forest, head: (Forest, Forest), tail: (Forest, Forest))
    requires FillNode(n, exports) == Ok(head) && FillForest(rest, head.1) == Ok(tail)
    ensures FillForest([n] + rest, exports) == Ok((head.0 + tail.0, tail.1))
  {
    assert ([n] + rest)[0] == n && ([n] + rest)[1..] == rest;
  }

  /** A named placeholder element. */
  predicate IsSlotNode(n: Node)
  {
    n.Element? && IsSlot((n.tag, n.attrs))
  }

  /** `b` is the same kind of node as `a`, with the same tag and attributes or the same text. */
  predicate SameKind(a: Node, b: Node)
  {
    match a
    case Element(t, at, _) => b.Element? && b.tag == t && b.attrs == at
    case Text(_) => b == a
    case Document(_) => b.Document?
  }

  /** No named placeholder among `ls`. */
  predicate SlotFree(ls: set<Label>)
  {
    forall l | l in ls :: !IsSlot(l)
  }

  /**
   * Filling adds only what it moved out of the export regions, the export regions only lose
   * content, and every named placeholder of `n` found an export region for its name.
   */
  lemma {:induction false} FillNodeLabels(n: Node, exports: Forest)
    requires FillNode(n, exports).Ok?
    ensures Labels(FillNode(n, exports).value.0) <= NodeLabels(n) + Labels(exports)
    ensures Labels(FillNode(n, exports).value.1) <= Labels(exports)
    ensures forall l | l in NodeLabels(n) && IsSlot(l) :: Exports(Labels(exports), l.1["name"])
    decreases Size(exports) + NodeSize(n), 0
  {
    match n
    case Element(t, a, ch) =>
      if t == Placeholder && "name" in a {
        var taken := TakeForest(exports, a["name"]);
        var moved := Reverse(taken.0.value);
        SizeReverse(taken.0.value);
        LabelsReverse(taken.0.value);
        FillForestLabels(ch, taken.1);
        var below := FillForest(ch, taken.1).value;
        FillForestLabels(moved, below.1);
        var after := FillForest(moved, below.1).value;
        var node := Element(t, a, below.0);
        LabelsConcat([node], after.0);
        LabelsSingle(node);
        assert forall l | l in Labels(ch) && IsSlot(l) :: Exports(Labels(exports), l.1["name"]) by {
          forall l | l in Labels(ch) && IsSlot(l)
            ensures Exports(Labels(exports), l.1["name"])
          {
            var m :| m in Labels(taken.1) && IsExport(m, l.1["name"]);
            assert m in Labels(exports);
          }
        }
      } else {
        FillForestLabels(ch, exports);
        LabelsSingle(Element(t, a, FillForest(ch, exports).value.0));
      }
    case Text(_) =>
      LabelsSingle(n);
    case Document(ch) =>
      FillForestLabels(ch, exports);
      LabelsSingle(Document(FillForest(ch, exports).value.0));
  }

  lemma {:induction false} FillForestLabels(f: Forest, exports: Forest)
    requires FillForest(f, exports).Ok?
    ensures Labels(FillForest(f, exports).value.0) <= Labels(f) + Labels(exports)
    ensures Labels(FillForest(f, exports).value.1) <= Labels(exports)
    ensures forall l | l in Labels(f) && IsSlot(l) :: Exports(Labels(exports), l.1["name"])
    decreases Size(exports) + Size(f), 1
  {
    if |f| > 0 {
      var head := FillNode(f[0], exports).value;
      FillNodeLabels(f[0], exports);
      FillForestLabels(f[1..], head.1);
      var rest := FillForest(f[1..], head.1).value;
      LabelsConcat(head.0, rest.0);
      assert forall l | l in Labels(f[1..]) && IsSlot(l) :: Exports(Labels(exports), l.1["name"]) by {
        forall l | l in Labels(f[1..]) && IsSlot(l)
          ensures Exports(Labels(exports), l.1["name"])
        {
          var m :| m in Labels(head.1) && IsExport(m, l.1["name"]);
          assert m in Labels(exports);
        }
      }
    }
  }

  /** A forest with no named placeholder is left as it is, and so are the export regions. */
  lemma {:induction false} FillSlotFree(f: Forest, exports: Forest)
    requires SlotFree(Labels(f))
    ensures FillForest(f, exports) == Ok((f, exports))
    decreases f
  {
    if |f| > 0 {
      assert Labels(f) == NodeLabels(f[0]) + Labels(f[1..]);
      FillSlotFree(f[1..], exports);
      match f[0] {
        case Element(t, a, ch) =>
          assert (t, a) in NodeLabels(f[0]);
          FillSlotFree(ch, exports);
        case Text(_) =>
        case Document(ch) =>
          FillSlotFree(ch, exports);
      }
      assert FillNode(f[0], exports) == Ok(([f[0]], exports));
      assert [f[0]] + f[1..] == f;
    }
  }

  /**
   * A named placeholder is followed by the children of the first export region for its name,
   * in document order, reversed; when those hold no named placeholder they land there as they
   * were.
   */
  lemma FillSlotPlacement(n: Node, exports: Forest)
    requires IsSlotNode(n)
    requires FillNode(n, exports).Ok?
    ensures var e := FirstExport(Subtrees(exports), n.attrs["name"]);
            e.Some? &&
            (SlotFree(Labels(e.value.children)) ==> FillNode(n, exports).value.0[1..] == Reverse(e.value.children))
  {
    var name := n.attrs["name"];
    var taken := TakeForest(exports, name);
    TakeForestIsFirst(exports, name);
    var e := FirstExport(Subtrees(exports), name);
    if SlotFree(Labels(e.value.children)) {
      LabelsReverse(e.value.children);
      var below := FillForest(n.children, taken.1).value;
      FillSlotFree(Reverse(e.value.children), below.1);
    }
  }

  /**
   * Fill every named placeholder of `doc` from the export regions of the caller, then remove
   * every placeholder, named or not, together with its subtree.
   */
  function FillSlots(doc: Forest, exports: Forest): (r: Result<Forest>)
    ensures r.Ok? ==> Free(r.value, Placeholder)
    ensures r.Ok? ==> Labels(r.value) <= Labels(doc) + Labels(exports)
    ensures r.Ok? ==> SlotsServed(Labels(doc), Labels(exports))
    ensures r.Err? ==> r.error.SlotNotFound?
  {
    var filled :- FillForest(doc, exports);
    FillForestLabels(doc, exports);
    Ok(Strip(filled.0, Placeholder))
  }

  /** Filling two forests side by side fills the first, then the second from what the first left. */
  lemma {:induction false} FillForestConcat(a: Forest, b: Forest, exports: Forest)
    ensures FillForest(a + b, exports) ==
              match FillForest(a, exports)
              case Err(e) => Err(e)
              case Ok(x) =>
                match FillForest(b, x.1)
                case Err(e) => Err(e)
                case Ok(y) => Ok((x.0 + y.0, y.1))
    decreases a
  {
    if |a| == 0 {
      assert a + b == b;
      var y := FillForest(b, exports);
      if y.Ok? {
        assert a + y.value.0 == y.value.0;
      }
    } else {
      assert (a + b)[0] == a[0];
      assert (a + b)[1..] == a[1..] + b;
      var head := FillNode(a[0], exports);
      if head.Ok? {
        FillForestConcat(a[1..], b, head.value.1);
        var x := FillForest(a[1..], head.value.1);
        if x.Ok? {
          var y := FillForest(b, x.value.1);
          if y.Ok? {
            assert head.value.0 + (x.value.0 + y.value.0) == (head.value.0 + x.value.0) + y.value.0;
          }
        }
      }
    }
  }

  /** A forest of one tree is filled as that tree is. */
  lemma FillForestSingle(n: Node, exports: Forest)
    ensures FillForest([n], exports) ==
              match FillNode(n, exports)
              case Err(e) => Err(e)
              case Ok(x) => Ok(x)
  {
    assert [n][0] == n && [n][1..] == [];
    var head := FillNode(n, exports);
    if head.Ok? {
      assert head.value.0 + [] == head.value.0;
    }
  }

  /** A document with no named placeholder loses its unnamed placeholders and nothing else. */
  lemma FillSlotsSlotFree(doc: Forest, exports: Forest)
    requires SlotFree(Labels(doc))
    ensures FillSlots(doc, exports) == Ok(Strip(doc, Placeholder))
  {
    FillSlotFree(doc, exports);
  }

  /**
   * One named placeholder among content with none: the content around it is kept, stripped
   * only of unnamed placeholders, and the placeholder gives way to the children of the first
   * export region for its name, reversed, when those hold no named placeholder themselves.
   */
  lemma FillSlotsAround(a: Forest, n: Node, b: Forest, exports: Forest)
    requires SlotFree(Labels(a)) && SlotFree(Labels(b)) && IsSlotNode(n)
    requires FillSlots(a + [n] + b, exports).Ok?
    ensures var e := FirstExport(Subtrees(exports), n.attrs["name"]);
            e.Some? &&
            (SlotFree(Labels(e.value.children)) ==>
               FillSlots(a + [n] + b, exports).value ==
                 Strip(a, Placeholder) + Strip(Reverse(e.value.children), Placeholder) + Strip(b, Placeholder))
  {
    FillAround(a, n, b, exports);
    var x := FillNode(n, exports).value;
    FillSlotPlacement(n, exports);
    var e := FirstExport(Subtrees(exports), n.attrs["name"]);
    if SlotFree(Labels(e.value.children)) {
      StripAround(a, x.0, Reverse(e.value.children), b);
    }
  }

  /** Removing placeholders around a filled one removes it and keeps what was moved in after it. */
  lemma StripAround(a: Forest, filled: Forest, moved: Forest, b: Forest)
    requires |filled| > 0 && filled[0].Element? && filled[0].tag == Placeholder && filled[1..] == moved
    ensures Strip(a + filled + b, Placeholder) == Strip(a, Placeholder) + Strip(moved, Placeholder) + Strip(b, Placeholder)
  {
    assert filled == [filled[0]] + moved;
    assert Strip([filled[0]], Placeholder) == [] by {
      assert [filled[0]][1..] == [];
    }
    StripConcat([filled[0]], moved, Placeholder);
    StripConcat(a, filled, Placeholder);
    StripConcat(a + filled, b, Placeholder);
  }

  lemma FillAround(a: Forest, n: Node, b: Forest, exports: Forest)
    requires SlotFree(Labels(a)) && SlotFree(Labels(b))
    requires FillForest(a + [n] + b, exports).Ok?
    ensures FillNode(n, exports).Ok?
    ensures FillForest(a + [n] + b, exports) == Ok((a + FillNode(n, exports).value.0 + b, FillNode(n, exports).value.1))
  {
    FillSlotFree(a, exports);
    FillForestConcat(a, [n], exports);
    FillForestConcat(a + [n], b, exports);
    FillForestSingle(n, exports);
    FillSlotFree(b, FillNode(n, exports).value.1);
  }

  // ---------------------------------------------------------------------------
  // When filling succeeds.
  // ---------------------------------------------------------------------------

  predicate ExportFree(ls: set<Label>)
  {
    forall l | l in ls :: l.0 != Export
  }

  /** No export region sits inside another, so moving a region's children never removes a region. */
  predicate NodeFlat(n: Node)
  {
    match n
    case Element(t, _, ch) => if t == Export then ExportFree(Labels(ch)) else Flat(ch)
    case Text(_) => true
    case Document(ch) => Flat(ch)
  }

  predicate Flat(f: Forest)
  {
    |f| == 0 || (NodeFlat(f[0]) && Flat(f[1..]))
  }

  /** Every export region of `a` is still present in `b`. */
  predicate ExportsKept(a: set<Label>, b: set<Label>)
  {
    forall l | l in a && l.0 == Export :: l in b
  }

  lemma {:induction false} TakeNodeFlat(n: Node, name: string)
    requires NodeFlat(n)
    ensures NodeFlat(TakeNode(n, name).1)
    ensures ExportsKept(NodeLabels(n), NodeLabels(TakeNode(n, name).1))
    decreases n, 1
  {
    match n
    case Element(t, a, ch) =>
      if !(t == Export && HasClass(a, name)) && t != Export {
        TakeForestFlat(ch, name);
      }
    case Text(_) =>
    case Document(ch) =>
      TakeForestFlat(ch, name);
  }

  lemma {:induction false} TakeForestFlat(f: Forest, name: string)
    requires Flat(f)
    ensures Flat(TakeForest(f, name).1)
    ensures ExportsKept(Labels(f), Labels(TakeForest(f, name).1))
    decreases f, 0
  {
    if |f| > 0 {
      var head := TakeNode(f[0], name);
      TakeNodeFlat(f[0], name);
      if head.0.Some? {
        var r := [head.1] + f[1..];
        assert r[0] == head.1 && r[1..] == f[1..];
      } else {
        TakeForestFlat(f[1..], name);
        var r := [f[0]] + TakeForest(f[1..], name).1;
        assert r[0] == f[0] && r[1..] == TakeForest(f[1..], name).1;
      }
    }
  }

  /** Every named placeholder among `ls` has an export region for its name among `regions`. */
  predicate SlotsServed(ls: set<Label>, regions: set<Label>)
  {
    forall l | l in ls && IsSlot(l) :: Exports(regions, l.1["name"])
  }

  /** Keeping every export region keeps every placeholder served. */
  lemma ServedKept(ls: set<Label>, a: set<Label>, b: set<Label>)
    requires SlotsServed(ls, a) && ExportsKept(a, b)
    ensures SlotsServed(ls, b)
  {
    forall l | l in ls && IsSlot(l)
      ensures Exports(b, l.1["name"])
    {
      var m :| m in a && IsExport(m, l.1["name"]);
      assert m in b;
    }
  }

  /**
   * With flat export regions, filling succeeds as soon as every named placeholder, of `n` or of
   * the export regions whose content may be moved in, has an export region for its name.
   */
  lemma {:induction false} FillNodeSucceeds(n: Node, exports: Forest)
    requires Flat(exports)
    requires SlotsServed(NodeLabels(n) + Labels(exports), Labels(exports))
    ensures FillNode(n, exports).Ok?
    ensures Flat(FillNode(n, exports).value.1)
    ensures ExportsKept(Labels(exports), Labels(FillNode(n, exports).value.1))
    decreases Size(exports) + NodeSize(n), 0
  {
    match n
    case Element(t, a, ch) =>
      if t == Placeholder && "name" in a {
        assert IsSlot((t, a));
        var taken := TakeForest(exports, a["name"]);
        TakeForestFlat(exports, a["name"]);
        ServedKept(Labels(ch) + Labels(taken.1), Labels(exports), Labels(taken.1));
        SizeReverse(taken.0.value);
        FillForestSucceeds(ch, taken.1);
        var below := FillForest(ch, taken.1).value;
        FillForestLabels(ch, taken.1);
        var moved := Reverse(taken.0.value);
        LabelsReverse(taken.0.value);
        ServedKept(Labels(moved) + Labels(below.1), Labels(exports), Labels(below.1));
        FillForestSucceeds(moved, below.1);
      } else {
        FillForestSucceeds(ch, exports);
      }
    case Text(_) =>
    case Document(ch) =>
      FillForestSucceeds(ch, exports);
  }

  lemma {:induction false} FillForestSucceeds(f: Forest, exports: Forest)
    requires Flat(exports)
    requires SlotsServed(Labels(f) + Labels(exports), Labels(exports))
    ensures FillForest(f, exports).Ok?
    ensures Flat(FillForest(f, exports).value.1)
    ensures ExportsKept(Labels(exports), Labels(FillForest(f, exports).value.1))
    decreases Size(exports) + Size(f), 1
  {
    if |f| > 0 {
      FillNodeSucceeds(f[0], exports);
      var head := FillNode(f[0], exports).value;
      FillNodeLabels(f[0], exports);
      ServedKept(Labels(f[1..]) + Labels(head.1), Labels(exports), Labels(head.1));
      FillForestSucceeds(f[1..], head.1);
    }
  }

  /**
   * With flat export regions, slot filling succeeds when every named placeholder, in the page
   * or in the export regions, has an export region, and fails when one in the page has none.
   * When the export regions hold no placeholder, that is an if-and-only-if.
   */
  lemma FillSlotsFailsIff(doc: Forest, exports: Forest)
    requires Flat(exports)
    ensures SlotsServed(Labels(doc) + Labels(exports), Labels(exports)) ==> FillSlots(doc, exports).Ok?
    ensures !SlotsServed(Labels(doc), Labels(exports)) ==> FillSlots(doc, exports).Err?
    ensures SlotFree(Labels(exports)) ==>
              (FillSlots(doc, exports).Err? <==>
               exists l | l in Labels(doc) && IsSlot(l) :: !Exports(Labels(exports), l.1["name"]))
  {
    if SlotsServed(Labels(doc) + Labels(exports), Labels(exports)) {
      FillForestSucceeds(doc, exports);
    }
  }

  // ---------------------------------------------------------------------------
  // Examples.
  // ---------------------------------------------------------------------------

  lemma ClassExample()
    ensures HasClass(map["class" := "el1"], "el1")
    ensures !HasClass(map["class" := "el1"], "el2")
  {
    var w: string := "el1";
    assert LeadingWord(w[3..]) == "";
    assert LeadingWord(w) == w;
    assert w[|w|..] == "";
    assert Words(w) == [w];
  }

  // An export region for "el1" holding two text nodes, the same region emptied, and a
  // placeholder asking for "el1".
  const region: Node := Element(Export, map["class" := "el1"], [Text("a"), Text("b")])
  const emptied: Node := Element(Export, map["class" := "el1"], [])
  const slot: Node := Element(Placeholder, map["name" := "el1"], [])

  lemma TakeExample()
    ensures TakeForest([region], "el1") == (Some([Text("a"), Text("b")]), [emptied])
    ensures TakeForest([emptied], "el1") == (Some([]), [emptied])
  {
    ClassExample();
    assert TakeNode(region, "el1") == (Some([Text("a"), Text("b")]), emptied);
    assert [region][1..] == [] && [emptied][1..] == [];
    assert [emptied] + [region][1..] == [emptied];
    assert [emptied] + [emptied][1..] == [emptied];
    assert TakeNode(emptied, "el1") == (Some([]), emptied);
  }

  /** Moved-in text is visited and left as it is. */
  lemma TextsExample()
    ensures FillForest([Text("b"), Text("a")], [emptied]) == Ok(([Text("b"), Text("a")], [emptied]))
  {
    var none: Forest := [];
    var last := [Text("a")];
    assert FillForest(none, [emptied]) == Ok((none, [emptied]));
    assert last[1..] == none && last + none == last;
    assert FillForest(last, [emptied]) == Ok((last, [emptied]));
    var moved := [Text("b"), Text("a")];
    assert moved[1..] == last && [Text("b")] + last == moved;
  }

  lemma FirstSlotExample()
    ensures FillNode(slot, [region]) == Ok(([slot, Text("b"), Text("a")], [emptied]))
  {
    TakeExample();
    assert Reverse([Text("a"), Text("b")]) == [Text("b"), Text("a")];
    assert slot.attrs["name"] == "el1";
    assert FillForest([], [emptied]) == Ok(([], [emptied]));
    assert FillForest(slot.children, [emptied]) == Ok(([], [emptied]));
    var moved := [Text("b"), Text("a")];
    TextsExample();
    assert [slot] + moved == [slot, Text("b"), Text("a")];
  }

  lemma SecondSlotExample()
    ensures FillForest([slot], [emptied]) == Ok(([slot], [emptied]))
  {
    TakeExample();
    var none: Forest := [];
    assert slot.attrs["name"] == "el1";
    assert FillForest(slot.children, [emptied]) == Ok((none, [emptied]));
    assert Reverse(none) == none;
    assert [slot] + Reverse(none) == [slot];
    assert FillNode(slot, [emptied]) == Ok(([slot], [emptied]));
    assert [slot][1..] == none;
    assert FillForest(none, [emptied]) == Ok((none, [emptied]));
    assert [slot] + none == [slot];
  }

  lemma StripExample()
    ensures Strip([slot, Text("b"), Text("a"), slot], Placeholder) == [Text("b"), Text("a")]
  {
    var filled := [slot, Text("b"), Text("a"), slot];
    assert filled[3..][1..] == [];
    assert Strip(filled[3..], Placeholder) == [];
    assert filled[2..][1..] == filled[3..];
    assert Strip(filled[2..], Placeholder) == [Text("a")];
    assert filled[1..][1..] == filled[2..];
    assert Strip(filled[1..], Placeholder) == [Text("b"), Text("a")];
  }

  /** Two moved children land in reverse order, and a second placeholder with the same name gets nothing. */
  lemma MovedReversedExample()
    ensures FillSlots([slot, slot], [region]) == Ok([Text("b"), Text("a")])
  {
    TwoSlotsExample();
    StripExample();
  }

  lemma TwoSlotsExample()
    ensures FillForest([slot, slot], [region]) == Ok(([slot, Text("b"), Text("a"), slot], [emptied]))
  {
    FirstSlotExample();
    SecondSlotExample();
    FillForestStep(slot, [slot], [region], ([slot, Text("b"), Text("a")], [emptied]), ([slot], [emptied]));
    TwoSlotsShapes();
  }

  lemma TwoSlotsShapes()
    ensures [slot] + [slot] == [slot, slot]
    ensures [slot, Text("b"), Text("a")] + [slot] == [slot, Text("b"), Text("a"), slot]
  {
    assert [slot] + [slot] == [slot, slot];
  }


  lemma MissingExportExample()
    ensures
      var exports := [Element(Export, map["class" := "el1"], [Text("a")])];
      FillSlots([Element(Placeholder, map["name" := "el2"], [])], exports) == Err(SlotNotFound("el2"))
  {
    ClassExample();
    var single := Element(Export, map["class" := "el1"], [Text("a")]);
    var wanting := Element(Placeholder, map["name" := "el2"], []);
    assert wanting.attrs["name"] == "el2";
    assert TakeForest([Text("a")], "el2") == (None, [Text("a")]);
    assert TakeNode(single, "el2") == (None, single);
    assert TakeForest([single], "el2").0 == None;
    assert FillNode(wanting, [single]) == Err(SlotNotFound("el2"));
  }

  /**
   * A placeholder inside an export region is visited once its content has been moved in, so
   * it needs an export region of its own even though no placeholder of the page names it.
   */
  lemma ForwardedSlotExample()
    ensures
      var inner := Element(Placeholder, map["name" := "y"], []);
      var exports := [Element(Export, map["class" := "x"], [inner])];
      FillSlots([Element(Placeholder, map["name" := "x"], [])], exports) == Err(SlotNotFound("y"))
  {
    var inner := Element(Placeholder, map["name" := "y"], []);
    var carrier := Element(Export, map["class" := "x"], [inner]);
    var cleared := Element(Export, map["class" := "x"], []);
    var wanting := Element(Placeholder, map["name" := "x"], []);
    var w: string := "x";
    assert LeadingWord(w[1..]) == "";
    assert LeadingWord(w) == w;
    assert w[|w|..] == "";
    assert Words(w) == [w];
    assert HasClass(carrier.attrs, "x");
    assert TakeNode(carrier, "x") == (Some([inner]), cleared);
    assert [carrier][1..] == [];
    assert [cleared] + [carrier][1..] == [cleared];
    assert TakeForest([carrier], "x") == (Some([inner]), [cleared]);
    assert Reverse([inner]) == [inner];
    assert FillForest([], [cleared]) == Ok(([], [cleared]));
    assert !HasClass(cleared.attrs, "y");
    assert TakeNode(cleared, "y").0 == None;
    assert TakeForest([cleared], "y").0 == None;
    assert FillNode(inner, [cleared]) == Err(SlotNotFound("y"));
    assert FillForest([inner], [cleared]) == Err(SlotNotFound("y"));
    assert FillNode(wanting, [carrier]) == Err(SlotNotFound("y"));
  }
}

=== FILE: templates.dfy ===
/**
 * Include expansion: every `include` element with a `path` attribute is replaced by the
 * component that path names, itself expanded first with the `include` as its caller.
 */
module Templates {
  import opened Tree
  import opened Results
  import opened Paths
  import opened Slots

  const Include: string := "include"

  /**
   * Where components come from: the components directory, the text of every readable file
   * by full path, and the HTML parser that reads a component as a whole document (the
   * children of the document node it returns).
   */
  datatype Components = Components(root: string, files: map<string, string>, parse: string -> Forest)

  /** An `include` element the expansion replaces: one that has a `path`. */
  predicate IsExpandable(l: Label)
  {
    l.0 == Include && "path" in l.1
  }

  predicate Expandable(n: Node)
  {
    n.Element? && IsExpandable((n.tag, n.attrs))
  }

  predicate ExpandableFree(ls: set<Label>)
  {
    forall l | l in ls :: !IsExpandable(l)
  }

  /** The file an expandable include names. */
  function Target(c: Components, l: Label): (r: string)
    requires IsExpandable(l)
    ensures IsAbsolute(l.1["path"]) ==> r == l.1["path"]
    ensures !IsAbsolute(l.1["path"]) ==> c.root <= r && |r| >= |l.1["path"]| && r[|r| - |l.1["path"]|..] == l.1["path"]
    ensures !IsAbsolute(l.1["path"]) && |c.root| == 0 ==> r == l.1["path"]
    ensures !IsAbsolute(l.1["path"]) && |c.root| > 0 && c.root[|c.root| - 1] != Separator ==> r == c.root + [Separator] + l.1["path"]
  {
    Join(c.root, l.1["path"])
  }

  /** Every expandable include among `ls` names a readable file. */
  predicate TargetsPresent(c: Components, ls: set<Label>)
  {
    forall l | l in ls && IsExpandable(l) :: Target(c, l) in c.files
  }

  /** No expandable include sits inside another one. */
  predicate NodeWellNested(n: Node)
  {
    match n
    case Element(t, a, ch) => if IsExpandable((t, a)) then ExpandableFree(Labels(ch)) else WellNested(ch)
    case Text(_) => true
    case Document(ch) => WellNested(ch)
  }

  predicate WellNested(f: Forest)
  {
    |f| == 0 || (NodeWellNested(f[0]) && WellNested(f[1..]))
  }

  /** Every readable component that `ls` includes has rank below `bound`. */
  ghost predicate RankedBelow(c: Components, ls: set<Label>, rank: map<string, nat>, bound: nat)
  {
    forall l | l in ls && IsExpandable(l) && Target(c, l) in c.files ::
      Target(c, l) in rank && rank[Target(c, l)] < bound
  }

  /**
   * The components can be numbered below their count so that each includes only components
   * with smaller numbers (no component includes itself, directly or not), and none nests an
   * expandable include inside another.
   */
  ghost predicate WellFormed(c: Components, rank: map<string, nat>)
  {
    forall p | p in c.files ::
      && p in rank && rank[p] < |c.files|
      && WellNested(c.parse(c.files[p]))
      && RankedBelow(c, Labels(c.parse(c.files[p])), rank, rank[p])
  }

  // ---------------------------------------------------------------------------
  // Facts about nesting.
  // ---------------------------------------------------------------------------

  lemma {:induction false} WellNestedConcat(a: Forest, b: Forest)
    ensures WellNested(a + b) <==> WellNested(a) && WellNested(b)
  {
    if |a| == 0 {
      assert a + b == b;
    } else {
      assert (a + b)[0] == a[0];
      assert (a + b)[1..] == a[1..] + b;
      WellNestedConcat(a[1..], b);
    }
  }

  /** A tree with no expandable include at all is well nested. */
  lemma {:induction false} FreeNodeWellNested(n: Node)
    requires ExpandableFree(NodeLabels(n))
    ensures NodeWellNested(n)
    decreases n, 1
  {
    match n
    case Element(t, a, ch) =>
      FreeWellNested(ch);
    case Text(_) =>
    case Document(ch) =>
      FreeWellNested(ch);
  }

  lemma {:induction false} FreeWellNested(f: Forest)
    requires ExpandableFree(Labels(f))
    ensures WellNested(f)
    decreases f, 0
  {
    if |f| > 0 {
      FreeNodeWellNested(f[0]);
      FreeWellNested(f[1..]);
    }
  }

  /** Removing subtrees keeps a forest well nested. */
  lemma {:induction false} StripWellNested(f: Forest, tag: string)
    requires WellNested(f)
    ensures WellNested(Strip(f, tag))
  {
    if |f| > 0 {
      var rest := Strip(f[1..], tag);
      StripWellNested(f[1..], tag);
      match f[0]
      case Element(t, a, ch) =>
        if t != tag {
          if !IsExpandable((t, a)) {
            StripWellNested(ch, tag);
          }
          var node := Element(t, a, Strip(ch, tag));
          assert Strip(f, tag) == [node] + rest;
          assert ([node] + rest)[1..] == rest;
        }
      case Text(_) =>
        assert ([f[0]] + rest)[1..] == rest;
      case Document(ch) =>
        StripWellNested(ch, tag);
        var node := Document(Strip(ch, tag));
        assert ([node] + rest)[1..] == rest;
    }
  }

  /** Filling content free of expandable includes from export regions free of them gives content free of them. */
  lemma FillFreeWellNested(f: Forest, exports: Forest)
    requires FillForest(f, exports).Ok?
    requires ExpandableFree(Labels(f)) && ExpandableFree(Labels(exports))
    ensures WellNested(FillForest(f, exports).value.0)
  {
    FillForestLabels(f, exports);
    FreeWellNested(FillForest(f, exports).value.0);
  }

  /** Filling slots with content free of expandable includes keeps a forest well nested. */
  lemma {:induction false} FillNodeWellNested(n: Node, exports: Forest)
    requires FillNode(n, exports).Ok?
    requires NodeWellNested(n) && ExpandableFree(Labels(exports))
    ensures WellNested(FillNode(n, exports).value.0)
    decreases n, 1
  {
    match n
    case Element(t, a, ch) =>
      if t == Placeholder && "name" in a {
        var taken := TakeForest(exports, a["name"]);
        var below := FillForest(ch, taken.1).value;
        assert ExpandableFree(Labels(taken.1));
        FillForestWellNested(ch, taken.1);
        FillForestLabels(ch, taken.1);
        var node := Element(t, a, below.0);
        assert [node][1..] == [];
        var moved := Reverse(taken.0.value);
        LabelsReverse(taken.0.value);
        FillFreeWellNested(moved, below.1);
        WellNestedConcat([node], FillForest(moved, below.1).value.0);
      } else {
        var below := FillForest(ch, exports).value;
        var node := Element(t, a, below.0);
        assert FillNode(n, exports).value.0 == [node];
        if IsExpandable((t, a)) {
          FillForestLabels(ch, exports);
          assert ExpandableFree(Labels(below.0));
        } else {
          FillForestWellNested(ch, exports);
        }
        assert NodeWellNested(node);
        assert [node][1..] == [];
        assert WellNested([node]);
      }
    case Text(_) =>
      assert [n][1..] == [];
    case Document(ch) =>
      FillForestWellNested(ch, exports);
      var node := Document(FillForest(ch, exports).value.0);
      assert FillNode(n, exports).value.0 == [node];
      assert NodeWellNested(node);
      assert [node][1..] == [];
      assert WellNested([node]);
  }

  lemma {:induction false} FillForestWellNested(f: Forest, exports: Forest)
    requires FillForest(f, exports).Ok?
    requires WellNested(f) && ExpandableFree(Labels(exports))
    ensures WellNested(FillForest(f, exports).value.0)
    decreases f, 0
  {
    if |f| > 0 {
      var head := FillNode(f[0], exports).value;
      FillNodeWellNested(f[0], exports);
      FillNodeLabels(f[0], exports);
      FillForestWellNested(f[1..], head.1);
      WellNestedConcat(head.0, FillForest(f[1..], head.1).value.0);
    }
  }

  lemma FillSlotsWellNested(doc: Forest, exports: Forest)
    requires FillSlots(doc, exports).Ok?
    requires WellNested(doc) && ExpandableFree(Labels(exports))
    ensures WellNested(FillSlots(doc, exports).value)
  {
    FillForestWellNested(doc, exports);
    StripWellNested(FillForest(doc, exports).value.0, Placeholder);
  }

  // ---------------------------------------------------------------------------
  // Expansion.
  // ---------------------------------------------------------------------------

  /**
   * Expand a document: with a caller, fill its slots from the caller's export regions first;
   * then replace every expandable include, in document order.
   */
  function Expand(c: Components, doc: Forest, exports: Option<Forest>, ghost rank: map<string, nat>, ghost bound: nat)
    : (r: Result<Forest>)
    requires WellFormed(c, rank)
    requires WellNested(doc) && RankedBelow(c, Labels(doc), rank, bound)
    requires exports.Some? ==> ExpandableFree(Labels(exports.value))
    ensures r.Ok? ==> ExpandableFree(Labels(r.value))
    ensures r.Ok? && exports.Some? ==> Free(r.value, Placeholder)
    ensures r.Ok? && exports.Some? ==>
              forall l | l in Labels(doc) && IsSlot(l) :: Exports(Labels(exports.value), l.1["name"])
    ensures r.Ok? && exports.None? ==> TargetsPresent(c, Labels(doc))
    ensures r.Ok? && exports.None? ==>
              |r.value| == |doc| &&
              forall i | 0 <= i < |doc| :: if Expandable(doc[i]) then r.value[i].Document? else SameShell(doc[i], r.value[i])
    ensures r.Err? ==> r.error.SlotNotFound? || r.error.ComponentUnreadable?
    ensures exports.None? && ExpandableFree(Labels(doc)) ==> r == Ok(doc)
    decreases bound, 1
  {
    var filled :- if exports.Some? then FillSlots(doc, exports.value) else Ok(doc);
    if exports.Some? then
      FillSlotsWellNested(doc, exports.value);
      ExpandForest(c, filled, rank, bound)
    else
      ExpandForest(c, filled, rank, bound)
  }

  /** Replace `n` if it is an expandable include; otherwise expand below it. */
  function ExpandNode(c: Components, n: Node, ghost rank: map<string, nat>, ghost bound: nat): (r: Result<Node>)
    requires WellFormed(c, rank)
    requires NodeWellNested(n) && RankedBelow(c, NodeLabels(n), rank, bound)
    ensures r.Ok? ==> ExpandableFree(NodeLabels(r.value))
    ensures r.Ok? ==> if Expandable(n) then r.value.Document? else SameShell(n, r.value)
    ensures r.Ok? ==> TargetsPresent(c, NodeLabels(n))
    ensures r.Ok? && Free([n], Placeholder) ==> Free([r.value], Placeholder)
    ensures r.Err? ==> r.error.SlotNotFound? || r.error.ComponentUnreadable?
    ensures ExpandableFree(NodeLabels(n)) ==> r == Ok(n)
    decreases bound, 0, n
  {
    match n
    case Element(t, a, ch) =>
      if IsExpandable((t, a)) then
        var p := Target(c, (t, a));
        if p !in c.files then Err(ComponentUnreadable(p))
        else
          var expanded :- Expand(c, c.parse(c.files[p]), Some(ch), rank, rank[p]);
          LabelsSingle(n);
          Ok(Document(expanded))
      else
        var below :- ExpandForest(c, ch, rank, bound);
        ExpandedBelow(c, n, below);
        Ok(Element(t, a, below))
    case Text(_) => Ok(n)
    case Document(ch) =>
      var below :- ExpandForest(c, ch, rank, bound);
      ExpandedBelow(c, n, below);
      Ok(Document(below))
  }

  /** The node rebuilt over its expanded children: `n` with those children in place of its own. */
  function Rebuilt(n: Node, below: Forest): Node
  {
    match n
    case Element(t, a, _) => Element(t, a, below)
    case Text(_) => n
    case Document(_) => Document(below)
  }

  /** Rebuilding a non-include node over its children expanded in place expands the node in place. */
  lemma ExpandedBelow(c: Components, n: Node, below: Forest)
    requires !n.Text? && !Expandable(n)
    requires ExpandedInPlace(c, n.children, below)
    requires ExpandableFree(Labels(n.children)) ==> below == n.children
    ensures ExpandableFree(NodeLabels(Rebuilt(n, below)))
    ensures SameShell(n, Rebuilt(n, below))
    ensures TargetsPresent(c, NodeLabels(n))
    ensures Free([n], Placeholder) ==> Free([Rebuilt(n, below)], Placeholder)
    ensures ExpandableFree(NodeLabels(n)) ==> Rebuilt(n, below) == n
  {
    LabelsSingle(n);
    LabelsSingle(Rebuilt(n, below));
  }

  function ExpandForest(c: Components, f: Forest, ghost rank: map<string, nat>, ghost bound: nat): (r: Result<Forest>)
    requires WellFormed(c, rank)
    requires WellNested(f) && RankedBelow(c, Labels(f), rank, bound)
    ensures r.Ok? ==> |r.value| == |f|
    ensures r.Ok? ==> forall i | 0 <= i < |f| :: if Expandable(f[i]) then r.value[i].Document? else SameShell(f[i], r.value[i])
    ensures r.Ok? ==> ExpandableFree(Labels(r.value))
    ensures r.Ok? ==> TargetsPresent(c, Labels(f))
    ensures r.Ok? && Free(f, Placeholder) ==> Free(r.value, Placeholder)
    ensures r.Err? ==> r.error.SlotNotFound? || r.error.ComponentUnreadable?
    ensures ExpandableFree(Labels(f)) ==> r == Ok(f)
    decreases bound, 0, f
  {
    if |f| == 0 then Ok([])
    else
      var head :- ExpandNode(c, f[0], rank, bound);
      var rest :- ExpandForest(c, f[1..], rank, bound);
      ExpandedCons(c, f, head, rest);
      Ok([head] + rest)
  }

  /** `g` is `f` with its includes expanded in place, as `ExpandForest` promises. */
  ghost predicate ExpandedInPlace(c: Components, f: Forest, g: Forest)
  {
    && |g| == |f|
    && (forall i | 0 <= i < |f| :: if Expandable(f[i]) then g[i].Document? else SameShell(f[i], g[i]))
    && ExpandableFree(Labels(g))
    && TargetsPresent(c, Labels(f))
    && (Free(f, Placeholder) ==> Free(g, Placeholder))
  }

  /** Expanding the first tree and the rest in place expands the whole forest in place. */
  lemma ExpandedCons(c: Components, f: Forest, head: Node, rest: Forest)
    requires |f| > 0
    requires ExpandableFree(NodeLabels(head))
    requires if Expandable(f[0]) then head.Document? else SameShell(f[0], head)
    requires TargetsPresent(c, NodeLabels(f[0]))
    requires Free([f[0]], Placeholder) ==> Free([head], Placeholder)
    requires ExpandedInPlace(c, f[1..], rest)
    ensures ExpandedInPlace(c, f, [head] + rest)
    ensures ExpandableFree(NodeLabels(f[0])) && rest == f[1..] && head == f[0] ==> [head] + rest == f
  {
    LabelsConcat([head], rest);
    LabelsSingle(head);
    LabelsSingle(f[0]);
    LabelsConcat([f[0]], f[1..]);
    assert f == [f[0]] + f[1..];
    var g := [head] + rest;
    forall i | 0 <= i < |f|
      ensures if Expandable(f[i]) then g[i].Document? else SameShell(f[i], g[i])
    {
      if i > 0 {
        assert f[i] == f[1..][i - 1] && g[i] == rest[i - 1];
      }
    }
  }

  /**
   * expand_template: expand `doc` against the components, with the export regions of the
   * calling include when there is one.
   */
  function ExpandTemplate(c: Components, doc: Forest, exports: Option<Forest>, ghost rank: map<string, nat>)
    : (r: Result<Forest>)
    requires WellFormed(c, rank)
    requires WellNested(doc)
    requires exports.Some? ==> ExpandableFree(Labels(exports.value))
    ensures r.Ok? ==> ExpandableFree(Labels(r.value))
    ensures r.Ok? && exports.Some? ==> Free(r.value, Placeholder)
    ensures r.Ok? && exports.Some? ==>
              forall l | l in Labels(doc) && IsSlot(l) :: Exports(Labels(exports.value), l.1["name"])
    ensures r.Ok? && exports.None? ==> TargetsPresent(c, Labels(doc))
    ensures r.Ok? && exports.None? ==>
              |r.value| == |doc| &&
              forall i | 0 <= i < |doc| :: if Expandable(doc[i]) then r.value[i].Document? else SameShell(doc[i], r.value[i])
    ensures r.Err? ==> r.error.SlotNotFound? || r.error.ComponentUnreadable?
    ensures exports.None? && ExpandableFree(Labels(doc)) ==> r == Ok(doc)
  {
    Expand(c, doc, exports, rank, |c.files|)
  }

  /** A tree with nothing to expand passes through: the forest's result is that tree followed by the rest's result. */
  lemma ExpandPassesFree(c: Components, n: Node, f: Forest, rank: map<string, nat>, bound: nat)
    requires WellFormed(c, rank)
    requires WellNested([n] + f) && RankedBelow(c, Labels([n] + f), rank, bound)
    requires ExpandableFree(NodeLabels(n))
    ensures WellNested(f) && RankedBelow(c, Labels(f), rank, bound)
    ensures ExpandForest(c, f, rank, bound).Ok? ==>
              ExpandForest(c, [n] + f, rank, bound) == Ok([n] + ExpandForest(c, f, rank, bound).value)
    ensures ExpandForest(c, f, rank, bound).Err? ==> ExpandForest(c, [n] + f, rank, bound) == ExpandForest(c, f, rank, bound)
  {
    var g := [n] + f;
    assert g[0] == n && g[1..] == f;
    WellNestedConcat([n], f);
    LabelsConcat([n], f);
    LabelsSingle(n);
  }

  /** A forest of one tree expands as that tree does. */
  lemma ExpandSingle(c: Components, n: Node, rank: map<string, nat>, bound: nat)
    requires WellFormed(c, rank)
    requires NodeWellNested(n) && RankedBelow(c, NodeLabels(n), rank, bound)
    ensures WellNested([n]) && RankedBelow(c, Labels([n]), rank, bound)
    ensures ExpandNode(c, n, rank, bound).Ok? ==> ExpandForest(c, [n], rank, bound) == Ok([ExpandNode(c, n, rank, bound).value])
  {
    var none: Forest := [];
    LabelsSingle(n);
    assert [n][1..] == none;
    assert ExpandForest(c, none, rank, bound) == Ok(none);
    if ExpandNode(c, n, rank, bound).Ok? {
      assert [ExpandNode(c, n, rank, bound).value] + none == [ExpandNode(c, n, rank, bound).value];
    }
  }

  /** An expanded document has nothing left to expand: expanding it again gives it back. */
  lemma ExpandTemplateIdempotent(c: Components, doc: Forest, exports: Option<Forest>, rank: map<string, nat>)
    requires WellFormed(c, rank)
    requires WellNested(doc)
    requires exports.Some? ==> ExpandableFree(Labels(exports.value))
    requires ExpandTemplate(c, doc, exports, rank).Ok?
    ensures WellNested(ExpandTemplate(c, doc, exports, rank).value)
    ensures ExpandTemplate(c, ExpandTemplate(c, doc, exports, rank).value, None, rank) == ExpandTemplate(c, doc, exports, rank)
  {
    FreeWellNested(ExpandTemplate(c, doc, exports, rank).value);
  }

  // ---------------------------------------------------------------------------
  // What the expansion produces.
  // ---------------------------------------------------------------------------

  /**
   * `m` is `n` expanded: an expandable include becomes a document node holding its
   * component, itself expanded with the include's children as export regions; any other
   * element keeps its tag and attributes over its children expanded; text is unchanged.
   */
  ghost predicate NodeExpandedAs(c: Components, rank: map<string, nat>, n: Node, m: Node)
    requires WellFormed(c, rank)
    requires NodeWellNested(n)
    decreases n
  {
    match n
    case Element(t, a, ch) =>
      if IsExpandable((t, a)) then
        var p := Target(c, (t, a));
        && p in c.files
        && ExpandTemplate(c, c.parse(c.files[p]), Some(ch), rank).Ok?
        && m == Document(ExpandTemplate(c, c.parse(c.files[p]), Some(ch), rank).value)
      else
        m.Element? && m.tag == t && m.attrs == a && ExpandedAs(c, rank, ch, m.children)
    case Text(_) => m == n
    case Document(ch) => m.Document? && ExpandedAs(c, rank, ch, m.children)
  }

  /** `g` is `f` expanded tree by tree. */
  ghost predicate ExpandedAs(c: Components, rank: map<string, nat>, f: Forest, g: Forest)
    requires WellFormed(c, rank)
    requires WellNested(f)
    decreases f
  {
    && |g| == |f|
    && (|f| == 0 || (NodeExpandedAs(c, rank, f[0], g[0]) && ExpandedAs(c, rank, f[1..], g[1..])))
  }

  /** Every component a well-formed set of components includes is ranked below their count. */
  lemma RankedBelowCount(c: Components, ls: set<Label>, rank: map<string, nat>)
    requires WellFormed(c, rank)
    ensures RankedBelow(c, ls, rank, |c.files|)
  {
  }

  /** The bound only serves termination: any bound the ranks respect gives the same result. */
  lemma {:induction false} ExpandNodeBound(c: Components, n: Node, rank: map<string, nat>, b1: nat, b2: nat)
    requires WellFormed(c, rank)
    requires NodeWellNested(n) && RankedBelow(c, NodeLabels(n), rank, b1) && RankedBelow(c, NodeLabels(n), rank, b2)
    ensures ExpandNode(c, n, rank, b1) == ExpandNode(c, n, rank, b2)
    decreases n, 1
  {
    match n
    case Element(t, a, ch) =>
      if !IsExpandable((t, a)) {
        ExpandForestBound(c, ch, rank, b1, b2);
      }
    case Text(_) =>
    case Document(ch) =>
      ExpandForestBound(c, ch, rank, b1, b2);
  }

  lemma {:induction false} ExpandForestBound(c: Components, f: Forest, rank: map<string, nat>, b1: nat, b2: nat)
    requires WellFormed(c, rank)
    requires WellNested(f) && RankedBelow(c, Labels(f), rank, b1) && RankedBelow(c, Labels(f), rank, b2)
    ensures ExpandForest(c, f, rank, b1) == ExpandForest(c, f, rank, b2)
    decreases f, 0
  {
    if |f| > 0 {
      assert Labels(f) == NodeLabels(f[0]) + Labels(f[1..]);
      ExpandNodeBound(c, f[0], rank, b1, b2);
      ExpandForestBound(c, f[1..], rank, b1, b2);
    }
  }

  lemma ExpandBound(c: Components, doc: Forest, exports: Option<Forest>, rank: map<string, nat>, b1: nat, b2: nat)
    requires WellFormed(c, rank)
    requires WellNested(doc) && RankedBelow(c, Labels(doc), rank, b1) && RankedBelow(c, Labels(doc), rank, b2)
    requires exports.Some? ==> ExpandableFree(Labels(exports.value))
    ensures Expand(c, doc, exports, rank, b1) == Expand(c, doc, exports, rank, b2)
  {
    if exports.Some? {
      if FillSlots(doc, exports.value).Ok? {
        var filled := FillSlots(doc, exports.value).value;
        FillSlotsWellNested(doc, exports.value);
        ExpandForestBound(c, filled, rank, b1, b2);
      }
    } else {
      ExpandForestBound(c, doc, rank, b1, b2);
    }
  }

  /** A successful expansion of a tree is that tree expanded, include by include. */
  lemma {:induction false} ExpandNodeContent(c: Components, n: Node, rank: map<string, nat>, bound: nat)
    requires WellFormed(c, rank)
    requires NodeWellNested(n) && RankedBelow(c, NodeLabels(n), rank, bound)
    requires ExpandNode(c, n, rank, bound).Ok?
    ensures NodeExpandedAs(c, rank, n, ExpandNode(c, n, rank, bound).value)
    decreases n, 1
  {
    match n
    case Element(t, a, ch) =>
      if IsExpandable((t, a)) {
        var p := Target(c, (t, a));
        var doc := c.parse(c.files[p]);
        RankedBelowCount(c, Labels(doc), rank);
        ExpandBound(c, doc, Some(ch), rank, rank[p], |c.files|);
      } else {
        ExpandForestContent(c, ch, rank, bound);
      }
    case Text(_) =>
    case Document(ch) =>
      ExpandForestContent(c, ch, rank, bound);
  }

  lemma {:induction false} ExpandForestContent(c: Components, f: Forest, rank: map<string, nat>, bound: nat)
    requires WellFormed(c, rank)
    requires WellNested(f) && RankedBelow(c, Labels(f), rank, bound)
    requires ExpandForest(c, f, rank, bound).Ok?
    ensures ExpandedAs(c, rank, f, ExpandForest(c, f, rank, bound).value)
    decreases f, 0
  {
    if |f| > 0 {
      assert Labels(f) == NodeLabels(f[0]) + Labels(f[1..]);
      ExpandNodeContent(c, f[0], rank, bound);
      ExpandForestContent(c, f[1..], rank, bound);
      var g := ExpandForest(c, f, rank, bound).value;
      assert g == [ExpandNode(c, f[0], rank, bound).value] + ExpandForest(c, f[1..], rank, bound).value;
      assert g[1..] == ExpandForest(c, f[1..], rank, bound).value;
    }
  }

  /**
   * A successful expansion of a document is that document expanded, include by include:
   * after its slots were filled from the export regions when it has a caller, as it is
   * otherwise.
   */
  lemma ExpandTemplateContent(c: Components, doc: Forest, exports: Option<Forest>, rank: map<string, nat>)
    requires WellFormed(c, rank)
    requires WellNested(doc)
    requires exports.Some? ==> ExpandableFree(Labels(exports.value))
    requires ExpandTemplate(c, doc, exports, rank).Ok?
    ensures exports.None? ==> ExpandedAs(c, rank, doc, ExpandTemplate(c, doc, exports, rank).value)
    ensures exports.Some? ==>
              && FillSlots(doc, exports.value).Ok?
              && WellNested(FillSlots(doc, exports.value).value)
              && ExpandedAs(c, rank, FillSlots(doc, exports.value).value, ExpandTemplate(c, doc, exports, rank).value)
  {
    RankedBelowCount(c, Labels(doc), rank);
    if exports.Some? {
      var filled := FillSlots(doc, exports.value).value;
      FillSlotsWellNested(doc, exports.value);
      RankedBelowCount(c, Labels(filled), rank);
      ExpandForestContent(c, filled, rank, |c.files|);
    } else {
      ExpandForestContent(c, doc, rank, |c.files|);
    }
  }

  /** Conversely, whatever is the tree expanded is what the expansion returns. */
  lemma {:induction false} ExpandNodeExact(c: Components, n: Node, m: Node, rank: map<string, nat>, bound: nat)
    requires WellFormed(c, rank)
    requires NodeWellNested(n) && RankedBelow(c, NodeLabels(n), rank, bound)
    requires NodeExpandedAs(c, rank, n, m)
    ensures ExpandNode(c, n, rank, bound) == Ok(m)
    decreases n, 1
  {
    match n
    case Element(t, a, ch) =>
      if IsExpandable((t, a)) {
        var p := Target(c, (t, a));
        var doc := c.parse(c.files[p]);
        RankedBelowCount(c, Labels(doc), rank);
        ExpandBound(c, doc, Some(ch), rank, rank[p], |c.files|);
      } else {
        ExpandForestExact(c, ch, m.children, rank, bound);
      }
    case Text(_) =>
    case Document(ch) =>
      ExpandForestExact(c, ch, m.children, rank, bound);
  }

  lemma {:induction false} ExpandForestExact(c: Components, f: Forest, g: Forest, rank: map<string, nat>, bound: nat)
    requires WellFormed(c, rank)
    requires WellNested(f) && RankedBelow(c, Labels(f), rank, bound)
    requires ExpandedAs(c, rank, f, g)
    ensures ExpandForest(c, f, rank, bound) == Ok(g)
    decreases f, 0
  {
    if |f| > 0 {
      assert Labels(f) == NodeLabels(f[0]) + Labels(f[1..]);
      ExpandNodeExact(c, f[0], g[0], rank, bound);
      ExpandForestExact(c, f[1..], g[1..], rank, bound);
      assert g == [g[0]] + g[1..];
    }
  }

  /** A page without caller expands to exactly the page expanded include by include. */
  lemma ExpandTemplateExact(c: Components, doc: Forest, g: Forest, rank: map<string, nat>)
    requires WellFormed(c, rank)
    requires WellNested(doc) && ExpandedAs(c, rank, doc, g)
    ensures ExpandTemplate(c, doc, None, rank) == Ok(g)
  {
    RankedBelowCount(c, Labels(doc), rank);
    ExpandForestExact(c, doc, g, rank, |c.files|);
  }

  /** Read position by position: each tree of the expansion is the matching tree expanded. */
  lemma {:induction false} ExpandedAsAt(c: Components, rank: map<string, nat>, f: Forest, g: Forest)
    requires WellFormed(c, rank)
    requires WellNested(f) && ExpandedAs(c, rank, f, g)
    ensures |g| == |f|
    ensures forall i | 0 <= i < |f| :: NodeWellNested(f[i]) && NodeExpandedAs(c, rank, f[i], g[i])
    decreases f
  {
    if |f| > 0 {
      ExpandedAsAt(c, rank, f[1..], g[1..]);
      forall i | 1 <= i < |f|
        ensures NodeWellNested(f[i]) && NodeExpandedAs(c, rank, f[i], g[i])
      {
        assert f[i] == f[1..][i - 1] && g[i] == g[1..][i - 1];
      }
    }
  }

  // ---------------------------------------------------------------------------
  // Where export regions may sit, and why none is left.
  // ---------------------------------------------------------------------------

  /** Where a node sits: in a page or component proper, among an include's children, or inside an export region. */
  datatype Zone = InPage | InInclude | InRegion

  /**
   * `n` holds export regions only where expansion consumes them: in a page or component only
   * among the children of an expandable include, there only outside other regions, and never
   * inside a region.
   */
  predicate NodeIn(n: Node, z: Zone)
  {
    match n
    case Element(t, a, ch) =>
      if t == Export then z == InInclude && ForestIn(ch, InRegion)
      else if z == InPage && IsExpandable((t, a)) then ForestIn(ch, InInclude)
      else ForestIn(ch, z)
    case Text(_) => true
    case Document(ch) => ForestIn(ch, z)
  }

  predicate ForestIn(f: Forest, z: Zone)
  {
    forall i | 0 <= i < |f| :: NodeIn(f[i], z)
  }

  /** Every component file keeps its export regions inside its expandable includes. */
  predicate ComponentsIn(c: Components)
  {
    forall p | p in c.files :: ForestIn(c.parse(c.files[p]), InPage)
  }

  lemma InConcat(a: Forest, b: Forest, z: Zone)
    ensures ForestIn(a + b, z) <==> ForestIn(a, z) && ForestIn(b, z)
  {
    if ForestIn(a, z) && ForestIn(b, z) {
      forall i | 0 <= i < |a + b|
        ensures NodeIn((a + b)[i], z)
      {
        if i >= |a| {
          assert (a + b)[i] == b[i - |a|];
        }
      }
    }
    if ForestIn(a + b, z) {
      forall i | 0 <= i < |a|
        ensures NodeIn(a[i], z)
      {
        assert (a + b)[i] == a[i];
      }
      forall i | 0 <= i < |b|
        ensures NodeIn(b[i], z)
      {
        assert (a + b)[|a| + i] == b[i];
      }
    }
  }

  /** Content from inside a region may sit anywhere: it holds no region at all. */
  lemma {:induction false} NodeFromRegion(n: Node, z: Zone)
    requires NodeIn(n, InRegion)
    ensures NodeIn(n, z)
    decreases n, 1
  {
    match n
    case Element(t, a, ch) =>
      ForestFromRegion(ch, InInclude);
      ForestFromRegion(ch, z);
    case Text(_) =>
    case Document(ch) =>
      ForestFromRegion(ch, z);
  }

  lemma {:induction false} ForestFromRegion(f: Forest, z: Zone)
    requires ForestIn(f, InRegion)
    ensures ForestIn(f, z)
    decreases f, 0
  {
    forall i | 0 <= i < |f|
      ensures NodeIn(f[i], z)
    {
      NodeFromRegion(f[i], z);
    }
  }

  /** Taking from unnested regions moves content free of regions and leaves the regions unnested. */
  lemma {:induction false} TakeNodeIn(n: Node, name: string)
    requires NodeIn(n, InInclude)
    ensures NodeIn(TakeNode(n, name).1, InInclude)
    ensures TakeNode(n, name).0.Some? ==> ForestIn(TakeNode(n, name).0.value, InRegion)
    decreases n, 1
  {
    match n
    case Element(t, a, ch) =>
      if t != Export {
        TakeForestIn(ch, name);
      } else if !HasClass(a, name) {
        ForestRegionFree(ch);
      }
    case Text(_) =>
    case Document(ch) =>
      TakeForestIn(ch, name);
  }

  /** Content from inside a region holds no region. */
  lemma {:induction false} NodeRegionFree(n: Node)
    requires NodeIn(n, InRegion)
    ensures ExportFree(NodeLabels(n))
    decreases n, 1
  {
    match n
    case Element(t, a, ch) =>
      ForestRegionFree(ch);
    case Text(_) =>
    case Document(ch) =>
      ForestRegionFree(ch);
  }

  lemma {:induction false} ForestRegionFree(f: Forest)
    requires ForestIn(f, InRegion)
    ensures ExportFree(Labels(f))
    decreases f, 0
  {
    if |f| > 0 {
      NodeRegionFree(f[0]);
      assert ForestIn(f[1..], InRegion);
      ForestRegionFree(f[1..]);
    }
  }

  lemma {:induction false} TakeForestIn(f: Forest, name: string)
    requires ForestIn(f, InInclude)
    ensures ForestIn(TakeForest(f, name).1, InInclude)
    ensures TakeForest(f, name).0.Some? ==> ForestIn(TakeForest(f, name).0.value, InRegion)
    decreases f, 0
  {
    if |f| > 0 {
      assert f == [f[0]] + f[1..];
      InConcat([f[0]], f[1..], InInclude);
      var head := TakeNode(f[0], name);
      TakeNodeIn(f[0], name);
      if head.0.Some? {
        InConcat([head.1], f[1..], InInclude);
      } else {
        TakeForestIn(f[1..], name);
        InConcat([f[0]], TakeForest(f[1..], name).1, InInclude);
      }
    }
  }

  lemma ReverseIn(s: Forest, z: Zone)
    requires ForestIn(s, z)
    ensures ForestIn(Reverse(s), z)
  {
    forall i | 0 <= i < |s|
      ensures NodeIn(Reverse(s)[i], z)
    {
      assert Reverse(s)[i] == s[|s| - 1 - i];
    }
  }

  /** Filling from unnested regions keeps every node in its zone and the regions unnested. */
  lemma {:induction false} FillNodeIn(n: Node, exports: Forest, z: Zone)
    requires FillNode(n, exports).Ok?
    requires NodeIn(n, z) && ForestIn(exports, InInclude)
    ensures ForestIn(FillNode(n, exports).value.0, z)
    ensures ForestIn(FillNode(n, exports).value.1, InInclude)
    decreases Size(exports) + NodeSize(n), 0
  {
    match n
    case Element(t, a, ch) =>
      if t == Placeholder && "name" in a {
        var taken := TakeForest(exports, a["name"]);
        TakeForestIn(exports, a["name"]);
        SizeReverse(taken.0.value);
        FillForestIn(ch, taken.1, z);
        var below := FillForest(ch, taken.1).value;
        var moved := Reverse(taken.0.value);
        ReverseIn(taken.0.value, InRegion);
        ForestFromRegion(moved, z);
        FillForestIn(moved, below.1, z);
        var node := Element(t, a, below.0);
        assert NodeIn(node, z);
        InConcat([node], FillForest(moved, below.1).value.0, z);
      } else if t == Export {
        FillForestIn(ch, exports, InRegion);
      } else if z == InPage && IsExpandable((t, a)) {
        FillForestIn(ch, exports, InInclude);
      } else {
        FillForestIn(ch, exports, z);
      }
    case Text(_) =>
    case Document(ch) =>
      FillForestIn(ch, exports, z);
  }

  lemma {:induction false} FillForestIn(f: Forest, exports: Forest, z: Zone)
    requires FillForest(f, exports).Ok?
    requires ForestIn(f, z) && ForestIn(exports, InInclude)
    ensures ForestIn(FillForest(f, exports).value.0, z)
    ensures ForestIn(FillForest(f, exports).value.1, InInclude)
    decreases Size(exports) + Size(f), 1
  {
    if |f| > 0 {
      assert f == [f[0]] + f[1..];
      InConcat([f[0]], f[1..], z);
      var head := FillNode(f[0], exports).value;
      FillNodeIn(f[0], exports, z);
      FillForestIn(f[1..], head.1, z);
      InConcat(head.0, FillForest(f[1..], head.1).value.0, z);
    }
  }

  lemma {:induction false} StripIn(f: Forest, tag: string, z: Zone)
    requires ForestIn(f, z)
    ensures ForestIn(Strip(f, tag), z)
  {
    if |f| > 0 {
      assert f == [f[0]] + f[1..];
      InConcat([f[0]], f[1..], z);
      StripIn(f[1..], tag, z);
      var rest := Strip(f[1..], tag);
      match f[0]
      case Element(t, a, ch) =>
        if t != tag {
          if t == Export {
            StripIn(ch, tag, InRegion);
          } else if z == InPage && IsExpandable((t, a)) {
            StripIn(ch, tag, InInclude);
          } else {
            StripIn(ch, tag, z);
          }
          InConcat([Element(t, a, Strip(ch, tag))], rest, z);
        }
      case Text(_) =>
        InConcat([f[0]], rest, z);
      case Document(ch) =>
        StripIn(ch, tag, z);
        InConcat([Document(Strip(ch, tag))], rest, z);
    }
  }

  /** Filling the slots of a component keeps its export regions inside its expandable includes. */
  lemma FillSlotsIn(doc: Forest, exports: Forest)
    requires FillSlots(doc, exports).Ok?
    requires ForestIn(doc, InPage) && ForestIn(exports, InInclude)
    ensures ForestIn(FillSlots(doc, exports).value, InPage)
  {
    FillForestIn(doc, exports, InPage);
    StripIn(FillForest(doc, exports).value.0, Placeholder, InPage);
  }

  /**
   * When the page and every component keep their export regions among the children of
   * expandable includes, unnested, a successful expansion leaves no export region behind:
   * each is consumed together with the include that holds it.
   */
  lemma {:induction false} ExpandNoRegion(c: Components, doc: Forest, exports: Option<Forest>, rank: map<string, nat>, bound: nat)
    requires WellFormed(c, rank) && ComponentsIn(c)
    requires WellNested(doc) && RankedBelow(c, Labels(doc), rank, bound)
    requires exports.Some? ==> ExpandableFree(Labels(exports.value)) && ForestIn(exports.value, InInclude)
    requires ForestIn(doc, InPage)
    requires Expand(c, doc, exports, rank, bound).Ok?
    ensures Free(Expand(c, doc, exports, rank, bound).value, Export)
    decreases bound, 1
  {
    if exports.Some? {
      var filled := FillSlots(doc, exports.value).value;
      FillSlotsWellNested(doc, exports.value);
      FillSlotsIn(doc, exports.value);
      ExpandForestNoRegion(c, filled, rank, bound);
    } else {
      ExpandForestNoRegion(c, doc, rank, bound);
    }
  }

  lemma {:induction false} ExpandNodeNoRegion(c: Components, n: Node, rank: map<string, nat>, bound: nat)
    requires WellFormed(c, rank) && ComponentsIn(c)
    requires NodeWellNested(n) && RankedBelow(c, NodeLabels(n), rank, bound)
    requires NodeIn(n, InPage)
    requires ExpandNode(c, n, rank, bound).Ok?
    ensures Free([ExpandNode(c, n, rank, bound).value], Export)
    decreases bound, 0, n
  {
    var m := ExpandNode(c, n, rank, bound).value;
    LabelsSingle(m);
    match n
    case Element(t, a, ch) =>
      if IsExpandable((t, a)) {
        var p := Target(c, (t, a));
        ExpandNoRegion(c, c.parse(c.files[p]), Some(ch), rank, rank[p]);
      } else {
        ExpandForestNoRegion(c, ch, rank, bound);
      }
    case Text(_) =>
    case Document(ch) =>
      ExpandForestNoRegion(c, ch, rank, bound);
  }

  lemma {:induction false} ExpandForestNoRegion(c: Components, f: Forest, rank: map<string, nat>, bound: nat)
    requires WellFormed(c, rank) && ComponentsIn(c)
    requires WellNested(f) && RankedBelow(c, Labels(f), rank, bound)
    requires ForestIn(f, InPage)
    requires ExpandForest(c, f, rank, bound).Ok?
    ensures Free(ExpandForest(c, f, rank, bound).value, Export)
    decreases bound, 0, f
  {
    if |f| > 0 {
      assert Labels(f) == NodeLabels(f[0]) + Labels(f[1..]);
      assert NodeIn(f[0], InPage);
      assert ForestIn(f[1..], InPage);
      ExpandNodeNoRegion(c, f[0], rank, bound);
      ExpandForestNoRegion(c, f[1..], rank, bound);
      LabelsConcat([ExpandNode(c, f[0], rank, bound).value], ExpandForest(c, f[1..], rank, bound).value);
    }
  }

  /** A page whose export regions all sit, unnested, in its includes expands to one with none. */
  lemma ExpandTemplateNoRegion(c: Components, doc: Forest, rank: map<string, nat>)
    requires WellFormed(c, rank) && ComponentsIn(c)
    requires WellNested(doc) && ForestIn(doc, InPage)
    requires ExpandTemplate(c, doc, None, rank).Ok?
    ensures Free(ExpandTemplate(c, doc, None, rank).value, Export)
  {
    RankedBelowCount(c, Labels(doc), rank);
    ExpandNoRegion(c, doc, None, rank, |c.files|);
  }

  // ---------------------------------------------------------------------------
  // The include loop as the code runs it.
  // ---------------------------------------------------------------------------

  /**
   * Expansion with the include loop as written. The selector iterator is lazy and works out
   * its next step when it yields an element: for an include, that step is the include's first
   * child, or the include's end. Once the include is replaced and detached, the walk goes on
   * among its children, which hold no expandable include, and at the include's end finds
   * neither a next sibling nor a parent. So only the first expandable include in document
   * order is replaced, here and in every component.
   */
  function LazyExpand(c: Components, doc: Forest, exports: Option<Forest>, ghost rank: map<string, nat>, ghost bound: nat)
    : (r: Result<Forest>)
    requires WellFormed(c, rank)
    requires WellNested(doc) && RankedBelow(c, Labels(doc), rank, bound)
    requires exports.Some? ==> ExpandableFree(Labels(exports.value))
    ensures r.Ok? && exports.None? ==> |r.value| == |doc|
    ensures exports.None? && ExpandableFree(Labels(doc)) ==> r == Ok(doc)
    ensures r.Err? ==> r.error.SlotNotFound? || r.error.ComponentUnreadable?
    decreases bound, 1
  {
    var filled :- if exports.Some? then FillSlots(doc, exports.value) else Ok(doc);
    if exports.Some? then
      FillSlotsWellNested(doc, exports.value);
      var walked :- LazyForest(c, filled, rank, bound);
      Ok(walked.0)
    else
      var walked :- LazyForest(c, filled, rank, bound);
      Ok(walked.0)
  }

  /**
   * The walk through `n`; the flag says whether it replaced an include, after which the loop
   * has ended.
   */
  function LazyNode(c: Components, n: Node, ghost rank: map<string, nat>, ghost bound: nat): (r: Result<(Node, bool)>)
    requires WellFormed(c, rank)
    requires NodeWellNested(n) && RankedBelow(c, NodeLabels(n), rank, bound)
    ensures r.Ok? ==> (r.value.1 <==> !ExpandableFree(NodeLabels(n)))
    ensures r.Ok? && !r.value.1 ==> r.value.0 == n
    ensures r.Ok? && Expandable(n) ==> r.value.0.Document?
    ensures r.Err? ==> r.error.SlotNotFound? || r.error.ComponentUnreadable?
    ensures ExpandableFree(NodeLabels(n)) ==> r == Ok((n, false))
    decreases bound, 0, n
  {
    match n
    case Element(t, a, ch) =>
      if IsExpandable((t, a)) then
        var p := Target(c, (t, a));
        if p !in c.files then Err(ComponentUnreadable(p))
        else
          var expanded :- LazyExpand(c, c.parse(c.files[p]), Some(ch), rank, rank[p]);
          Ok((Document(expanded), true))
      else
        var below :- LazyForest(c, ch, rank, bound);
        Ok((Element(t, a, below.0), below.1))
    case Text(_) => Ok((n, false))
    case Document(ch) =>
      var below :- LazyForest(c, ch, rank, bound);
      Ok((Document(below.0), below.1))
  }

  function LazyForest(c: Components, f: Forest, ghost rank: map<string, nat>, ghost bound: nat): (r: Result<(Forest, bool)>)
    requires WellFormed(c, rank)
    requires WellNested(f) && RankedBelow(c, Labels(f), rank, bound)
    ensures r.Ok? ==> |r.value.0| == |f|
    ensures r.Ok? ==> (r.value.1 <==> !ExpandableFree(Labels(f)))
    ensures r.Ok? && !r.value.1 ==> r.value.0 == f
    ensures r.Ok? && 0 < |f| && !ExpandableFree(NodeLabels(f[0])) ==> r.value.0[1..] == f[1..]
    ensures r.Err? ==> r.error.SlotNotFound? || r.error.ComponentUnreadable?
    ensures ExpandableFree(Labels(f)) ==> r == Ok((f, false))
    decreases bound, 0, f
  {
    if |f| == 0 then Ok(([], false))
    else
      var head :- LazyNode(c, f[0], rank, bound);
      if head.1 then Ok(([head.0] + f[1..], true))
      else
        var rest :- LazyForest(c, f[1..], rank, bound);
        assert f == [f[0]] + f[1..];
        Ok(([head.0] + rest.0, rest.1))
  }

  // ---------------------------------------------------------------------------
  // Examples.
  // ---------------------------------------------------------------------------

  // Components "c/1" and "c/2" under the directory "c": the first includes the second, the
  // second is a span.
  const level1: Node := Element(Include, map["path" := "1"], [])
  const level2: Node := Element(Include, map["path" := "2"], [])
  const twice: Node := Element("span", map[], [Text("included_twice")])
  const ranks: map<string, nat> := map["c/1" := 1, "c/2" := 0]

  predicate ReadsLevels(parse: string -> Forest)
  {
    parse("L1") == [level2] && parse("L2") == [twice]
  }

  function Levels(parse: string -> Forest): Components
  {
    Components("c", map["c/1" := "L1", "c/2" := "L2"], parse)
  }

  lemma TwiceFacts()
    ensures Labels([twice]) == {("span", map[])}
    ensures WellNested([twice]) && ExpandableFree(Labels([twice]))
    ensures FillSlots([twice], []) == Ok([twice])
  {
    var t := Text("included_twice");
    LabelsSingle(twice);
    LabelsSingle(t);
    FreeWellNested([twice]);
    assert [t][1..] == [] && [t] + [] == [t];
    assert FillNode(t, []) == Ok(([t], []));
    assert FillForest([t], []) == Ok(([t], []));
    assert FillNode(twice, []) == Ok(([twice], []));
    assert [twice][1..] == [] && [twice] + [] == [twice];
    assert FillForest([twice], []) == Ok(([twice], []));
  }

  lemma Level2Facts()
    ensures Labels([level2]) == {(Include, map["path" := "2"])}
    ensures WellNested([level2])
    ensures FillSlots([level2], []) == Ok([level2])
  {
    LabelsSingle(level2);
    assert [level2][1..] == [] && [level2] + [] == [level2];
    assert NodeWellNested(level2);
    assert FillNode(level2, []) == Ok(([level2], []));
    assert FillForest([level2], []) == Ok(([level2], []));
  }

  lemma LevelsCount(parse: string -> Forest)
    ensures Levels(parse).files.Keys == {"c/1", "c/2"} && |Levels(parse).files| == 2
  {
    var files := Levels(parse).files;
    assert files.Keys == {"c/1", "c/2"};
    assert |{"c/1", "c/2"}| == 2;
  }

  lemma LevelsWellFormed(parse: string -> Forest)
    requires ReadsLevels(parse)
    ensures WellFormed(Levels(parse), ranks)
  {
    var c := Levels(parse);
    TwiceFacts();
    Level2Facts();
    LevelsCount(parse);
    assert Join("c", "2") == "c/2";
    forall p | p in c.files
      ensures p in ranks && ranks[p] < |c.files|
      ensures WellNested(c.parse(c.files[p]))
      ensures RankedBelow(c, Labels(c.parse(c.files[p])), ranks, ranks[p])
    {
      if p == "c/1" {
        assert c.parse(c.files[p]) == [level2];
      } else {
        assert c.parse(c.files[p]) == [twice];
      }
    }
  }

  lemma InnerExpansion(parse: string -> Forest)
    requires ReadsLevels(parse)
    ensures WellFormed(Levels(parse), ranks)
    ensures WellNested([twice])
    ensures Expand(Levels(parse), [twice], Some([]), ranks, 0) == Ok([twice])
  {
    LevelsWellFormed(parse);
    TwiceFacts();
  }

  lemma Level2Node(parse: string -> Forest)
    requires ReadsLevels(parse)
    ensures WellFormed(Levels(parse), ranks)
    ensures NodeWellNested(level2) && RankedBelow(Levels(parse), NodeLabels(level2), ranks, 1)
    ensures ExpandNode(Levels(parse), level2, ranks, 1) == Ok(Document([twice]))
  {
    InnerExpansion(parse);
    Level2Facts();
    LabelsSingle(level2);
    var c := Levels(parse);
    assert Join("c", "2") == "c/2";
    assert level2.attrs["path"] == "2";
    assert IsExpandable((level2.tag, level2.attrs));
    assert Target(c, (level2.tag, level2.attrs)) == "c/2";
    assert "c/2" in c.files && c.parse(c.files["c/2"]) == [twice] && ranks["c/2"] == 0;
  }

  lemma MiddleExpansion(parse: string -> Forest)
    requires ReadsLevels(parse)
    ensures WellFormed(Levels(parse), ranks)
    ensures WellNested([level2])
    ensures Expand(Levels(parse), [level2], Some([]), ranks, 1) == Ok([Document([twice])])
  {
    Level2Node(parse);
    Level2Facts();
    ExpandSingle(Levels(parse), level2, ranks, 1);
  }

  lemma Level1Target(parse: string -> Forest)
    ensures IsExpandable((level1.tag, level1.attrs)) && Target(Levels(parse), (level1.tag, level1.attrs)) == "c/1"
    ensures NodeLabels(level1) == {(Include, map["path" := "1"])}
    ensures Levels(parse).files["c/1"] == "L1" && ranks["c/1"] == 1
  {
    assert level1.attrs["path"] == "1";
    assert Join("c", "1") == "c/1";
  }

  lemma OuterExpansion(parse: string -> Forest)
    requires ReadsLevels(parse)
    ensures WellFormed(Levels(parse), ranks)
    ensures NodeWellNested(level1) && RankedBelow(Levels(parse), NodeLabels(level1), ranks, 2)
    ensures ExpandNode(Levels(parse), level1, ranks, 2) == Ok(Document([Document([twice])]))
  {
    MiddleExpansion(parse);
    Level1Target(parse);
  }

  lemma OuterForest(parse: string -> Forest)
    requires ReadsLevels(parse)
    ensures WellFormed(Levels(parse), ranks)
    ensures WellNested([level1]) && RankedBelow(Levels(parse), Labels([level1]), ranks, 2)
    ensures ExpandForest(Levels(parse), [level1], ranks, 2) == Ok([Document([Document([twice])])])
  {
    OuterExpansion(parse);
    ExpandSingle(Levels(parse), level1, ranks, 2);
  }

  /** A page including a component that itself includes a second one: both end up expanded. */
  lemma RecursiveIncludeExample(parse: string -> Forest)
    requires ReadsLevels(parse)
    ensures WellFormed(Levels(parse), ranks) && WellNested([level1])
    ensures ExpandTemplate(Levels(parse), [level1], None, ranks) == Ok([Document([Document([twice])])])
  {
    OuterForest(parse);
    LevelsCount(parse);
  }

  // A page whose include carries export regions "el1" and "el2", each holding one span, and a
  // component "c/w" made of two placeholders asking for them.
  const spanA: Node := Element("span", map["id" := "ta"], [Text("element 1")])
  const spanB: Node := Element("span", map["id" := "tb"], [Text("element 2")])
  const export1: Node := Element(Export, map["class" := "el1"], [spanA])
  const export2: Node := Element(Export, map["class" := "el2"], [spanB])
  const cleared1: Node := Element(Export, map["class" := "el1"], [])
  const cleared2: Node := Element(Export, map["class" := "el2"], [])
  const want1: Node := Element(Placeholder, map["name" := "el1"], [])
  const want2: Node := Element(Placeholder, map["name" := "el2"], [])
  const withExports: Node := Element(Include, map["path" := "w"], [export1, export2])
  const slotRanks: map<string, nat> := map["c/w" := 0]

  predicate ReadsSlots(parse: string -> Forest)
  {
    parse("W") == [want1, want2]
  }

  function SlotComponents(parse: string -> Forest): Components
  {
    Components("c", map["c/w" := "W"], parse)
  }

  lemma SecondClassExample()
    ensures HasClass(map["class" := "el2"], "el2")
  {
    var w: string := "el2";
    assert LeadingWord(w[3..]) == "";
    assert LeadingWord(w) == w;
    assert w[|w|..] == "";
    assert Words(w) == [w];
  }

  lemma SpansFree()
    ensures SlotFree(Labels([spanA])) && SlotFree(Labels([spanB]))
    ensures Strip([spanA, spanB], Placeholder) == [spanA, spanB]
    ensures ExpandableFree(Labels([spanA, spanB])) && WellNested([spanA, spanB])
  {
    LabelsSingle(spanA);
    LabelsSingle(spanB);
    LabelsSingle(Text("element 1"));
    LabelsSingle(Text("element 2"));
    LabelsConcat([spanA], [spanB]);
    assert [spanA] + [spanB] == [spanA, spanB];
    FreeWellNested([spanA, spanB]);
  }

  lemma FirstTakeExample()
    ensures TakeForest([export1, export2], "el1") == (Some([spanA]), [cleared1, export2])
  {
    ClassExample();
    assert TakeNode(export1, "el1") == (Some([spanA]), cleared1);
    assert [export1, export2][1..] == [export2];
    assert [cleared1] + [export1, export2][1..] == [cleared1, export2];
  }

  lemma SecondTakeExample()
    ensures TakeForest([cleared1, export2], "el2") == (Some([spanB]), [cleared1, cleared2])
  {
    ClassExample();
    SecondClassExample();
    assert TakeForest([], "el2") == (None, []);
    assert TakeNode(cleared1, "el2") == (None, cleared1);
    assert TakeNode(export2, "el2") == (Some([spanB]), cleared2);
    assert [export2][1..] == [];
    assert [cleared2] + [export2][1..] == [cleared2];
    assert TakeForest([export2], "el2") == (Some([spanB]), [cleared2]);
    assert [cleared1, export2][1..] == [export2];
    assert [cleared1] + [cleared2] == [cleared1, cleared2];
  }

  /** A placeholder with no children, whose export region holds one placeholder-free tree. */
  lemma OneMovedExample(want: Node, moved: Node, exports: Forest, left: Forest)
    requires want.Element? && want.tag == Placeholder && "name" in want.attrs && want.children == []
    requires TakeForest(exports, want.attrs["name"]) == (Some([moved]), left)
    requires SlotFree(Labels([moved]))
    ensures FillNode(want, exports) == Ok(([want, moved], left))
  {
    assert Reverse([moved]) == [moved];
    FillSlotFree([moved], left);
    assert FillForest(want.children, left) == Ok(([], left));
    assert FillForest(Reverse([moved]), left) == Ok(([moved], left));
    assert Element(want.tag, want.attrs, []) == want;
    assert [want] + [moved] == [want, moved];
  }

  lemma FirstWantExample()
    ensures FillNode(want1, [export1, export2]) == Ok(([want1, spanA], [cleared1, export2]))
  {
    FirstTakeExample();
    SpansFree();
    OneMovedExample(want1, spanA, [export1, export2], [cleared1, export2]);
  }

  lemma SecondWantExample()
    ensures FillForest([want2], [cleared1, export2]) == Ok(([want2, spanB], [cleared1, cleared2]))
  {
    SecondTakeExample();
    SpansFree();
    OneMovedExample(want2, spanB, [cleared1, export2], [cleared1, cleared2]);
    FillForestSingle(want2, [cleared1, export2]);
  }

  lemma WantsFilled()
    ensures FillForest([want1, want2], [export1, export2]) == Ok(([want1, spanA, want2, spanB], [cleared1, cleared2]))
  {
    FirstWantExample();
    SecondWantExample();
    FillForestConcat([want1], [want2], [export1, export2]);
    FillForestSingle(want1, [export1, export2]);
    assert [want1] + [want2] == [want1, want2];
    assert [want1, spanA] + [want2, spanB] == [want1, spanA, want2, spanB];
  }

  lemma WantsStripped()
    ensures Strip([want1, spanA, want2, spanB], Placeholder) == [spanA, spanB]
  {
    var filled := [want1, spanA, want2, spanB];
    SpansFree();
    LabelsSingle(spanB);
    LabelsSingle(Text("element 2"));
    assert Strip([spanB], Placeholder) == [spanB];
    assert filled[3..] == [spanB];
    assert filled[2..][1..] == filled[3..];
    assert Strip(filled[2..], Placeholder) == [spanB];
    assert filled[1..][1..] == filled[2..];
    assert Strip(filled[1..], Placeholder) == [spanA, spanB] by {
      assert Strip([spanA], Placeholder) == [spanA] by {
        LabelsSingle(spanA);
        LabelsSingle(Text("element 1"));
      }
      assert Strip(spanA.children, Placeholder) == spanA.children;
    }
    assert filled[1..] == filled[1..];
  }

  /** Both placeholders receive their span, and removing the placeholders leaves the spans alone. */
  lemma WantsExample()
    ensures FillSlots([want1, want2], [export1, export2]) == Ok([spanA, spanB])
  {
    WantsFilled();
    WantsStripped();
  }

  lemma SlotComponentsWellFormed(parse: string -> Forest)
    requires ReadsSlots(parse)
    ensures WellFormed(SlotComponents(parse), slotRanks)
    ensures WellNested([want1, want2])
  {
    var c := SlotComponents(parse);
    SlotFilesCount(parse);
    LabelsSingle(want1);
    LabelsSingle(want2);
    LabelsConcat([want1], [want2]);
    assert [want1] + [want2] == [want1, want2];
    FreeWellNested([want1, want2]);
  }

  lemma ExportsFacts()
    ensures ExpandableFree(Labels([export1, export2]))
    ensures NodeWellNested(withExports)
    ensures NodeLabels(withExports) == {(Include, map["path" := "w"])} + Labels([export1, export2])
  {
    LabelsSingle(export1);
    LabelsSingle(export2);
    LabelsSingle(spanA);
    LabelsSingle(spanB);
    LabelsSingle(Text("element 1"));
    LabelsSingle(Text("element 2"));
    LabelsConcat([export1], [export2]);
    assert [export1] + [export2] == [export1, export2];
  }

  lemma ComponentExpansion(parse: string -> Forest)
    requires ReadsSlots(parse)
    ensures WellFormed(SlotComponents(parse), slotRanks) && WellNested([want1, want2])
    ensures ExpandableFree(Labels([export1, export2]))
    ensures Expand(SlotComponents(parse), [want1, want2], Some([export1, export2]), slotRanks, 0) == Ok([spanA, spanB])
  {
    SlotComponentsWellFormed(parse);
    ExportsFacts();
    WantsExample();
    SpansFree();
  }

  lemma WithExportsNode(parse: string -> Forest)
    requires ReadsSlots(parse)
    ensures WellFormed(SlotComponents(parse), slotRanks)
    ensures NodeWellNested(withExports) && RankedBelow(SlotComponents(parse), NodeLabels(withExports), slotRanks, 1)
    ensures ExpandNode(SlotComponents(parse), withExports, slotRanks, 1) == Ok(Document([spanA, spanB]))
  {
    var c := SlotComponents(parse);
    ComponentExpansion(parse);
    ExportsFacts();
    WithExportsTarget(parse);
    assert c.parse(c.files["c/w"]) == [want1, want2];
  }

  lemma WithExportsTarget(parse: string -> Forest)
    ensures IsExpandable((withExports.tag, withExports.attrs))
    ensures Target(SlotComponents(parse), (withExports.tag, withExports.attrs)) == "c/w"
    ensures "c/w" in SlotComponents(parse).files && slotRanks["c/w"] == 0
  {
    assert withExports.attrs["path"] == "w";
    assert Join("c", "w") == "c/w";
  }

  /**
   * The export regions of an include reach the component's placeholders: each span lands
   * where its placeholder was, and neither a region nor a placeholder is left.
   */
  lemma ExportElementExample(parse: string -> Forest)
    requires ReadsSlots(parse)
    ensures WellFormed(SlotComponents(parse), slotRanks) && WellNested([withExports])
    ensures ExpandTemplate(SlotComponents(parse), [withExports], None, slotRanks) == Ok([Document([spanA, spanB])])
    ensures Free([Document([spanA, spanB])], Export) && Free([Document([spanA, spanB])], Placeholder)
  {
    WithExportsForest(parse);
    SlotFilesCount(parse);
    ResultFree();
  }

  lemma SlotFilesCount(parse: string -> Forest)
    ensures |SlotComponents(parse).files| == 1
  {
    assert SlotComponents(parse).files.Keys == {"c/w"};
  }

  lemma WithExportsForest(parse: string -> Forest)
    requires ReadsSlots(parse)
    ensures WellFormed(SlotComponents(parse), slotRanks)
    ensures WellNested([withExports]) && RankedBelow(SlotComponents(parse), Labels([withExports]), slotRanks, 1)
    ensures ExpandForest(SlotComponents(parse), [withExports], slotRanks, 1) == Ok([Document([spanA, spanB])])
  {
    WithExportsNode(parse);
    ExpandSingle(SlotComponents(parse), withExports, slotRanks, 1);
  }

  lemma ResultFree()
    ensures Free([Document([spanA, spanB])], Export) && Free([Document([spanA, spanB])], Placeholder)
  {
    SpansFree();
    LabelsSingle(Document([spanA, spanB]));
    LabelsSingle(spanA);
    LabelsSingle(spanB);
    LabelsSingle(Text("element 1"));
    LabelsSingle(Text("element 2"));
    LabelsConcat([spanA], [spanB]);
    assert [spanA] + [spanB] == [spanA, spanB];
    assert Labels([Document([spanA, spanB])]) == {("span", map["id" := "ta"]), ("span", map["id" := "tb"])};
  }

  /**
   * Two includes of the same component side by side: the loop as written replaces the first
   * and leaves the second in the page, where the expansion replaces both.
   */
  lemma SecondIncludeKeptExample(parse: string -> Forest)
    requires ReadsLevels(parse)
    ensures WellFormed(Levels(parse), ranks) && WellNested([level2, level2])
    ensures RankedBelow(Levels(parse), Labels([level2, level2]), ranks, 2)
    ensures LazyExpand(Levels(parse), [level2, level2], None, ranks, 2) == Ok([Document([twice]), level2])
    ensures ExpandTemplate(Levels(parse), [level2, level2], None, ranks) == Ok([Document([twice]), Document([twice])])
  {
    LazyLevel2(parse);
    TwoLevel2Facts(parse);
    var c := Levels(parse);
    var page := [level2, level2];
    assert page[0] == level2 && page[1..] == [level2];
    assert [Document([twice])] + page[1..] == [Document([twice]), level2];
    ExpandTwoLevel2(parse);
  }

  lemma TwoLevel2Facts(parse: string -> Forest)
    requires ReadsLevels(parse)
    ensures WellFormed(Levels(parse), ranks)
    ensures WellNested([level2, level2]) && RankedBelow(Levels(parse), Labels([level2, level2]), ranks, 2)
    ensures Labels([level2, level2]) == Labels([level2])
  {
    Level2Node(parse);
    Level2Facts();
    LabelsConcat([level2], [level2]);
    WellNestedConcat([level2], [level2]);
    assert [level2] + [level2] == [level2, level2];
  }

  lemma LazyLevel2(parse: string -> Forest)
    requires ReadsLevels(parse)
    ensures WellFormed(Levels(parse), ranks)
    ensures NodeWellNested(level2) && RankedBelow(Levels(parse), NodeLabels(level2), ranks, 2)
    ensures LazyNode(Levels(parse), level2, ranks, 2) == Ok((Document([twice]), true))
  {
    Level2Node(parse);
    TwiceFacts();
    var c := Levels(parse);
    assert Join("c", "2") == "c/2";
    assert level2.attrs["path"] == "2";
    assert Target(c, (level2.tag, level2.attrs)) == "c/2";
    assert "c/2" in c.files && c.parse(c.files["c/2"]) == [twice] && ranks["c/2"] == 0;
    assert LazyForest(c, [twice], ranks, 0) == Ok(([twice], false));
    assert LazyExpand(c, [twice], Some([]), ranks, 0) == Ok([twice]);
  }

  lemma Level2AtTwo(parse: string -> Forest)
    requires ReadsLevels(parse)
    ensures WellFormed(Levels(parse), ranks)
    ensures NodeWellNested(level2) && RankedBelow(Levels(parse), NodeLabels(level2), ranks, 2)
    ensures ExpandNode(Levels(parse), level2, ranks, 2) == Ok(Document([twice]))
  {
    Level2Node(parse);
    ExpandNodeBound(Levels(parse), level2, ranks, 1, 2);
  }

  lemma ExpandTwoLevel2Forest(parse: string -> Forest)
    requires ReadsLevels(parse)
    ensures WellFormed(Levels(parse), ranks) && WellNested([level2, level2])
    ensures RankedBelow(Levels(parse), Labels([level2, level2]), ranks, 2)
    ensures ExpandForest(Levels(parse), [level2, level2], ranks, 2) == Ok([Document([twice]), Document([twice])])
  {
    TwoLevel2Facts(parse);
    Level2AtTwo(parse);
    ExpandSingle(Levels(parse), level2, ranks, 2);
    var page := [level2, level2];
    assert page[0] == level2 && page[1..] == [level2];
    assert [Document([twice])] + [Document([twice])] == [Document([twice]), Document([twice])];
  }

  lemma ExpandTwoLevel2(parse: string -> Forest)
    requires ReadsLevels(parse)
    ensures WellFormed(Levels(parse), ranks) && WellNested([level2, level2])
    ensures ExpandTemplate(Levels(parse), [level2, level2], None, ranks) == Ok([Document([twice]), Document([twice])])
  {
    ExpandTwoLevel2Forest(parse);
    LevelsCount(parse);
  }
}

=== FILE: tree.dfy ===
/**
 * The document tree the renderer rewrites: elements with a tag, an attribute map and
 * ordered children; text nodes; and document nodes, the roots the HTML parser returns.
 * A page or a component is the forest of its root's children.
 */
module Tree {

  type Attrs = map<string, string>

  datatype Node =
    | Element(tag: string, attrs: Attrs, children: seq<Node>)
    | Text(text: string)
    | Document(children: seq<Node>)

  type Forest = seq<Node>

  /** What a tag or attribute selector can see of an element. */
  type Label = (string, Attrs)

  /** The labels of every element in a subtree. */
  function NodeLabels(n: Node): set<Label>
  {
    match n
    case Element(t, a, ch) => {(t, a)} + Labels(ch)
    case Text(_) => {}
    case Document(ch) => Labels(ch)
  }

  function Labels(f: Forest): set<Label>
  {
    if |f| == 0 then {} else NodeLabels(f[0]) + Labels(f[1..])
  }

  lemma {:induction false} LabelsConcat(a: Forest, b: Forest)
    ensures Labels(a + b) == Labels(a) + Labels(b)
  {
    if |a| == 0 {
      assert a + b == b;
    } else {
      assert (a + b)[1..] == a[1..] + b;
      LabelsConcat(a[1..], b);
    }
  }

  lemma LabelsSingle(n: Node)
    ensures Labels([n]) == NodeLabels(n)
  {
    assert [n][1..] == [];
  }

  /** `b` is a node of the same kind as `a`, with the same tag, attributes or text and as many children. */
  predicate SameShell(a: Node, b: Node)
  {
    match a
    case Element(t, at, ch) => b.Element? && b.tag == t && b.attrs == at && |b.children| == |ch|
    case Text(_) => b == a
    case Document(ch) => b.Document? && |b.children| == |ch|
  }

  /** No element of `f`, at any depth, has tag `tag`. */
  predicate Free(f: Forest, tag: string)
  {
    forall l | l in Labels(f) :: l.0 != tag
  }

  /** A forest is free of a tag exactly when its first tree and the rest are. */
  lemma FreeCons(f: Forest, tag: string)
    requires |f| > 0
    ensures Free(f, tag) <==> (forall l | l in NodeLabels(f[0]) :: l.0 != tag) && Free(f[1..], tag)
  {
    assert Labels(f) == NodeLabels(f[0]) + Labels(f[1..]);
  }

  function NodeSize(n: Node): nat
  {
    match n
    case Element(_, _, ch) => 1 + Size(ch)
    case Text(_) => 1
    case Document(ch) => 1 + Size(ch)
  }

  /** The number of nodes in a forest. */
  function Size(f: Forest): nat
  {
    if |f| == 0 then 0 else NodeSize(f[0]) + Size(f[1..])
  }

  lemma {:induction false} SizeConcat(a: Forest, b: Forest)
    ensures Size(a + b) == Size(a) + Size(b)
  {
    if |a| == 0 {
      assert a + b == b;
    } else {
      assert (a + b)[1..] == a[1..] + b;
      SizeConcat(a[1..], b);
    }
  }

  lemma SizeSingle(n: Node)
    ensures Size([n]) == NodeSize(n)
  {
    assert [n][1..] == [];
  }

  /** Every subtree of `f`, each listed before its descendants: document order. */
  function NodeSubtrees(n: Node): seq<Node>
  {
    match n
    case Element(_, _, ch) => [n] + Subtrees(ch)
    case Text(_) => [n]
    case Document(ch) => [n] + Subtrees(ch)
  }

  function Subtrees(f: Forest): seq<Node>
  {
    if |f| == 0 then [] else NodeSubtrees(f[0]) + Subtrees(f[1..])
  }

  /** `f` with every element tagged `tag` removed together with its subtree. */
  function Strip(f: Forest, tag: string): (r: Forest)
    ensures Free(r, tag)
    ensures Labels(r) <= Labels(f)
    ensures Free(f, tag) ==> r == f
  {
    if |f| == 0 then []
    else
      var rest := Strip(f[1..], tag);
      match f[0]
      case Element(t, a, ch) =>
        if t == tag then rest else [Element(t, a, Strip(ch, tag))] + rest
      case Text(_) => [f[0]] + rest
      case Document(ch) => [Document(Strip(ch, tag))] + rest
  }

  lemma {:induction false} StripConcat(a: Forest, b: Forest, tag: string)
    ensures Strip(a + b, tag) == Strip(a, tag) + Strip(b, tag)
  {
    if |a| == 0 {
      assert a + b == b;
    } else {
      assert (a + b)[0] == a[0];
      assert (a + b)[1..] == a[1..] + b;
      StripConcat(a[1..], b, tag);
    }
  }

  /** `f` with the first element tagged `tag`, in document order, detached with its subtree. */
  function DetachFirst(f: Forest, tag: string): (r: Forest)
    requires !Free(f, tag)
    ensures Size(r) < Size(f)
    ensures Strip(r, tag) == Strip(f, tag)
  {
    FreeCons(f, tag);
    match f[0]
    case Element(t, a, ch) =>
      if t == tag then f[1..]
      else if !Free(ch, tag) then [Element(t, a, DetachFirst(ch, tag))] + f[1..]
      else [f[0]] + DetachFirst(f[1..], tag)
    case Text(_) => [f[0]] + DetachFirst(f[1..], tag)
    case Document(ch) =>
      if !Free(ch, tag) then [Document(DetachFirst(ch, tag))] + f[1..]
      else [f[0]] + DetachFirst(f[1..], tag)
  }

  /**
   * Detach the first element tagged `tag` for as long as one is left. The loop ends with
   * exactly the forest that drops every such element at once.
   */
  method RemoveAll(f: Forest, tag: string) returns (g: Forest)
    ensures Free(g, tag)
    ensures g == Strip(f, tag)
  {
    g := f;
    while !Free(g, tag)
      invariant Strip(g, tag) == Strip(f, tag)
      decreases Size(g)
    {
      g := DetachFirst(g, tag);
    }
  }

  function Reverse(s: Forest): (r: Forest)
    ensures |r| == |s|
    ensures forall i | 0 <= i < |s| :: r[i] == s[|s| - 1 - i]
  {
    if |s| == 0 then [] else Reverse(s[1..]) + [s[0]]
  }

  lemma {:induction false} LabelsReverse(s: Forest)
    ensures Labels(Reverse(s)) == Labels(s)
  {
    if |s| > 0 {
      LabelsReverse(s[1..]);
      LabelsConcat(Reverse(s[1..]), [s[0]]);
      assert Labels([s[0]]) == NodeLabels(s[0]);
    }
  }

  lemma {:induction false} SizeReverse(s: Forest)
    ensures Size(Reverse(s)) == Size(s)
  {
    if |s| > 0 {
      SizeReverse(s[1..]);
      SizeConcat(Reverse(s[1..]), [s[0]]);
      assert Size([s[0]]) == NodeSize(s[0]);
    }
  }

  /** The characters a CSS selector treats as separating class names. */
  predicate IsSelectorSpace(c: char)
  {
    c == ' ' || c == '\t' || c == '\n' || c == '\r' || c == '\U{C}'
  }

  /** The longest prefix of `s` holding no separator. */
  function LeadingWord(s: string): (w: string)
    ensures w <= s
    ensures forall i | 0 <= i < |w| :: !IsSelectorSpace(w[i])
    ensures |w| < |s| ==> IsSelectorSpace(s[|w|])
  {
    if |s| == 0 || IsSelectorSpace(s[0]) then "" else [s[0]] + LeadingWord(s[1..])
  }

  /** Position `i` of `s` begins a class name: it is no separator, and a separator or the start comes before it. */
  predicate StartsWord(s: string, i: int)
    requires 0 <= i < |s|
  {
    !IsSelectorSpace(s[i]) && (i == 0 || IsSelectorSpace(s[i - 1]))
  }

  /** `w` is one of the class names of `s`: the separator-free run that starts at a word start. */
  predicate IsWordOf(s: string, w: string)
  {
    exists i | 0 <= i < |s| && StartsWord(s, i) :: w == LeadingWord(s[i..])
  }

  /** A class name of a suffix of `s` is one of `s`, when the suffix does not cut a name in two. */
  lemma WordOfSuffix(s: string, k: nat, w: string)
    requires 0 < k <= |s| && IsWordOf(s[k..], w)
    requires IsSelectorSpace(s[k - 1]) || (k < |s| && IsSelectorSpace(s[k]))
    ensures IsWordOf(s, w)
  {
    var i :| 0 <= i < |s[k..]| && StartsWord(s[k..], i) && w == LeadingWord(s[k..][i..]);
    assert s[k..][i..] == s[k + i..];
    assert StartsWord(s, k + i);
  }

  lemma WordsAfterSpace(s: string, ws: seq<string>)
    requires |s| > 0 && IsSelectorSpace(s[0])
    requires forall w | w in ws :: IsWordOf(s[1..], w)
    ensures forall w | w in ws :: IsWordOf(s, w)
  {
    forall w | w in ws
      ensures IsWordOf(s, w)
    {
      WordOfSuffix(s, 1, w);
    }
  }

  lemma WordsAfterWord(s: string, w: string, rest: seq<string>)
    requires 0 < |w| <= |s| && w == LeadingWord(s)
    requires forall v | v in rest :: IsWordOf(s[|w|..], v)
    ensures forall v | v in [w] + rest :: IsWordOf(s, v)
  {
    assert s[0..] == s && StartsWord(s, 0);
    forall v | v in rest
      ensures IsWordOf(s, v)
    {
      WordOfSuffix(s, |w|, v);
    }
  }

  /**
   * The class names of a class attribute, in order: the separator-free runs of the text. Each
   * is non-empty and holds no separator, every run that starts somewhere in the text is
   * listed, and nothing else is.
   */
  function Words(s: string): (ws: seq<string>)
    ensures forall i | 0 <= i < |ws| :: ws[i] != ""
    ensures forall i, j | 0 <= i < |ws| && 0 <= j < |ws[i]| :: !IsSelectorSpace(ws[i][j])
    ensures forall i | 0 <= i < |s| && StartsWord(s, i) :: LeadingWord(s[i..]) in ws
    ensures forall w | w in ws :: IsWordOf(s, w)
    decreases |s|
  {
    if |s| == 0 then []
    else if IsSelectorSpace(s[0]) then
      var ws := Words(s[1..]);
      assert forall i | 1 <= i < |s| :: s[i..] == s[1..][i - 1..];
      assert forall i | 1 <= i < |s| && StartsWord(s, i) :: StartsWord(s[1..], i - 1);
      WordsAfterSpace(s, ws);
      ws
    else
      var w := LeadingWord(s);
      var rest := Words(s[|w|..]);
      assert forall i | |w| < i < |s| :: s[i..] == s[|w|..][i - |w|..];
      assert forall i | |w| < i < |s| && StartsWord(s, i) :: StartsWord(s[|w|..], i - |w|);
      assert forall i | 0 < i <= |w| && i < |s| :: !StartsWord(s, i);
      WordsAfterWord(s, w, rest);
      [w] + rest
  }

  /**
   * The class selector `.name` matches an element with these attributes: `name` is one of
   * the class names of its class attribute.
   */
  predicate HasClass(attrs: Attrs, name: string): (r: bool)
    ensures r ==> "class" in attrs && name != "" && forall j | 0 <= j < |name| :: !IsSelectorSpace(name[j])
    ensures "class" in attrs && |attrs["class"]| > 0 && StartsWord(attrs["class"], 0) && name == LeadingWord(attrs["class"]) ==> r
    ensures r <==> "class" in attrs && IsWordOf(attrs["class"], name)
  {
    "class" in attrs && name in Words(attrs["class"])
  }

  // ---------------------------------------------------------------------------
  // The tree as a stream of tokens in document order.
  // ---------------------------------------------------------------------------

  /** One step of a walk through a tree in document order. */
  datatype Token = Open(tag: string, attrs: Attrs) | Close | Chars(text: string) | DocOpen | DocClose

  /** The walk through `n`: its opening token, the walk through its children, its closing token. */
  function NodeTokens(n: Node): seq<Token>
  {
    match n
    case Element(t, a, ch) => [Open(t, a)] + Tokens(ch) + [Close]
    case Text(s) => [Chars(s)]
    case Document(ch) => [DocOpen] + Tokens(ch) + [DocClose]
  }

  function Tokens(f: Forest): seq<Token>
  {
    if |f| == 0 then [] else NodeTokens(f[0]) + Tokens(f[1..])
  }

  lemma {:induction false} TokensConcat(a: Forest, b: Forest)
    ensures Tokens(a + b) == Tokens(a) + Tokens(b)
  {
    if |a| == 0 {
      assert a + b == b;
    } else {
      assert (a + b)[0] == a[0];
      assert (a + b)[1..] == a[1..] + b;
      TokensConcat(a[1..], b);
    }
  }

  lemma TokensSingle(n: Node)
    ensures Tokens([n]) == NodeTokens(n)
  {
    assert [n][1..] == [];
  }
}
